=== FILE: README.md ===
# mmctools core logic in Dafny

This project models five pieces of sequential logic from the mmctools
repository and proves properties of them:

- **`InputFile`** (`sowfa/utils.py`, module `FoamInput`) reads OpenFOAM-style
  dictionaries. It blanks `#` directives, cuts `//` comments, removes
  slash-star block comments and flattens the text. It then splits the text
  into definitions (`name value;`, `name { … }`, `name ( … )`, `( … )`) and
  decodes them recursively into a tree of numbers, booleans, strings, maps
  and lists. Top-level scalars become attributes and top-level blocks become
  `_properties` entries.
- **`Report`** (`measurements/little_r.py`, module `LittleR`) reads the
  LITTLE_R report header. A Fortran-style layout (`F20.5 A40 I10 L …`) gives
  one field decoder and one format piece per edit descriptor. A header line
  is split on whitespace and its tokens are converted pairwise.
- **Subplot grids** (`plotting.py`, module `PlotGrid`) cover
  `_calc_nrows_ncols`, the `stack_by` defaults and the axis-index formulas of
  `plot_profile` and `plot_timehistory_at_height`.
- **`LandUseTable`** (`wrf/landuse.py`, module `LandUse`) reads WRF's
  `LANDUSE.TBL`: named tables, each with a comma-separated header line and
  `Nseason` seasons of `Ndef` rows. Rows missing the comma after their index
  are repaired.
- **`OpenFAST`** (`turbines.py`, module `Turbines`) holds:
  - the per-run seed list;
  - template-field validation (`_generate_input`);
  - the TurbSim input naming of `setup_turbsim`;
  - the inflow-type guards of `_setup_openfast` and `run`;
  - the `parallel` flag of `run_all`.

Four shared modules model the Python behaviour the core relies on:

- `Wrappers`: `Option` and a failure-propagating `Result`.
- `PyText`: `str.strip`, `str.split`, `str.find`, `str.join`, `lower`.
- `PyNum`: the strings `float()` and `int()` accept, and the `'{:02d}'`
  rendering.
- `OrderedDict`: a Python `dict` with insertion order, as a sequence of
  pairs.

An exception the source raises is a `Failure` carrying an `Error` value
that names it. Numbers read from text are kept as the lexeme that `float()`
accepted, so no floating-point arithmetic is modelled.

## Model

| member | source | states |
|---|---|---|
| FoamInput.CleanLine | sowfa/utils.py:33-42 | a line whose stripped form starts with `#` becomes empty; a line without `//` is kept exactly as read; no `//` survives in any result |
| FoamInput.CleanLineCut | sowfa/utils.py:38-42 | a non-directive line holding `//` splits, once stripped, as `p + "//" + q` with no `//` starting in `p`, and cleans to `p` stripped: the text before the first `//` |
| FoamInput.CommentCut | sowfa/utils.py:40-42 | the text before the first `//`, stripped, holds no `//` |
| FoamInput.RemoveBlockComments | sowfa/utils.py:44-52 | corrected scan: no comment opener survives and the text never grows; a text without one is unchanged; the only failure is 'Mismatched comment block' |
| FoamInput.CommentSpan | sowfa/utils.py:44-52 | corrected scan: in `a` + slash-star + `c` + star-slash + `b`, with no opener in `a` and no closer in `c`, the comment is cut out whole and the scan continues on `a + b` |
| FoamInput.UnclosedComment | sowfa/utils.py:44-50 | corrected scan: `a` + slash-star + `c`, with no opener in `a` and no closer in `c`, fails with 'Mismatched comment block' |
| FoamInput.RemoveBlockCommentsAsWritten | sowfa/utils.py:45-52 | the scan as written (closer searched from `idx0+1`): it also leaves no opener and fails only with the mismatched-comment error |
| FoamInput.SelfClosingComment | sowfa/utils.py:47 | on `/*/ a */` the as-written scan keeps ` a */`, while the corrected scan removes the whole comment |
| FoamInput.Flatten | sowfa/utils.py:54-56 | the flattened text holds no newline or tab and starts and ends with a non-space |
| FoamInput.FlattenContent | sowfa/utils.py:54-56 | the flattened text is the infix of the input between its leading and trailing whitespace, each newline and tab in it replaced by a space, every other character kept |
| FoamInput.Preprocess | sowfa/utils.py:33-56 | with the corrected comment scan: the text handed to the splitter has no newline, tab, surrounding whitespace or comment opener |
| FoamInput.PreprocessPlain | sowfa/utils.py:33-56 | lines with no `#` directive, no `//` and no comment opener reach the splitter as their newline-joined text, flattened: preprocessing changes nothing else |
| FoamInput.BlockExtent | sowfa/utils.py:101-113 | the block ends at the FIRST closer at which openers and closers balance; it fails with 'Mismatched input block' exactly when no such closer exists |
| FoamInput.ScanFrom | sowfa/utils.py:107-113 | the rescan loop, started after a closer with no balanced end before it, finds the first balanced end or proves there is none |
| FoamInput.ScanAsWritten | sowfa/utils.py:107-113 | the loop as written ends either at a balanced closer or with the empty block (0) |
| FoamInput.BlockExtentAsWritten | sowfa/utils.py:101-113 | as written, the extent is a balanced end or the empty block; it fails only when the text holds no closer at all |
| FoamInput.AdjacentCloserSkipped | sowfa/utils.py:110 | on `((1 2));` the loop as written yields the empty block while the balanced block ends at 7 |
| FoamInput.UnbalancedBlockSilent | sowfa/utils.py:107-113 | on `((1 2);` the loop as written yields the empty block while the corrected scan reports a mismatched block |
| FoamInput.TakeName | sowfa/utils.py:66-74 | text starting with `(` gives an anonymous definition and keeps the whole text; otherwise a name is taken and the rest starts with a non-space |
| FoamInput.ValueWord | sowfa/utils.py:76-83 | the value word holds no space; it is the whole text exactly when the text has no space |
| FoamInput.BlockTextShape | sowfa/utils.py:104-111 | the block text (collapsed or plain) starts with its opener, ends with its closer and balances them |
| FoamInput.SplitBlock | sowfa/utils.py:91-121 | with the corrected block scan: a block definition is well formed, of the kind its opener selects, and the text after it is shorter |
| FoamInput.SplitOne | sowfa/utils.py:65-121 | with the corrected block scan: one definition from the front of the text is well formed, and the remaining text is strictly shorter |
| FoamInput.SplitOneScalar | sowfa/utils.py:76-89 | a value word ending in `;` gives a scalar definition of the name holding the word without its `;` |
| FoamInput.SplitOneCases | sowfa/utils.py:76-100 | the failures by the value word after the name: an empty word raises IndexError; a word opening neither `{` nor `(` fails 'Unknown input block'; a block opened by the text's last word fails 'Mismatched input block' |
| FoamInput.SplitOneBlock | sowfa/utils.py:90-121 | a block word that is not the text's last is split off by `SplitBlock` with the kind its opener selects |
| FoamInput.SplitDefs | sowfa/utils.py:63-122 | with the corrected block scan: every definition found is well formed (a scalar holds no space; a block starts with its opener, ends with its closer and balances them) and no longer than the text; empty text gives no definitions |
| FoamInput.SplitScalars | sowfa/utils.py:63-89 | scalar definitions `name value;` (name not starting with `(`, neither part holding a space) joined by single spaces split back into exactly those definitions, in order |
| FoamInput.DecodeScalar | sowfa/utils.py:136-154 | a word decodes to a number exactly when `float()` accepts it, keeping the word; otherwise to a boolean exactly when its lower-cased form is a listed true or false word, true exactly for the true words; any other word to the string stripped of `"` and then of `'` |
| FoamInput.ParseScalar | sowfa/utils.py:132-135 | a scalar succeeds exactly when its stripped text holds no space, and then decodes that text |
| FoamInput.SplitScalarParses | sowfa/utils.py:135 | a scalar found by the splitter never trips the no-space assertion |
| FoamInput.BooleanNotFloat | sowfa/utils.py:136-150 | `float()` rejects every case spelling of the true and false words |
| FoamInput.BooleanWords | sowfa/utils.py:147-150 | a word whose lower case is in `true_values` decodes to true, one in `false_values` to false, in any mix of case |
| FoamInput.QuotedWord | sowfa/utils.py:151-154 | `"x"` decodes to the string `x` when `x` does not begin or end with a quote |
| FoamInput.SingleQuotedWord | sowfa/utils.py:151-154 | `'x'` decodes to the string `x` when `x` does not begin or end with a quote |
| FoamInput.Attach | sowfa/utils.py:158-181 | inside a map a value is stored under its name and every other name keeps its value; inside a list it is appended |
| FoamInput.ParseValue | sowfa/utils.py:125-192 | a scalar definition decodes to a scalar, a map block to a map, a list block to a list |
| FoamInput.ParseBlock | sowfa/utils.py:182-192 | a block decodes to a map exactly when it is a map block, and to a list exactly when it is a list block |
| FoamInput.ParseDefs | sowfa/utils.py:190-192 | the re-split inner definitions fill a container of the block's own kind |
| FoamInput.BlockOfDefs | sowfa/utils.py:182-192 | a block's inner text parses exactly when it splits and each of its definitions parses on its own; a list block is then the list of those values in order, a map block holds each name's last value |
| FoamInput.Fill | sowfa/utils.py:186-192 | filling keeps the container's kind, and a list gains one item per definition |
| FoamInput.FillList | sowfa/utils.py:176-192 | filling a list appends the definitions' values in order, or fails with the first definition that fails to parse |
| FoamInput.FillMap | sowfa/utils.py:170-192 | filling a map succeeds exactly when every definition parses, fails with the first failure otherwise, and leaves each name holding the value of its last definition and every other name as it was |
| FoamInput.WordList | sowfa/utils.py:183-189 | a list of plain words has one item per word |
| FoamInput.ListOfWords | sowfa/utils.py:182-189 | `( w1 … wn )` of words without parentheses parses to a list of n items, item i being the decoded word i |
| FoamInput.MapOfScalars | sowfa/utils.py:125-192 | `{ n1 v1; … nk vk; }` of writable scalar definitions parses to a map in which each name holds the decoded value of its last definition |
| FoamInput.Place | sowfa/utils.py:158-169 | a top-level scalar becomes an attribute, and an anonymous one fails; a top-level block goes into `_properties`, leaving attributes unchanged, and its key is appended only if new |
| FoamInput.Build | sowfa/utils.py:57-60 | afterwards the `_properties` keys are the earlier keys plus the names of the block definitions, and nothing else; keys stay distinct |
| FoamInput.Load | sowfa/utils.py:27-60 | with the corrected scans: a loaded file's `_properties` keys are exactly the names of the block definitions found in its preprocessed text, and are distinct |
| FoamInput.GetItem | sowfa/utils.py:195-196 | `obj[key]` fails with KeyError exactly when the key is absent; otherwise it returns the value stored under it |
| FoamInput.KeysOf | sowfa/utils.py:198-199 | a key is listed by `keys()` exactly when `obj[key]` succeeds |
| FoamInput.ItemsAgree | sowfa/utils.py:195-202 | every pair of `items()` is what `obj[key]` returns for its key |
| LittleR.Records | measurements/little_r.py:16 | the layout's descriptors are non-empty words without whitespace |
| LittleR.DecoderOf | measurements/little_r.py:19-34 | A or a selects str, L or l selects bool, I or i selects int, and every other first letter selects float |
| LittleR.Conversion | measurements/little_r.py:19-35 | str and bool descriptors convert with `s`, int with `d`, and a float descriptor with its own lowered type letter |
| LittleR.Piece | measurements/little_r.py:35 | the format piece is `{:`, then the descriptor without its type letter, then the conversion letter, then `}` |
| LittleR.FormatOf | measurements/little_r.py:35-36 | the pieces of n descriptors add 3·n characters to the descriptors' width text, and, for descriptors without braces, hold exactly n `{` and n `}` |
| LittleR.NewReport | measurements/little_r.py:14-36 | a report has one decoder per descriptor of the layout, in order, each chosen by its descriptor's type letter; the header format is three characters per descriptor longer than the descriptors' text and, when they hold no braces, has exactly one `{` and one `}` per descriptor |
| LittleR.PieceExamples | measurements/little_r.py:19-35 | `F20.5` becomes `{:20.5f}`, `A40` becomes `{:40s}`, `I10` becomes `{:10d}` and `L` becomes `{:s}`, with the matching decoders |
| LittleR.CommaIsSeparator | measurements/little_r.py:16 | a comma in the layout separates descriptors exactly as a space does |
| LittleR.LayoutOfDescriptors | measurements/little_r.py:16-36 | descriptors written out with single spaces come back as their decoders and their concatenated format pieces, in order |
| LittleR.DecodeField | measurements/little_r.py:56 | a str field keeps its token; `bool(token)` is true exactly for a non-empty token; int and float succeed exactly when `int()` / `float()` accept the token, giving the integer's value or the accepted lexeme, else ValueError |
| LittleR.DecodeFields | measurements/little_r.py:56 | pairwise conversion succeeds exactly when every token converts, and field i is token i's conversion |
| LittleR.ReadHeader | measurements/little_r.py:49-56 | no header exactly at end of file; a token count other than the decoder count fails the assertion; otherwise the header succeeds exactly when `DecodeFields` does and is the line's tokens converted pairwise by the decoders |
| LittleR.ReadHeaderAsWritten | measurements/little_r.py:49-56 | as written, every line other than the end-of-file marker raises NameError |
| LittleR.HeaderNameError | measurements/little_r.py:55-56 | for a one-token logical line, the code as written raises NameError, while the reader with the report's own decoders gives `[True]` |
| LittleR.LogicalAlwaysTrue | measurements/little_r.py:56 | every logical field of a header read is true, even for `F` |
| LittleR.Read | measurements/little_r.py:41-47 | with the corrected header reader: `read` gives no header exactly when the file is empty |
| LittleR.ReadOneHeader | measurements/little_r.py:43-47 | lines after the first never affect `read` |
| LittleR.NewReportFrom | measurements/little_r.py:14-39 | with the corrected header reader: `Report(fname)` is the layout's report; it fails exactly when reading the file's header fails |
| PlotGrid.CalcNrowsNcols | plotting.py:873-901 | a single row or column of plots uses at most two rows; small grids (N1 ≤ 3, N2 ≤ 4) are N2 rows of N1 columns |
| PlotGrid.GridHoldsAll | plotting.py:878-901 | for N1, N2 ≥ 1 the grid has exactly N1·N2 cells, as the callers assert |
| PlotGrid.OneRowLayout | plotting.py:878-887 | with N1 = 1 or N2 = 1, the grid is one row of max(N1, N2) columns, or two rows of half as many when that maximum is above 3 and even |
| PlotGrid.ColumnsSplit | plotting.py:892-900 | otherwise N1 rows of N2 columns, with columns halved and rows doubled when N2 is above 3 and even |
| PlotGrid.ProfileStack | plotting.py:561-568 | `stack_by` defaults to times when there is more than one time, else datasets; any other explicit value fails the assertion |
| PlotGrid.TimeHistoryStack | plotting.py:341-348 | `stack_by` defaults to heights when there is more than one height, else datasets; any other explicit value fails the assertion |
| PlotGrid.ProfileStackAxes | plotting.py:561-634 | for any accepted `stack_by`, given or defaulted, every (dataset, field, time) lands on an axis of the grid and every axis is drawn on |
| PlotGrid.TimeHistoryStackAxes | plotting.py:341-413 | for any accepted `stack_by`, given or defaulted, every (dataset, field, height) lands on a row and every row is drawn on |
| PlotGrid.ProfileAxes | plotting.py:613-634 | the axis indices `j*Ndatasets+i` and `j*Ntimes+k` lie in the grid from `_calc_nrows_ncols` and are distinct for distinct pairs; every axis is used by one pair |
| PlotGrid.TimeHistoryAxes | plotting.py:392-413 | the row indices `i*Nfields+j` and `k*Nfields+j` lie below nrows (`Nfields*Ndatasets` or `Nfields*Nheights`), are distinct for distinct pairs, and every row is used |
| PlotGrid.RowStartsInGrid | plotting.py:669-670 | the y-label axes `r*ncols` lie in the grid |
| LandUse.ToInt | wrf/landuse.py:19-20 | `int()` succeeds exactly on an integer literal once surrounding whitespace is ignored |
| LandUse.ParseHeader | wrf/landuse.py:18-23 | it succeeds exactly when the first two comma fields are integers and a third field exists; the header is `index`, the third field's words, `description` |
| LandUse.HeaderOfFields | wrf/landuse.py:18-23 | a line split into two counts and a quoted column list gives those counts and `['index'] + columns + ['description']` |
| LandUse.HeaderRoundTrip | wrf/landuse.py:18-23 | a header line written from counts and column names reads back as them |
| LandUse.Repair | wrf/landuse.py:31-35 | a row of full width is untouched; a shorter row is repaired exactly when it is one field short, and otherwise fails the assertion |
| LandUse.Floats | wrf/landuse.py:36 | the middle fields convert exactly when each is a float, giving their stripped lexemes; otherwise a non-float field is reported |
| LandUse.ParseFields | wrf/landuse.py:36-39 | a row read has one cell per column after `index` and had exactly one field per header column |
| LandUse.FieldsAccepted | wrf/landuse.py:36-39 | a full-width row whose first field is an integer and whose middle fields are floats is always read |
| LandUse.FieldsCells | wrf/landuse.py:36-39 | a row read had every middle field accepted by `float()` (with FieldsAccepted: a row is read exactly when its width, label and middle fields are valid), is labelled by its first field's integer, holds the middle fields' float lexemes, and ends with the description stripped of whitespace and then of `'` |
| LandUse.ParseRow | wrf/landuse.py:30-39 | a row two or more fields short fails the assertion, a row too long fails, and a row read fills every column |
| LandUse.RowViaRepair | wrf/landuse.py:30-35 | a row line is read as its repaired comma fields |
| LandUse.RepairedRowAgrees | wrf/landuse.py:31-35 | a row missing the comma after its label reads exactly like the same row with the comma |
| LandUse.EmptyRowFails | wrf/landuse.py:30-33 | the empty line `readline()` gives at end of file is never read as a row |
| LandUse.FieldsRoundTrip | wrf/landuse.py:36-39 | the fields of a row written as label, float lexemes and quoted description read back as that label and those cells |
| LandUse.RowRoundTrip | wrf/landuse.py:30-39 | a row line written as label, float lexemes and quoted description reads back as that label and those cells |
| LandUse.RangeIndex | wrf/landuse.py:25 | the index holds labels 1..Ndef in order, every row still empty |
| LandUse.RowsOfSpec | wrf/landuse.py:29-39 | parsing a run of row lines succeeds exactly when every line parses, and row j is line j's row |
| LandUse.ReadRowLinesSpec | wrf/landuse.py:29-30 | reading `Ndef` lines from a position takes exactly the next `Ndef` lines, and fails when the file ends first |
| LandUse.StoredRows | wrf/landuse.py:37-39 | storing rows by label leaves each label holding its last row, every other label as it was, and the index order extended only by new labels |
| LandUse.ReadRows | wrf/landuse.py:29-39 | reading `Ndef` rows succeeds exactly when the next `Ndef` lines exist and each parses as a row; the index then holds those rows stored by label, it consumed exactly those lines, and labels are never moved, dropped or duplicated |
| LandUse.SeasonTable | wrf/landuse.py:25-39 | a season whose rows are labelled 1..Ndef in order is the frame whose row i is the i-th line's row |
| LandUse.ReadSeason | wrf/landuse.py:27-39 | a season takes its name line and `Ndef` rows; its frame has the header's columns after `index` and labels 1..Ndef first |
| LandUse.SeasonLinesProduct | wrf/landuse.py:26-30 | `Nseason` seasons take `Nseason·(1+Ndef)` lines |
| LandUse.ReadSeasons | wrf/landuse.py:26-40 | the season loop consumes `Nseason·(1+Ndef)` lines and every frame is shaped by the header |
| LandUse.ReadDef | wrf/landuse.py:17-41 | a table takes its header line and its seasons' lines, its header starts with `index` and ends with `description`, and every season frame has the header's shape |
| LandUse.Load | wrf/landuse.py:8-15 | a file whose first line strips to nothing has no tables; every table name is a non-empty stripped line |
| Turbines.RandInt | turbines.py:33 | `randint(a, b)` lies in [a, b] |
| Turbines.Seeds | turbines.py:32-34 | the sweep has n seeds, each in [-2147483648, 2147483647] |
| Turbines.Init | turbines.py:20-34 | a new driver has `len(range(Nruns))` seeds in TurbSim's range, no inflow type, no `URef`, `parallel` false and no set-up attributes |
| Turbines.SeedsPrefix | turbines.py:32-34 | the seeds depend only on the start seed, and a longer sweep begins with the seeds of a shorter one |
| Turbines.Fill | turbines.py:38-45 | the filled map has exactly the template's fields, in order; a supplied field holds its value and any other keeps its format |
| Turbines.Stray | turbines.py:40-49 | the first supplied key that is not a template field, or none when every key is one |
| Turbines.Generate | turbines.py:36-55 | it succeeds exactly when the supplied keys are the template fields; the filled map then has exactly the template's keys and each supplied value in its field |
| Turbines.GenerateErrors | turbines.py:40-52 | a stray key raises KeyError naming the first such key and the template file; otherwise the KeyError lists exactly the fields nobody supplied |
| Turbines.RemoveOne | turbines.py:46 | `list.remove` takes away exactly one occurrence |
| Turbines.GenerateInput | turbines.py:36-55 | the loop of `_generate_input` computes the same result as `Generate` |
| Turbines.TurbsimInputs | turbines.py:64-67 | one TurbSim input path per run, and (for a prefix without `/`) path i names the file `<prefix>_NN.inp` of run i |
| Turbines.TurbsimInputsDistinct | turbines.py:64-67 | distinct runs get distinct TurbSim input files |
| Turbines.PathJoin | turbines.py:64-68 | `os.path.join(a, b)`: an absolute `b` replaces `a`; otherwise the result is `b` after a prefix that is empty or ends with `/` |
| Turbines.Basename | turbines.py:109 | `os.path.split(p)[1]`: the longest suffix of `p` without `/` |
| Turbines.SplitExtRoot | turbines.py:110 | `os.path.splitext(p)[0]` is a prefix of `p`; what it cuts off is a dot followed by no `/` and no further dot |
| Turbines.BasenameJoin | turbines.py:109 | the basename of a joined path is the joined name, when it has no `/` |
| Turbines.BtsOfRun | turbines.py:108-111 | run i's TurbSim input `prefix_NN.inp` gives the flow file `prefix_NN.bts`, where NN is i zero-padded to two digits |
| Turbines.GenerateRuns | turbines.py:69-73 | the per-seed loop succeeds exactly when the template fields are the caller's keys plus `RandSeed1`; it leaves the last seed in `RandSeed1` and every other key unchanged |
| Turbines.SetupTurbsim | turbines.py:57-74 | a missing `URef` raises KeyError; on success, `inflowtype` is 'turbsim' and `inflowdir`, `URef` and the input list are recorded; a failure is the first run's template error |
| Turbines.SetupOpenFAST | turbines.py:98-129 | only inflow type 'turbsim' is accepted; it succeeds exactly when the inflow is TurbSim, the run's TurbSim input and the inflow directory exist, and both templates accept the values supplied; it then writes `InflowWind_NN.dat` pointing at the run's `.bts` file and `runNN.fst` pointing at that inflow file, and returns `runNN.fst` |
| Turbines.SetupAfterTurbsim | turbines.py:98-129 | after `setup_turbsim`, every run's set-up succeeds on the standard templates and points InflowWind at `inflowdir/prefix_NN.bts` |
| Turbines.Run | turbines.py:131-162 | before set-up `run` raises 'Need to setup inflow'; another inflow type fails the assertion; success needs TurbSim and both programs to terminate normally |
| Turbines.RunIsSetup | turbines.py:131-162 | a run succeeds exactly when the inflow is TurbSim, both programs succeed and the input set-up succeeds, and it then yields that set-up |
| Turbines.RunAll | turbines.py:164-172 | `parallel` becomes exactly `procs > 1`; all runs succeed exactly when each run does, yielding their set-ups in order; a failure is the lowest failing run's |

## Left out

- File handles, `readline`/`readlines`, and writing files and logs: inputs are sequences of lines or a single string.
- The `DEBUG` printing and the `verbose` progress messages: they print only and have no effect on results. The one exception is the verbose echo inside `_generate_input`, listed under `Turbines.Generate`.
- The composed readers use the corrected scans of "## Findings". `FoamInput.Preprocess`, `SplitBlock`, `SplitOne`, `SplitDefs` and `Load` use `RemoveBlockComments` and `BlockExtent`. `LittleR.Read` and `NewReportFrom` use `ReadHeader`. On the inputs listed there, the code as written behaves as the as-written members say, not as the composed readers do.
- State left behind by a failure: where the source raises part-way, the model returns only the error. It does not return the partially filled object.
- `float()` values and IEEE arithmetic: a float is kept as the lexeme `float()` accepted. Acceptance by `float()` and by `int()` (`IsIntLiteral`, used by `LittleR.DecodeField` and `LandUse.ToInt`) follows Python's literal grammar for ASCII digits only. Python also accepts other Unicode decimal digits.
- `str.lower`: modelled for ASCII letters only. This is exact for the membership tests against the boolean word lists, whose words are ASCII.
- The `'{:…}'` format pieces of `header_fmt` are built but never applied. The source never applies them either.
- `header_record_str` is a module global that callers may override: it is a parameter of `NewReport`.
- The fuller LITTLE_R codec (data records, sentinels, trailers) is not in the code and is not modelled.
- `random.seed`/`random.randint`: the Mersenne Twister is replaced by a `draw` function parameter. Only the shape and range of the seed list are stated.
- `InputTemplate` (`get_fields`, `generate`) is not part of this model. A template is given by its `{field: format}` map, and a generated file by the filled map.
- `run_turbsim`, `subprocess.Popen` and `read_outputs`: the outcome of each external program is a boolean parameter, and output reading is not modelled.
- The `multiprocessing.Pool` of `run_all`: runs are taken one after another. With a pool every run starts, and the model reports the error of the lowest-numbered failing run.
- Matplotlib rendering, titles, labels, colours and limits in `plotting.py`. Only grid shapes and axis indices are modelled.
- pandas frames: a season frame is an insertion-ordered map from row label to row. A row no line has filled is `None`.
- FoamInput.ParseValue: the contract states only the kind of the decoded value. The contents of a block are stated one level deep by `BlockOfDefs`, `FillList` and `FillMap`, in terms of each inner definition parsed on its own. Closed forms are given for flat word lists (`ListOfWords`) and maps of scalars (`MapOfScalars`), not for deeper nesting.
- FoamInput.ParseBlock: the same; only the kind of the container is stated, and the contents through `BlockOfDefs`.
- FoamInput.ParseDefs: states the container kind; the contents are stated by `BlockOfDefs`.
- FoamInput.Fill: states the container kind and, for a list, the item count. The items are stated by `FillList` and the map entries by `FillMap`.
- FoamInput.Load: states the keys of `_properties`, not the values stored under them.
- FoamInput.Place: a top-level scalar is stored apart from the object's own attributes. In the source, `setattr` shares one namespace with `_properties`, `true_values`, `false_values`, `block_defs`, `DEBUG` and `keys`. A scalar with one of those names replaces that attribute, and later parsing can then raise TypeError: after `true_values on;`, `'b' in True` raises on the next word; after `_properties 1;`, storing the next block raises. The model does not see these collisions.
- FoamInput.Build: for the same reason, the key characterisation does not hold in the source once a top-level scalar named `_properties` precedes a block.
- FoamInput.WordList: states the item count; the items are stated by `ListOfWords`.
- LandUse.ParseFields: on a frame of two or more columns, a row that yields a single cell is rejected with `RowLength`, while the source stores it when its label already exists. For example, after header `1,1,'ALBD'` the row `1,'x'` gives the cell list `['x']`. Assigning that list with `.loc` to the existing label 1 of the frame (a single object block of 2 columns) broadcasts `'x'` into both columns `ALBD` and `description`. This broadcast is not modelled because it depends on pandas' block layout; for a new label pandas raises a ValueError, as the model does. `LandUse.ParseRow` and `LandUse.ReadRows` inherit this.
- LandUse.ReadSeason: states the lines consumed and the frame's shape, not the row values. The row values are stated for the rows step by `ReadRows` and, for rows labelled 1..Ndef, by `SeasonTable`.
- LandUse.ReadSeasons: states the lines consumed and the frames' shape, not the season names or row values.
- LandUse.ReadDef: states the lines consumed, the frames' shape and the header's `index` and `description` ends, not the column names between them.
- LandUse.Load: states that table names are non-empty stripped lines and the empty-file case. It does not state the number of tables.
- PlotGrid.CalcNrowsNcols: the contract states two of the cases. The full case analysis is in `OneRowLayout`, `ColumnsSplit` and `GridHoldsAll`.
- Turbines.Seeds: states the length and range only, because the generator is a parameter.
- Turbines.Generate: the echo of each supplied value when `verbose` is set (the default, turbines.py:20) is not modelled. It formats the value with `'{:' + fmt[-1] + '}'`. An empty format raises IndexError, and a value whose type does not take that conversion (a string with `d`, a number with `s`) raises ValueError. Either error comes before a later key's KeyError. The model promises the outcome of `_generate_input` with `verbose=False`.
- Turbines.GenerateInput: the same verbose echo inside the loop is not modelled; the loop is the `verbose=False` one.
- Turbines.SplitExtRoot: states what is cut off when something is, not when a trailing extension is kept (a basename made of leading dots only).

## Findings

| source | as written | input that shows it | evidently intended | confidence | as-written member | corrected member |
|---|---|---|---|---|---|---|
| sowfa/utils.py:110 | The rescan searches for the next closer from `idx+1`, one past the position after the last closer tried. A closer that directly follows the previous one is never tried. | `a ((1 2));` gives an empty block text instead of `((1 2))`. | Search from `idx`, so that every closer is tried in turn. | not executed | FoamInput.BlockExtentAsWritten, FoamInput.AdjacentCloserSkipped | FoamInput.BlockExtent |
| sowfa/utils.py:107-113 | When no further closer exists, `find` returns -1. `idx` then becomes 0, and the empty prefix counts as balanced, so the loop ends with an empty block. | `a ((1 2);` yields an empty block and no assertion. | Raise 'Mismatched input block', as the first search does. | not executed | FoamInput.ScanAsWritten, FoamInput.UnbalancedBlockSilent | FoamInput.BlockExtent |
| sowfa/utils.py:47 | The closing star-slash is searched from `idx0+1`. The `*` of the opening slash-star can therefore start the closer. | `/*/ a */` leaves ` a */` in the text. | Search from `idx0+2`. | not executed | FoamInput.RemoveBlockCommentsAsWritten, FoamInput.SelfClosingComment | FoamInput.RemoveBlockComments |
| measurements/little_r.py:17 | `header_dtypes` is a local of `__init__`, but `_read_header` reads it at lines 55-56 as a global. | Any non-empty header line raises NameError. | Keep the decoders on the report (`self.header_dtypes`). | not executed | LittleR.ReadHeaderAsWritten, LittleR.HeaderNameError | LittleR.ReadHeader |

=== FILE: foam_input.dfy ===
/** The OpenFOAM-style dictionary reader `InputFile` (sowfa/utils.py).

    Reading happens in three stages, each a function here:
    - `Preprocess`: directive lines (`#…`) are blanked, `//` comments cut,
      slash-star … star-slash spans removed and the text flattened onto one line;
    - `SplitDefs`: the flat text is cut into definitions — `name value;`,
      `name { … }`, `name ( … )` or an anonymous `( … )`;
    - `ParseValue` / `Build`: each definition is decoded recursively into a
      tree of numbers, booleans, strings, maps and lists.

    Two places in the source scan text in a way that is evidently not what was
    meant (see `BlockExtentAsWritten` and `RemoveBlockCommentsAsWritten`);
    both are modelled as written, and the three stages above use the
    corrected scans. */
module FoamInput {
  import opened Wrappers
  import opened PyText
  import opened PyNum
  import opened OrderedDict

  /** A definition's name; `None` for an anonymous list. */
  type Name = Option<string>

  /** A decoded value.  A float is kept as the lexeme `float()` accepted. */
  datatype Value =
    | Num(lexeme: string)
    | Bool(b: bool)
    | Str(s: string)
    | Map(entries: Dict<Name, Value>)
    | List(items: seq<Value>)

  /** The container type of a definition: `None`, `dict` or `list` in the source. */
  datatype Kind = Scalar | MapBlock | ListBlock

  /** One definition found by `_split_defs`: its name, its text and its kind. */
  datatype Def = Def(name: Name, text: string, kind: Kind)

  /** The failures the source raises. */
  datatype Error =
    | MismatchedComment      // assertion 'Mismatched comment block'
    | UnknownBlock(opener: char)  // assertion 'Unknown input block'
    | MismatchedBlock        // assertion 'Mismatched input block'
    | SpaceInScalar          // assertion that a scalar holds no space
    | EmptyWord              // IndexError on an empty value word
    | UnnamedAttribute       // TypeError from setattr with a None name
    | KeyError(key: Name)    // lookup of an absent top-level block

  /** A parsed file: top-level scalars become attributes of the object,
      top-level blocks go into `_properties`. */
  datatype InputFile = InputFile(attributes: Dict<string, Value>, properties: Dict<Name, Value>)

  const TrueValues: seq<string> := ["true", "t", "on", "yes", "y"]
  const FalseValues: seq<string> := ["false", "f", "off", "no", "n", "none"]

  // ---------------------------------------------------------------------
  // Preprocessing (sowfa/utils.py:33-56)
  // ---------------------------------------------------------------------

  /** `s` holds `pat` somewhere. */
  predicate Contains(s: string, pat: string) {
    Find(s, pat, 0) >= 0
  }

  /** A `//` in a line lies inside its stripped form. */
  lemma CommentInsideStrip(line: string)
    requires !Contains(Strip(line), "//")
    ensures !Contains(line, "//")
  {
    var k := Find(line, "//", 0);
    if k >= 0 {
      PairInsideStrip(line, k);
    }
  }

  /** A `//` of a line reappears in its stripped form, shifted by the
      leading whitespace. */
  lemma PairInsideStrip(line: string, k: int)
    requires MatchAt(line, "//", k)
    ensures MatchAt(Strip(line), "//", k - LeadingSpaces(line))
  {
    MatchAtTwo(line, '/', '/', k);
    NonSpaceInsideStrip(line, k);
    NonSpaceInsideStrip(line, k + 1);
    MatchAtTwo(Strip(line), '/', '/', k - LeadingSpaces(line));
  }

  /** The text before the first `//` holds none. */
  lemma BeforeFirstPair(s: string, i: int)
    requires 0 <= i <= |s| && Find(s, "//", 0) == i
    ensures !Contains(s[..i], "//")
  {
    var p := s[..i];
    var k := Find(p, "//", 0);
    if k >= 0 {
      MatchAtTwo(p, '/', '/', k);
      MatchAtTwo(s, '/', '/', k);
    }
  }

  /** Cutting a line at its first `//` leaves no `//`, also after stripping. */
  lemma CommentCut(s: string, i: int)
    requires 0 <= i <= |s| && Find(s, "//", 0) == i
    ensures !Contains(Strip(s[..i]), "//")
  {
    BeforeFirstPair(s, i);
    StripNoPair(s[..i], '/', '/');
  }

  /** Splitting at the first `//` gives a prefix in which no `//` starts,
      not even one whose second `/` is the first `/` of the split. */
  lemma FirstPairSplit(s: string, i: int)
    requires 0 <= i && Find(s, "//", 0) == i
    ensures i + 2 <= |s| && s == s[..i] + "//" + s[i + 2..]
    ensures !Contains(s[..i] + "/", "//")
  {
    MatchAtTwo(s, '/', '/', i);
    assert s == s[..i] + "//" + s[i + 2..] by {
      assert s[i..i + 2] == "//";
      assert s == s[..i] + s[i..i + 2] + s[i + 2..];
    }
    PrefixSlashNoPair(s, i);
  }

  /** The first `//` of `s` does not start inside `s[..i + 1]`. */
  lemma PrefixSlashNoPair(s: string, i: int)
    requires 0 <= i < |s| && Find(s, "//", 0) == i
    ensures !Contains(s[..i] + "/", "//")
  {
    MatchAtTwo(s, '/', '/', i);
    var t := s[..i] + "/";
    var k := Find(t, "//", 0);
    if k >= 0 {
      MatchAtTwo(t, '/', '/', k);
      assert s[k] == '/' && s[k + 1] == '/' by {
        assert t[k] == s[k];
        if k + 1 < i { assert t[k + 1] == s[k + 1]; }
      }
      MatchAtTwo(s, '/', '/', k);
      assert false;
    }
  }

  /** One line after directive and `//` handling: a directive line is blanked,
      a commented line is cut at its first `//` and stripped (`CleanLineCut`),
      and any other line is left exactly as read.  No `//` survives. */
  function CleanLine(line: string): (r: string)
    ensures !Contains(r, "//")
    ensures StartsWith(Strip(line), "#") ==> r == ""
    ensures !StartsWith(Strip(line), "#") && !Contains(Strip(line), "//") ==> r == line
    ensures |r| <= |line|
  {
    var s := Strip(line);
    if StartsWith(s, "#") then ""
    else
      var i := Find(s, "//", 0);
      if i >= 0 then
        CommentCut(s, i);
        Strip(s[..i])
      else
        CommentInsideStrip(line);
        line
  }

  /** A commented line is what precedes its first `//`, stripped: the
      stripped line splits as `p + "//" + q` with no `//` starting in `p`, not
      even across into the split, and the line cleans to `p` stripped. */
  lemma CleanLineCut(line: string)
    requires !StartsWith(Strip(line), "#") && Contains(Strip(line), "//")
    ensures exists p, q :: Strip(line) == p + "//" + q && !Contains(p + "/", "//") && CleanLine(line) == Strip(p)
  {
    var s := Strip(line);
    var i := Find(s, "//", 0);
    FirstPairSplit(s, i);
    assert CleanLine(line) == Strip(s[..i]);
    assert s == s[..i] + "//" + s[i + 2..];
  }

  /** slash-star … star-slash removal with the closing star-slash searched from just after the
      opening slash-star.  No slash-star survives, a text without slash-star is unchanged, and a
      slash-star with no star-slash after it fails. */
  function RemoveBlockComments(txt: string): (r: Result<string, Error>)
    ensures r.Success? ==> !Contains(r.value, "/*") && |r.value| <= |txt|
    ensures !Contains(txt, "/*") ==> r == Success(txt)
    ensures r.Failure? ==> r.error == MismatchedComment
  {
    UncommentFacts(txt);
    Uncomment(txt)
  }

  /** The removal loop of `RemoveBlockComments`: cut out the first comment
      and scan again. */
  function Uncomment(txt: string): Result<string, Error>
    decreases |txt|
  {
    var i := Find(txt, "/*", 0);
    if i < 0 then Success(txt)
    else
      var j := Find(txt, "*/", i + 2);
      if j < 0 then Failure(MismatchedComment)
      else Uncomment(txt[..i] + txt[j + 2..])
  }

  /** The scan leaves no opener, never grows the text, keeps a text without
      an opener, and fails only with the mismatched-comment error. */
  lemma {:induction false} UncommentFacts(txt: string)
    ensures Uncomment(txt).Success? ==> !Contains(Uncomment(txt).value, "/*") && |Uncomment(txt).value| <= |txt|
    ensures !Contains(txt, "/*") ==> Uncomment(txt) == Success(txt)
    ensures Uncomment(txt).Failure? ==> Uncomment(txt).error == MismatchedComment
    decreases |txt|
  {
    var i := Find(txt, "/*", 0);
    if i >= 0 {
      var j := Find(txt, "*/", i + 2);
      if j >= 0 {
        var u := txt[..i] + txt[j + 2..];
        MatchAtTwo(txt, '*', '/', j);
        assert |u| < |txt|;
        UncommentFacts(u);
        UncommentStep(txt, i, j, Uncomment(u));
      } else {
        assert Uncomment(txt) == Failure(MismatchedComment);
      }
    } else {
      assert Uncomment(txt) == Success(txt);
    }
  }

  /** No comment opener starts inside `a`, nor across its end. */
  lemma OpenerAt(a: string, c: string, b: string)
    requires !Contains(a, "/*")
    ensures Find(a + "/*" + c + b, "/*", 0) == |a|
  {
    var t := a + "/*" + c + b;
    MatchAtTwo(t, '/', '*', |a|);
    forall k | 0 <= k < |a| ensures !MatchAt(t, "/*", k) {
      MatchAtTwo(t, '/', '*', k);
      MatchAtTwo(a, '/', '*', k);
    }
    FindIs(t, "/*", 0, |a|);
  }

  /** After `a` and an opener, no comment closer starts inside `c`, nor
      across its end. */
  lemma NoCloserIn(a: string, c: string, b: string)
    requires !Contains(c, "*/") && (b == [] || b[0] != '/')
    ensures forall k :: |a| + 2 <= k < |a| + 2 + |c| ==> !MatchAt(a + "/*" + c + b, "*/", k)
  {
    var t := a + "/*" + c + b;
    forall k | |a| + 2 <= k < |a| + 2 + |c| ensures !MatchAt(t, "*/", k) {
      MatchAtTwo(t, '*', '/', k);
      MatchAtTwo(c, '*', '/', k - |a| - 2);
    }
  }

  /** A comment (slash-star, `c`, star-slash) after text without an opener
      is removed whole, up to the first closer after its opener, and the scan
      goes on after it. */
  lemma CommentSpan(a: string, c: string, b: string)
    requires !Contains(a, "/*") && !Contains(c, "*/")
    ensures RemoveBlockComments(a + "/*" + c + "*/" + b) == RemoveBlockComments(a + b)
  {
    var x := a + "/*" + c;
    var t := x + "*/" + b;
    ConcatAssoc(x, "*/", b);
    OpenerAt(a, c, "*/" + b);
    NoCloserIn(a, c, "*/" + b);
    var j := |x|;
    MatchAtTwo(t, '*', '/', j);
    FindIs(t, "*/", |a| + 2, j);
    SpanCut(a, x, b, t);
    RemoveStep(t, |a|, j);
  }

  /** Cutting the comment out of `a`, comment, closer, `b` leaves `a + b`. */
  lemma SpanCut(a: string, x: string, b: string, t: string)
    requires |a| <= |x| && x[..|a|] == a && t == x + "*/" + b
    ensures t[..|a|] + t[|x| + 2..] == a + b
  {
    assert t[..|a|] == a;
    assert t[|x| + 2..] == b;
  }

  /** One round of the removal loop: the first opener at `i` and the first
      closer after it at `j`. */
  lemma RemoveStep(t: string, i: nat, j: nat)
    requires Find(t, "/*", 0) == i && Find(t, "*/", i + 2) == j
    ensures RemoveBlockComments(t) == RemoveBlockComments(t[..i] + t[j + 2..])
  {
    MatchAtTwo(t, '*', '/', j);
    UncommentStep(t, i, j, Uncomment(t[..i] + t[j + 2..]));
  }

  /** One round of the scan, on the uncontracted loop. */
  lemma UncommentStep(t: string, i: nat, j: nat, r: Result<string, Error>)
    requires Find(t, "/*", 0) == i && Find(t, "*/", i + 2) == j && j + 2 <= |t|
    requires Uncomment(t[..i] + t[j + 2..]) == r
    ensures Uncomment(t) == r
  {
  }

  /** An opener with no closer after it fails the 'Mismatched comment
      block' assertion. */
  lemma UnclosedComment(a: string, c: string)
    requires !Contains(a, "/*") && !Contains(c, "*/")
    ensures RemoveBlockComments(a + "/*" + c) == Failure(MismatchedComment)
  {
    var t := a + "/*" + c;
    assert t == a + "/*" + c + [];
    OpenerAt(a, c, []);
    NoCloserIn(a, c, []);
    forall k | |a| + 2 <= k ensures !MatchAt(t, "*/", k) {
      MatchAtTwo(t, '*', '/', k);
    }
  }

  /** The loop at sowfa/utils.py:45-52 as written: the closing star-slash is searched
      from `idx0+1`, so the `*` of the opening slash-star can serve as the start of
      the closing star-slash. */
  function RemoveBlockCommentsAsWritten(txt: string): (r: Result<string, Error>)
    ensures r.Success? ==> !Contains(r.value, "/*") && |r.value| <= |txt|
    ensures r.Failure? ==> r.error == MismatchedComment
    decreases |txt|
  {
    var i := Find(txt, "/*", 0);
    if i < 0 then Success(txt)
    else
      var j := Find(txt, "*/", i + 1);
      if j < 0 then Failure(MismatchedComment)
      else RemoveBlockCommentsAsWritten(txt[..i] + txt[j + 2..])
  }

  /** A comment opened by slash-star-slash closes itself as written: the comment text after it survives,
      whereas the corrected scan removes the whole comment. */
  lemma SelfClosingComment()
    ensures RemoveBlockCommentsAsWritten("/*/ a */") == Success(" a */")
    ensures RemoveBlockComments("/*/ a */") == Success("")
  {
    SelfClosingOpeners();
    SelfClosingAsWritten();
    SelfClosingCorrected();
  }

  lemma SelfClosingOpeners()
    ensures Find("/*/ a */", "/*", 0) == 0
    ensures !Contains(" a */", "/*")
  {
    var t := "/*/ a */";
    MatchAtTwo(t, '/', '*', 0);
    FindIs(t, "/*", 0, 0);
    var u := " a */";
    forall k | 0 <= k ensures !MatchAt(u, "/*", k) {
      MatchAtTwo(u, '/', '*', k);
      if 0 <= k && k + 2 <= |u| {
        if k == 0 {} else if k == 1 {} else if k == 2 {} else { assert k == 3; }
      }
    }
  }

  lemma SelfClosingAsWritten()
    requires Find("/*/ a */", "/*", 0) == 0 && !Contains(" a */", "/*")
    ensures RemoveBlockCommentsAsWritten("/*/ a */") == Success(" a */")
  {
    var t := "/*/ a */";
    MatchAtTwo(t, '*', '/', 1);
    FindIs(t, "*/", 1, 1);
    assert t[..0] + t[3..] == " a */";
  }

  lemma SelfClosingCorrected()
    requires Find("/*/ a */", "/*", 0) == 0
    ensures RemoveBlockComments("/*/ a */") == Success("")
  {
    var t := "/*/ a */";
    forall k | 2 <= k < 6 ensures !MatchAt(t, "*/", k) {
      MatchAtTwo(t, '*', '/', k);
      if k == 2 {} else if k == 3 {} else if k == 4 {} else { assert k == 5; }
    }
    MatchAtTwo(t, '*', '/', 6);
    FindIs(t, "*/", 2, 6);
    assert t[..0] + t[8..] == "";
  }

  /** A newline or tab read as a space. */
  function Blank(c: char): char {
    if c == '\n' || c == '\t' then ' ' else c
  }

  /** Newlines and tabs become spaces and the ends are stripped. */
  function Flatten(txt: string): (r: string)
    ensures '\n' !in r && '\t' !in r
    ensures r == [] || (!IsSpace(r[0]) && !IsSpace(r[|r| - 1]))
  {
    var a := ReplaceChar(txt, '\n', ' ');
    var b := ReplaceChar(a, '\t', ' ');
    assert '\n' !in b && '\t' !in b;
    Strip(b)
  }

  /** The flattened text is the infix of `txt` between its leading and
      trailing whitespace, with each newline and tab in it turned into a
      space. */
  lemma FlattenContent(txt: string)
    ensures exists lo: nat :: FlatInfix(txt, lo, Flatten(txt))
  {
    var a := ReplaceChar(txt, '\n', ' ');
    var b := ReplaceChar(a, '\t', ' ');
    var r := Strip(b);
    assert Flatten(txt) == r;
    FlattenInfix(txt, b, r);
    assert FlatInfix(txt, LeadingSpaces(b), Flatten(txt));
  }

  /** `r` is `txt[lo..lo + |r|]` with newlines and tabs blanked, and what
      lies outside that infix is whitespace. */
  predicate FlatInfix(txt: string, lo: nat, r: string) {
    && lo + |r| <= |txt|
    && (forall k :: 0 <= k < |r| ==> r[k] == Blank(txt[lo + k]))
    && (forall k :: 0 <= k < lo ==> IsSpace(txt[k]))
    && (forall k :: lo + |r| <= k < |txt| ==> IsSpace(txt[k]))
  }

  lemma FlattenInfix(txt: string, b: string, r: string)
    requires |b| == |txt| && forall k :: 0 <= k < |txt| ==> b[k] == Blank(txt[k])
    requires IsStripOf(b, r)
    ensures FlatInfix(txt, LeadingSpaces(b), r)
  {
    var lo := LeadingSpaces(b);
    forall k | 0 <= k < |r| ensures r[k] == Blank(txt[lo + k]) {
      assert r[k] == b[lo + k];
    }
    forall k | 0 <= k < |txt| && IsSpace(b[k]) ensures IsSpace(txt[k]) {
      assert b[k] == Blank(txt[k]);
    }
  }

  /** Turning a character other than `/` and `*` into a space creates no
      comment opener. */
  lemma ReplaceKeepsNoOpener(s: string, a: char)
    requires a != '/' && a != '*'
    requires !Contains(s, "/*")
    ensures !Contains(ReplaceChar(s, a, ' '), "/*")
  {
    var r := ReplaceChar(s, a, ' ');
    forall k | 0 <= k ensures !MatchAt(r, "/*", k) {
      MatchAtTwo(r, '/', '*', k);
      MatchAtTwo(s, '/', '*', k);
    }
  }

  /** Flattening a text without a comment opener leaves none. */
  lemma FlattenKeepsNoOpener(txt: string)
    requires !Contains(txt, "/*")
    ensures !Contains(Flatten(txt), "/*")
  {
    var a := ReplaceChar(txt, '\n', ' ');
    ReplaceKeepsNoOpener(txt, '\n');
    var b := ReplaceChar(a, '\t', ' ');
    ReplaceKeepsNoOpener(a, '\t');
    StripNoPair(b, '/', '*');
    assert Flatten(txt) == Strip(b);
  }

  /** Stripping whitespace creates no two-character pattern. */
  lemma StripNoPair(b: string, x: char, y: char)
    requires !Contains(b, [x, y])
    ensures !Contains(Strip(b), [x, y])
  {
    var q := Strip(b);
    var lo := LeadingSpaces(b);
    assert IsStripOf(b, q);
    InfixNoPair(b, x, y, lo, lo + |q|, q);
  }

  /** An infix of a string without a two-character pattern has none either. */
  lemma InfixNoPair(b: string, x: char, y: char, lo: nat, hi: nat, q: string)
    requires lo <= hi <= |b| && q == b[lo..hi] && !Contains(b, [x, y])
    ensures !Contains(q, [x, y])
  {
    var k := Find(q, [x, y], 0);
    if k >= 0 {
      MatchAtTwo(q, x, y, k);
      MatchAtTwo(b, x, y, lo + k);
    }
  }

  /** Two texts without a two-character pattern, joined where it cannot
      straddle the seam, have none either. */
  lemma ConcatNoPair(u: string, v: string, x: char, y: char)
    requires !Contains(u, [x, y]) && !Contains(v, [x, y])
    requires u == [] || v == [] || u[|u| - 1] != x || v[0] != y
    ensures !Contains(u + v, [x, y])
  {
    var t := u + v;
    var k := Find(t, [x, y], 0);
    if k >= 0 {
      MatchAtTwo(t, x, y, k);
      if k + 1 < |u| {
        MatchAtTwo(u, x, y, k);
      } else if k >= |u| {
        MatchAtTwo(v, x, y, k - |u|);
      }
    }
  }

  /** Lines without a two-character pattern, joined by a separator that
      holds neither of its characters, have none either. */
  lemma {:induction false} JoinNoPair(parts: seq<string>, sep: string, x: char, y: char)
    requires sep != [] && x !in sep && y !in sep
    requires forall i :: 0 <= i < |parts| ==> !Contains(parts[i], [x, y])
    ensures !Contains(Join(parts, sep), [x, y])
    decreases |parts|
  {
    if |parts| >= 2 {
      JoinNoPair(parts[1..], sep, x, y);
      var rest := Join(parts[1..], sep);
      assert !Contains(sep, [x, y]) by {
        var k := Find(sep, [x, y], 0);
        if k >= 0 {
          MatchAtTwo(sep, x, y, k);
        }
      }
      ConcatNoPair(sep, rest, x, y);
      ConcatNoPair(parts[0], sep + rest, x, y);
      JoinCons(parts, sep);
    }
  }

  /** Every line cleaned. */
  function CleanLines(lines: seq<string>): (r: seq<string>)
    ensures |r| == |lines| && forall i :: 0 <= i < |lines| ==> r[i] == CleanLine(lines[i])
  {
    seq(|lines|, i requires 0 <= i < |lines| => CleanLine(lines[i]))
  }

  /** The whole of `__init__` before splitting: clean every line, join them
      with newlines, remove block comments, flatten. */
  function Preprocess(lines: seq<string>): (r: Result<string, Error>)
    ensures r.Success? ==> '\n' !in r.value && '\t' !in r.value
    ensures r.Success? ==> r.value == [] || (!IsSpace(r.value[0]) && !IsSpace(r.value[|r.value| - 1]))
    ensures r.Success? ==> !Contains(r.value, "/*")
  {
    var cleaned := seq(|lines|, i requires 0 <= i < |lines| => CleanLine(lines[i]));
    var txt :- RemoveBlockComments(Join(cleaned, "\n"));
    FlattenKeepsNoOpener(txt);
    Success(Flatten(txt))
  }

  /** Lines with no directive, no `//` and no comment opener reach the
      splitter as their newline-joined text, flattened. */
  lemma PreprocessPlain(lines: seq<string>)
    requires forall i :: 0 <= i < |lines| ==>
               !StartsWith(Strip(lines[i]), "#") && !Contains(lines[i], "//") && !Contains(lines[i], "/*")
    ensures Preprocess(lines) == Success(Flatten(Join(lines, "\n")))
  {
    assert CleanLines(lines) == lines by { PlainLines(lines); }
    assert !Contains(Join(lines, "\n"), "/*") by { PlainJoinNoOpener(lines); }
    PreprocessKept(lines);
  }

  lemma PlainJoinNoOpener(lines: seq<string>)
    requires forall i :: 0 <= i < |lines| ==> !Contains(lines[i], "/*")
    ensures !Contains(Join(lines, "\n"), "/*")
  {
    JoinNoPair(lines, "\n", '/', '*');
  }

  lemma PlainLines(lines: seq<string>)
    requires forall i :: 0 <= i < |lines| ==> !StartsWith(Strip(lines[i]), "#") && !Contains(lines[i], "//")
    ensures CleanLines(lines) == lines
  {
    forall i | 0 <= i < |lines| ensures CleanLine(lines[i]) == lines[i] {
      PlainLine(lines[i]);
    }
    CleanLinesKept(lines);
  }

  /** A line with no directive and no `//` is kept exactly. */
  lemma PlainLine(line: string)
    requires !StartsWith(Strip(line), "#") && !Contains(line, "//")
    ensures CleanLine(line) == line
  {
    StripNoPair(line, '/', '/');
  }

  /** Lines that cleaning keeps and whose join has no opener are flattened
      as they are. */
  lemma PreprocessKept(lines: seq<string>)
    requires CleanLines(lines) == lines
    requires !Contains(Join(lines, "\n"), "/*")
    ensures Preprocess(lines) == Success(Flatten(Join(lines, "\n")))
  {
    var cleaned := seq(|lines|, i requires 0 <= i < |lines| => CleanLine(lines[i]));
    assert cleaned == CleanLines(lines);
  }

  lemma CleanLinesKept(lines: seq<string>)
    requires forall i :: 0 <= i < |lines| ==> CleanLine(lines[i]) == lines[i]
    ensures CleanLines(lines) == lines
  {
  }


  // ---------------------------------------------------------------------
  // Block extent (sowfa/utils.py:92-113)
  // ---------------------------------------------------------------------

  /** As many openers as closers: the source's test `Nopen == Nclose`.  The
      source counts on the stripped (and space-collapsed) prefix; stripping and
      collapsing spaces never change the count of a delimiter
      (`StripKeepsCount`, `CollapseKeepsCount`), so the raw prefix is counted here. */
  predicate Balanced(s: string, open: char, close: char) {
    Count(s, open) == Count(s, close)
  }

  /** `e` is an end position of a block: the character before it is a closer
      and the prefix up to it is balanced. */
  predicate BlockEndAt(t: string, open: char, close: char, e: int) {
    1 <= e <= |t| && t[e - 1] == close && Balanced(t[..e], open, close)
  }

  /** The block that starts `t` extends to the FIRST closer at which openers
      and closers balance; if there is none the block is mismatched. */
  function BlockExtent(t: string, open: char, close: char): (r: Result<nat, Error>)
    ensures r.Success? ==> BlockEndAt(t, open, close, r.value)
    ensures r.Success? ==> forall e :: 1 <= e < r.value ==> !BlockEndAt(t, open, close, e)
    ensures r.Failure? ==> r.error == MismatchedBlock
    ensures r.Failure? ==> forall e :: !BlockEndAt(t, open, close, e)
  {
    var first := Find(t, [close], 0);
    FindChar(t, close, 0);
    if first < 0 then Failure(MismatchedBlock)
    else ScanFrom(t, open, close, first + 1)
  }

  /** The rescan loop, continuing from just after the last closer tried. */
  function ScanFrom(t: string, open: char, close: char, idx: nat): (r: Result<nat, Error>)
    requires 1 <= idx <= |t| && t[idx - 1] == close
    requires forall e :: 1 <= e < idx ==> !BlockEndAt(t, open, close, e)
    ensures r.Success? ==> BlockEndAt(t, open, close, r.value)
    ensures r.Success? ==> forall e :: 1 <= e < r.value ==> !BlockEndAt(t, open, close, e)
    ensures r.Failure? ==> r.error == MismatchedBlock
    ensures r.Failure? ==> forall e :: !BlockEndAt(t, open, close, e)
    decreases |t| - idx
  {
    if Balanced(t[..idx], open, close) then Success(idx)
    else
      var next := Find(t, [close], idx);
      FindChar(t, close, idx);
      if next < 0 then Failure(MismatchedBlock)
      else ScanFrom(t, open, close, next + 1)
  }

  /** The rescan loop as written (sowfa/utils.py:107-113): it searches from
      `idx+1`, one past the position after the last closer, so a closer that
      directly follows the previous one is never tried; and when no further
      closer exists, `find` gives -1, `idx` becomes 0 and the empty prefix
      counts as balanced, ending the loop with an empty block. */
  function ScanAsWritten(t: string, open: char, close: char, idx: nat): (e: nat)
    requires 1 <= idx <= |t| && t[idx - 1] == close
    ensures e == 0 || BlockEndAt(t, open, close, e)
    decreases |t| - idx
  {
    if Balanced(t[..idx], open, close) then idx
    else
      var next := Find(t, [close], idx + 1);
      FindChar(t, close, idx + 1);
      if next < 0 then 0 else ScanAsWritten(t, open, close, next + 1)
  }

  /** The whole block-extent computation as written: 0 stands for the empty
      block the loop falls back to. */
  function BlockExtentAsWritten(t: string, open: char, close: char): (r: Result<nat, Error>)
    ensures r.Success? ==> r.value == 0 || BlockEndAt(t, open, close, r.value)
    ensures r.Failure? <==> forall k :: 0 <= k < |t| ==> t[k] != close
  {
    var first := Find(t, [close], 0);
    FindChar(t, close, 0);
    if first < 0 then Failure(MismatchedBlock)
    else Success(ScanAsWritten(t, open, close, first + 1))
  }

  lemma CountPrefix(t: string, c: char, n: nat)
    requires n < |t|
    ensures Count(t[..n + 1], c) == Count(t[..n], c) + (if t[n] == c then 1 else 0)
  {
    assert t[..n + 1] == t[..n] + [t[n]];
  }

  /** A closer right after the previous one is skipped as written: for
      `((1 2));` the loop misses the closer at index 6 and yields an empty
      block, while the balanced block `((1 2))` is there to be found. */
  lemma AdjacentCloserSkipped()
    ensures BlockExtentAsWritten("((1 2));", '(', ')') == Success(0)
    ensures BlockExtent("((1 2));", '(', ')') == Success(7)
  {
    AdjacentCounts();
    AdjacentFinds();
  }

  lemma AdjacentCounts()
    ensures Count("((1 2));"[..6], '(') == 2 && Count("((1 2));"[..6], ')') == 1
    ensures Count("((1 2));"[..7], '(') == 2 && Count("((1 2));"[..7], ')') == 2
  {
    var t := "((1 2));";
    assert t[..6] == "((1 2)";
    assert Count(t[..6], '(') == 2 by {
      assert multiset(t[..6]) == multiset{'(', '(', '1', ' ', '2', ')'};
    }
    assert Count(t[..6], ')') == 1 by {
      assert multiset(t[..6]) == multiset{'(', '(', '1', ' ', '2', ')'};
    }
    CountPrefix(t, '(', 6);
    CountPrefix(t, ')', 6);
  }

  lemma AdjacentFinds()
    ensures Find("((1 2));", [')'], 0) == 5
    ensures Find("((1 2));", [')'], 7) == -1
    ensures Find("((1 2));", [')'], 6) == 6
  {
    var t := "((1 2));";
    FindChar(t, ')', 0);
    assert Find(t, [')'], 0) == 5 by {
      assert t[5] == ')';
      assert forall k :: 0 <= k < 5 ==> t[k] != ')';
    }
    FindChar(t, ')', 7);
    assert Find(t, [')'], 7) == -1 by {
      assert t[7] == ';';
    }
    MatchAtOne(t, ')', 6);
    FindIs(t, [')'], 6, 6);
  }

  /** An unbalanced block is not reported as written: for `((1 2);` the loop
      falls through to the empty block, whereas the corrected scan fails with
      the same 'Mismatched input block' error the first search raises. */
  lemma UnbalancedBlockSilent()
    ensures BlockExtentAsWritten("((1 2);", '(', ')') == Success(0)
    ensures BlockExtent("((1 2);", '(', ')') == Failure(MismatchedBlock)
  {
    var t := "((1 2);";
    assert t[..6] == "((1 2)";
    assert Count(t[..6], '(') == 2 by {
      assert multiset(t[..6]) == multiset{'(', '(', '1', ' ', '2', ')'};
    }
    assert Count(t[..6], ')') == 1 by {
      assert multiset(t[..6]) == multiset{'(', '(', '1', ' ', '2', ')'};
    }
    FindChar(t, ')', 0);
    assert Find(t, [')'], 0) == 5 by {
      assert t[5] == ')';
      assert forall k :: 0 <= k < 5 ==> t[k] != ')';
    }
    FindChar(t, ')', 7);
    FindChar(t, ')', 6);
    assert Find(t, [')'], 6) == -1 by {
      assert t[6] == ';';
    }
  }

  // ---------------------------------------------------------------------
  // Splitting into definitions (sowfa/utils.py:63-122)
  // ---------------------------------------------------------------------

  function Opener(kind: Kind): char {
    if kind == MapBlock then '{' else '('
  }

  function Closer(kind: Kind): char {
    if kind == MapBlock then '}' else ')'
  }

  /** What `_split_defs` guarantees of each definition: a scalar's text holds
      no space, and a block's text starts with its opener, ends with its
      closer and balances them. */
  predicate WellFormed(d: Def) {
    if d.kind == Scalar then ' ' !in d.text
    else
      && d.text != []
      && d.text[0] == Opener(d.kind)
      && d.text[|d.text| - 1] == Closer(d.kind)
      && Balanced(d.text, Opener(d.kind), Closer(d.kind))
  }

  /** The name in front of a definition: `None` before `(`, otherwise the text
      up to the first space, the rest being stripped.  Without a space,
      Python's `txt[:-1]` drops the last character and `txt[0:]` keeps all
      of the text. */
  function TakeName(txt: string): (r: (Name, string))
    requires txt != []
    ensures |r.1| <= |txt|
    ensures txt[0] == '(' ==> r == (None, txt)
    ensures txt[0] != '(' ==> r.1 == [] || !IsSpace(r.1[0])
  {
    if txt[0] == '(' then (None, txt)
    else
      var i := Find(txt, " ", 0);
      FindChar(txt, ' ', 0);
      if i < 0 then (Some(txt[..|txt| - 1]), Strip(txt))
      else (Some(txt[..i]), Strip(txt[i + 1..]))
  }

  /** The text of a block ending at `e`: collapsed spaces when the first closer
      already balanced, the plain stripped prefix when the rescan loop ran. */
  function BlockText(t: string, e: nat, firstEnd: nat): (r: string)
    requires e <= |t|
    ensures |r| <= e
  {
    if e == firstEnd then CollapseSpaces(Strip(t[..e])) else Strip(t[..e])
  }

  /** Stripping or collapsing the prefix up to a block end keeps its first and
      last character and its delimiter counts. */
  lemma BlockTextShape(t: string, e: nat, firstEnd: nat, kind: Kind)
    requires kind != Scalar
    requires t != [] && t[0] == Opener(kind)
    requires BlockEndAt(t, Opener(kind), Closer(kind), e)
    ensures WellFormed(Def(None, BlockText(t, e, firstEnd), kind))
  {
    var open, close := Opener(kind), Closer(kind);
    assert open in "{(" && close in "})";
    BlockPrefix(t, e, open, close);
    BlockTextOf(t[..e], BlockText(t, e, firstEnd), open, close, kind);
  }

  lemma BlockTextOf(p: string, text: string, open: char, close: char, kind: Kind)
    requires kind != Scalar && open == Opener(kind) && close == Closer(kind)
    requires p != [] && p[0] == open && p[|p| - 1] == close && Balanced(p, open, close)
    requires text == CollapseSpaces(p) || text == p
    ensures WellFormed(Def(None, text, kind))
  {
    if text == CollapseSpaces(p) {
      assert open != ' ' && close != ' ';
      CollapsedBlock(p, open, close);
    }
    BlockDef(text, kind);
  }

  lemma BlockDef(text: string, kind: Kind)
    requires kind != Scalar && text != [] && text[0] == Opener(kind) && text[|text| - 1] == Closer(kind)
    requires Balanced(text, Opener(kind), Closer(kind))
    ensures WellFormed(Def(None, text, kind))
  {
  }

  /** The text up to a block end starts with the opener, ends with the closer,
      balances, and has nothing to strip. */
  lemma BlockPrefix(t: string, e: nat, open: char, close: char)
    requires open in "{(" && close in "})"
    requires t != [] && t[0] == open && BlockEndAt(t, open, close, e)
    ensures var p := t[..e];
            && p != [] && p[0] == open && p[|p| - 1] == close
            && Balanced(p, open, close) && Strip(p) == p
  {
    var p := t[..e];
    assert p[0] == open && p[|p| - 1] == close;
    assert !IsSpace(open) && !IsSpace(close);
    StripUnpadded(p);
  }

  /** Collapsing spaces keeps a block's opener, closer and balance. */
  lemma CollapsedBlock(p: string, open: char, close: char)
    requires open != ' ' && close != ' '
    requires p != [] && p[0] == open && p[|p| - 1] == close && Balanced(p, open, close)
    ensures var c := CollapseSpaces(p);
            c != [] && c[0] == open && c[|c| - 1] == close && Balanced(c, open, close)
  {
    CollapseKeepsCount(p, open);
    CollapseKeepsCount(p, close);
  }

  /** A word with no space strips to a word with no space. */
  lemma StripNoSpace(w: string)
    requires ' ' !in w
    ensures ' ' !in Strip(w)
  {
    var lo := LeadingSpaces(w);
    var r := Strip(w);
    forall k | 0 <= k < |r| ensures r[k] != ' ' {
      assert r[k] == w[lo + k];
    }
  }

  /** A string starting with a non-space keeps its first character when stripped. */
  lemma StripKeepsFirst(p: string)
    ensures p != [] && !IsSpace(p[0]) ==> Strip(p) != [] && Strip(p)[0] == p[0]
  {
    if p != [] && !IsSpace(p[0]) {
      assert LeadingSpaces(p) == 0;
    }
  }

  /** The value word after the name: the text up to the first space,
      stripped, or the whole remaining text when it holds no space (the
      source then empties `txt`, so nothing follows). */
  function ValueWord(t: string): (r: (string, bool))
    ensures ' ' !in r.0 && |r.0| <= |t|
    ensures r.1 <==> ' ' !in t
    ensures r.1 ==> r.0 == t
    ensures !r.1 && !IsSpace(t[0]) ==> r.0 != [] && r.0[0] == t[0]
  {
    var j := Find(t, " ", 0);
    FindChar(t, ' ', 0);
    if j < 0 then (t, true)
    else
      var p := t[..j];
      StripNoSpace(p);
      StripKeepsFirst(p);
      (Strip(p), false)
  }

  /** The text after the value word of a scalar. */
  function AfterWord(t: string): (r: string)
    requires ' ' in t
    ensures |r| < |t|
  {
    var j := Find(t, " ", 0);
    FindChar(t, ' ', 0);
    Strip(t[j + 1..])
  }

  /** A block definition from the front of `t`, which starts with its opener. */
  function SplitBlock(name: Name, t: string, kind: Kind): (r: Result<(Def, string), Error>)
    requires kind != Scalar && t != [] && t[0] == Opener(kind)
    ensures r.Success? ==> |r.value.1| < |t| && |r.value.0.text| <= |t|
    ensures r.Success? ==> WellFormed(r.value.0) && r.value.0.kind == kind
  {
    var e :- BlockExtent(t, Opener(kind), Closer(kind));
    var firstEnd := Find(t, [Closer(kind)], 0) + 1;
    BlockTextShape(t, e, firstEnd, kind);
    var text := BlockText(t, e, firstEnd);
    var rest := if e + 1 <= |t| then Strip(t[e + 1..]) else [];
    Success((Def(name, text, kind), rest))
  }

  /** One definition from the front of `txt`, and the text after it. */
  function SplitOne(txt: string): (r: Result<(Def, string), Error>)
    requires txt != []
    ensures r.Success? ==> |r.value.1| < |txt| && |r.value.0.text| <= |txt|
    ensures r.Success? ==> WellFormed(r.value.0)
  {
    var (name, t) := TakeName(txt);
    var (word, atEnd) := ValueWord(t);
    if word != [] && word[|word| - 1] == ';' then
      var rest := if atEnd then [] else AfterWord(t);
      Success((Def(name, word[..|word| - 1], Scalar), rest))
    else if word == [] then Failure(EmptyWord)
    else if word[0] != '{' && word[0] != '(' then Failure(UnknownBlock(word[0]))
    else
      var kind := if word[0] == '{' then MapBlock else ListBlock;
      // at the end of the text the source has already emptied `txt`, so the
      // search for the closer fails
      if atEnd then Failure(MismatchedBlock)
      else
        SplitBlock(name, t, kind)
  }

  /** A value word ending in `;` is a scalar definition of the name, without
      the `;`. */
  lemma SplitOneScalar(txt: string, n: Name, t: string, w: string, atEnd: bool)
    requires txt != [] && TakeName(txt) == (n, t) && ValueWord(t) == (w, atEnd)
    requires w != [] && w[|w| - 1] == ';'
    ensures SplitOne(txt).Success? && SplitOne(txt).value.0 == Def(n, w[..|w| - 1], Scalar)
  {
  }

  /** The failures of one definition by its value word `w`: an empty word
      raises IndexError; a word that opens no known block fails the 'Unknown
      input block' assertion; a block opened by the last word of the text
      finds no closer. */
  lemma SplitOneCases(txt: string, n: Name, t: string, w: string, atEnd: bool)
    requires txt != [] && TakeName(txt) == (n, t) && ValueWord(t) == (w, atEnd)
    ensures w == [] ==> SplitOne(txt) == Failure(EmptyWord)
    ensures w != [] && w[|w| - 1] != ';' && w[0] != '{' && w[0] != '(' ==>
              SplitOne(txt) == Failure(UnknownBlock(w[0]))
    ensures w != [] && w[|w| - 1] != ';' && (w[0] == '{' || w[0] == '(') && atEnd ==>
              SplitOne(txt) == Failure(MismatchedBlock)
  {
    if w == [] {
      EmptyWordFails(txt, n, t, atEnd);
    } else if w[|w| - 1] != ';' {
      if w[0] != '{' && w[0] != '(' {
        UnknownBlockFails(txt, n, t, w, atEnd);
      } else if atEnd {
        LastBlockFails(txt, n, t, w);
      }
    }
  }

  lemma EmptyWordFails(txt: string, n: Name, t: string, atEnd: bool)
    requires txt != [] && TakeName(txt) == (n, t) && ValueWord(t) == ([], atEnd)
    ensures SplitOne(txt) == Failure(EmptyWord)
  {
  }

  lemma UnknownBlockFails(txt: string, n: Name, t: string, w: string, atEnd: bool)
    requires txt != [] && TakeName(txt) == (n, t) && ValueWord(t) == (w, atEnd)
    requires w != [] && w[|w| - 1] != ';' && w[0] != '{' && w[0] != '('
    ensures SplitOne(txt) == Failure(UnknownBlock(w[0]))
  {
  }

  lemma LastBlockFails(txt: string, n: Name, t: string, w: string)
    requires txt != [] && TakeName(txt) == (n, t) && ValueWord(t) == (w, true)
    requires w != [] && w[|w| - 1] != ';' && (w[0] == '{' || w[0] == '(')
    ensures SplitOne(txt) == Failure(MismatchedBlock)
  {
  }

  /** A block word that is not the last of the text: the block is split off
      with the kind its opener selects. */
  lemma SplitOneBlock(txt: string, n: Name, t: string, w: string, kind: Kind)
    requires txt != [] && TakeName(txt) == (n, t) && ValueWord(t) == (w, false)
    requires kind != Scalar && w != [] && w[|w| - 1] != ';' && w[0] == Opener(kind)
    ensures t != [] && t[0] == Opener(kind)
    ensures SplitOne(txt) == SplitBlock(n, t, kind)
  {
    BlockWordStart(txt, n, t, w);
    assert kind == (if w[0] == '{' then MapBlock else ListBlock);
  }

  /** A value word that is not the last of the text starts the text. */
  lemma BlockWordStart(txt: string, n: Name, t: string, w: string)
    requires txt != [] && TakeName(txt) == (n, t) && ValueWord(t) == (w, false)
    ensures t != [] && w != [] && w[0] == t[0]
  {
    assert ' ' in t && t != [];
    assert !IsSpace(t[0]) by {
      if txt[0] == '(' {
        assert t == txt;
      }
    }
  }

  lemma DefsCons(d: Def, more: seq<Def>, n: nat)
    requires |d.text| <= n && WellFormed(d)
    requires forall i :: 0 <= i < |more| ==> |more[i].text| <= n && WellFormed(more[i])
    ensures forall i :: 0 <= i < |[d] + more| ==> |([d] + more)[i].text| <= n && WellFormed(([d] + more)[i])
  {
    var defs := [d] + more;
    forall i | 0 <= i < |defs| ensures |defs[i].text| <= n && WellFormed(defs[i]) {
      if i > 0 {
        assert defs[i] == more[i - 1];
      }
    }
  }

  /** `_split_defs`: definitions from the front of `txt` until it is used up.
      Every definition is well formed and no longer than the text. */
  function SplitDefs(txt: string): (r: Result<seq<Def>, Error>)
    ensures r.Success? ==> forall i :: 0 <= i < |r.value| ==> |r.value[i].text| <= |txt| && WellFormed(r.value[i])
    ensures txt == [] ==> r == Success([])
    decreases |txt|
  {
    if txt == [] then Success([])
    else
      var one :- SplitOne(txt);
      var more :- SplitDefs(one.1);
      DefsCons(one.0, more, |txt|);
      Success([one.0] + more)
  }

  // ---------------------------------------------------------------------
  // Decoding (sowfa/utils.py:125-192)
  // ---------------------------------------------------------------------

  /** A scalar word decoded in the source's order: a float if `float()`
      accepts it, else a boolean token, else the text with surrounding `"`
      and then `'` stripped. */
  function DecodeScalar(w: string): (v: Value)
    ensures v.Num? <==> IsFloatLiteral(w)
    ensures v.Num? ==> v.lexeme == w
    ensures v.Bool? <==> !IsFloatLiteral(w) && (Lower(w) in TrueValues || Lower(w) in FalseValues)
    ensures v.Bool? ==> v.b == (Lower(w) in TrueValues)
    ensures !IsFloatLiteral(w) && Lower(w) !in TrueValues && Lower(w) !in FalseValues ==>
              v == Str(StripChar(StripChar(w, '"'), '\''))
    ensures v.Num? || v.Bool? || v.Str?
  {
    if IsFloatLiteral(w) then Num(w)
    else if Lower(w) in TrueValues then Bool(true)
    else if Lower(w) in FalseValues then Bool(false)
    else Str(StripChar(StripChar(w, '"'), '\''))
  }

  /** A scalar definition: stripped, checked for spaces, decoded. */
  function ParseScalar(text: string): (r: Result<Value, Error>)
    ensures r.Success? <==> ' ' !in Strip(text)
    ensures r.Success? ==> r.value == DecodeScalar(Strip(text))
  {
    var w := Strip(text);
    if ' ' in w then Failure(SpaceInScalar) else Success(DecodeScalar(w))
  }

  /** The text between the outer delimiters: Python's `defn[1:-1]`. */
  function Inner(s: string): (r: string)
    ensures |r| < |s| || s == []
    ensures |s| >= 2 ==> r == s[1..|s| - 1]
  {
    if |s| >= 2 then s[1..|s| - 1] else []
  }

  /** An empty container of a block kind. */
  function EmptyOf(kind: Kind): Value {
    if kind == MapBlock then Map([]) else List([])
  }

  /** A parsed value placed into a container: stored under its name in a map
      (a later name replaces an earlier one), appended to a list. */
  function Attach(c: Value, name: Name, v: Value): (r: Value)
    requires c.Map? || c.List?
    ensures c.Map? ==> r.Map? && Get(r.entries, name) == Some(v)
    ensures c.Map? ==> forall n :: n != name ==> Get(r.entries, n) == Get(c.entries, n)
    ensures c.List? ==> r == List(c.items + [v])
  {
    if c.Map? then Map(Put(c.entries, name, v)) else List(c.items + [v])
  }

  /** `_parse` of one definition: a scalar decodes to a scalar value, a map
      block to a map and a list block to a list. */
  function ParseValue(kind: Kind, text: string): (r: Result<Value, Error>)
    ensures r.Success? && kind == Scalar ==> r.value.Num? || r.value.Bool? || r.value.Str?
    ensures r.Success? && kind == MapBlock ==> r.value.Map?
    ensures r.Success? && kind == ListBlock ==> r.value.List?
    decreases |text|, 3
  {
    if kind == Scalar then ParseScalar(text) else ParseBlock(kind, text)
  }

  /** A list of plain words: one decoded scalar per word. */
  function WordList(words: seq<string>): (r: Value)
    ensures r.List? && |r.items| == |words|
  {
    List(seq(|words|, i requires 0 <= i < |words| => DecodeScalar(words[i])))
  }

  /** The block case of `_parse`: a list without inner parentheses is split
      into words; otherwise the inner definitions are parsed one by one. */
  function ParseBlock(kind: Kind, text: string): (r: Result<Value, Error>)
    requires kind != Scalar
    ensures r.Success? ==> (r.value.Map? <==> kind == MapBlock) && (r.value.List? <==> kind == ListBlock)
    decreases |text|, 2
  {
    var inner := BlockInner(text);
    if kind == ListBlock && '(' !in inner && ')' !in inner then
      Success(WordList(SplitWs(inner)))
    else
      ParseDefs(kind, inner, |text|)
  }

  /** The definitions inside a block, parsed one by one into an empty
      container of the block's kind. */
  function ParseDefs(kind: Kind, inner: string, ghost bound: nat): (r: Result<Value, Error>)
    requires kind != Scalar && (inner == [] || |inner| < bound)
    ensures r.Success? ==> (r.value.Map? <==> kind == MapBlock) && (r.value.List? <==> kind == ListBlock)
    decreases bound, 1
  {
    var defs :- SplitDefs(inner);
    InnerShorter(bound, inner, defs);
    Fill(EmptyOf(kind), defs, bound)
  }

  /** The text between a block's delimiters, stripped: `defn.strip()[1:-1].strip()`. */
  function BlockInner(text: string): (r: string)
    ensures r == [] || |r| < |text|
  {
    Strip(Inner(Strip(text)))
  }

  /** The definitions inside a block are shorter than the block. */
  lemma InnerShorter(bound: nat, inner: string, defs: seq<Def>)
    requires inner == [] || |inner| < bound
    requires SplitDefs(inner) == Success(defs)
    ensures forall i :: 0 <= i < |defs| ==> |defs[i].text| < bound
  {
    if inner == [] {
      assert defs == [];
    }
  }

  /** Parses `defs` in order and attaches each result to the container. */
  function Fill(c: Value, defs: seq<Def>, ghost bound: nat): (r: Result<Value, Error>)
    requires c.Map? || c.List?
    requires forall i :: 0 <= i < |defs| ==> |defs[i].text| < bound
    ensures r.Success? ==> (r.value.Map? <==> c.Map?) && (r.value.List? <==> c.List?)
    ensures r.Success? && c.List? ==> |r.value.items| == |c.items| + |defs|
    decreases bound, 0, |defs|
  {
    if defs == [] then Success(c)
    else
      var v :- ParseValue(defs[0].kind, defs[0].text);
      Fill(Attach(c, defs[0].name, v), defs[1..], bound)
  }

  // ---------------------------------------------------------------------
  // The object (sowfa/utils.py:27-60, 158-181, 195-202)
  // ---------------------------------------------------------------------

  /** Names of the scalar and of the block definitions, in order. */
  function ScalarNames(defs: seq<Def>): seq<Name>
    decreases |defs|
  {
    if defs == [] then []
    else (if defs[0].kind == Scalar then [defs[0].name] else []) + ScalarNames(defs[1..])
  }

  function BlockNames(defs: seq<Def>): seq<Name>
    decreases |defs|
  {
    if defs == [] then []
    else (if defs[0].kind != Scalar then [defs[0].name] else []) + BlockNames(defs[1..])
  }

  /** Placing one top-level value: scalars become attributes, blocks go into
      `_properties`. */
  function Place(f: InputFile, d: Def, v: Value): (r: Result<InputFile, Error>)
    ensures d.kind == Scalar && d.name.None? ==> r == Failure(UnnamedAttribute)
    ensures r.Success? && d.kind == Scalar ==>
              && r.value.properties == f.properties
              && Get(r.value.attributes, d.name.value) == Some(v)
              && Keys(r.value.attributes) == if d.name.value in Keys(f.attributes) then Keys(f.attributes) else Keys(f.attributes) + [d.name.value]
    ensures d.kind != Scalar ==>
              && r.Success?
              && r.value.attributes == f.attributes
              && Get(r.value.properties, d.name) == Some(v)
              && Keys(r.value.properties) == if d.name in Keys(f.properties) then Keys(f.properties) else Keys(f.properties) + [d.name]
  {
    if d.kind == Scalar then
      if d.name.None? then Failure(UnnamedAttribute)
      else Success(f.(attributes := Put(f.attributes, d.name.value, v)))
    else Success(f.(properties := Put(f.properties, d.name, v)))
  }

  /** Parses and places the top-level definitions in order.  Afterwards the
      `_properties` keys are the earlier keys and the names of the block
      definitions, and nothing else; scalars never reach `_properties`. */
  function Build(f: InputFile, defs: seq<Def>): (r: Result<InputFile, Error>)
    ensures r.Success? ==> forall k :: k in Keys(r.value.properties) <==> k in Keys(f.properties) || k in BlockNames(defs)
    ensures r.Success? && DistinctKeys(f.properties) ==> DistinctKeys(r.value.properties)
    decreases |defs|
  {
    if defs == [] then Success(f)
    else
      var v :- ParseValue(defs[0].kind, defs[0].text);
      var g :- Place(f, defs[0], v);
      var r := Build(g, defs[1..]);
      PlaceKeys(f, defs[0], v, g);
      BlockNamesCons(defs);
      r
  }

  /** Placing a value adds at most the name of a block to `_properties`. */
  lemma PlaceKeys(f: InputFile, d: Def, v: Value, g: InputFile)
    requires Place(f, d, v) == Success(g)
    ensures forall k :: k in Keys(g.properties) <==> k in Keys(f.properties) || (d.kind != Scalar && k == d.name)
    ensures DistinctKeys(f.properties) ==> DistinctKeys(g.properties)
  {
    if d.kind != Scalar {
      assert g.properties == Put(f.properties, d.name, v);
    } else {
      assert g.properties == f.properties;
    }
  }

  lemma BlockNamesCons(defs: seq<Def>)
    requires defs != []
    ensures forall k :: k in BlockNames(defs) <==> (defs[0].kind != Scalar && k == defs[0].name) || k in BlockNames(defs[1..])
  {
    assert BlockNames(defs) == (if defs[0].kind != Scalar then [defs[0].name] else []) + BlockNames(defs[1..]);
  }

  /** `InputFile(fpath)` on the lines of the file. */
  function Load(lines: seq<string>): (r: Result<InputFile, Error>)
    ensures r.Success? ==> Preprocess(lines).Success? && SplitDefs(Preprocess(lines).value).Success?
    ensures r.Success? ==> forall k :: k in Keys(r.value.properties) <==> k in BlockNames(SplitDefs(Preprocess(lines).value).value)
    ensures r.Success? ==> DistinctKeys(r.value.properties)
  {
    var txt :- Preprocess(lines);
    var defs :- SplitDefs(txt);
    Build(InputFile([], []), defs)
  }

  /** `obj[key]`: the top-level block stored under `key`, or KeyError. */
  function GetItem(f: InputFile, key: Name): (r: Result<Value, Error>)
    ensures r.Failure? <==> key !in Keys(f.properties)
    ensures r.Failure? ==> r.error == KeyError(key)
    ensures r.Success? ==> exists i :: 0 <= i < |f.properties| && f.properties[i] == (key, r.value)
  {
    match Get(f.properties, key)
    case Some(v) => Success(v)
    case None => Failure(KeyError(key))
  }

  /** `obj.keys()`: the names of the top-level blocks, in insertion order. */
  function KeysOf(f: InputFile): (ks: seq<Name>)
    ensures forall k :: k in ks <==> GetItem(f, k).Success?
  {
    Keys(f.properties)
  }

  // ---------------------------------------------------------------------
  // Properties of decoding
  // ---------------------------------------------------------------------

  lemma BooleanWordsAreLetters(x: string)
    requires x in TrueValues || x in FalseValues
    ensures x != [] && forall k :: 0 <= k < |x| ==> 'a' <= LowerChar(x[k]) <= 'z'
    ensures x != "inf" && x != "infinity" && x != "nan"
  {
  }

  /** Lowering twice is lowering once. */
  lemma LowerIdempotent(s: string)
    ensures Lower(Lower(s)) == Lower(s)
  {
  }

  /** The boolean words decode to booleans in any mix of case: `float()`
      rejects them all, so the word lists decide. */
  lemma BooleanWords(w: string)
    ensures Lower(w) in TrueValues ==> DecodeScalar(w) == Bool(true)
    ensures Lower(w) in FalseValues ==> DecodeScalar(w) == Bool(false)
  {
    if Lower(w) in TrueValues || Lower(w) in FalseValues {
      BooleanNotFloat(w);
      assert Lower(w) !in TrueValues || Lower(w) !in FalseValues;
    }
  }

  /** `float()` rejects every spelling of a boolean word. */
  lemma BooleanNotFloat(w: string)
    requires Lower(w) in TrueValues || Lower(w) in FalseValues
    ensures !IsFloatLiteral(w)
  {
    var x := Lower(w);
    BooleanWordsAreLetters(x);
    forall k | 0 <= k < |w| ensures 'a' <= LowerChar(w[k]) <= 'z' {
      assert x[k] == LowerChar(w[k]);
      assert LowerChar(x[k]) == x[k];
    }
    NotFloatLetters(w);
  }

  /** A word starting with a quote character is neither a float nor a
      boolean word, so it decodes to a string. */
  lemma QuotedIsString(w: string, c: char)
    requires c == '"' || c == '\''
    requires w != [] && w[0] == c
    ensures DecodeScalar(w) == Str(StripChar(StripChar(w, '"'), '\''))
  {
    NotFloatByFirst(w);
    assert Lower(w)[0] == c;
    assert forall x :: x in TrueValues || x in FalseValues ==> x[0] != c;
  }

  /** A quoted word decodes to the word itself when the word does not begin
      or end with a quote character: double quotes first, then single. */
  lemma QuotedWord(x: string)
    requires x == [] || (x[0] != '"' && x[0] != '\'' && x[|x| - 1] != '"' && x[|x| - 1] != '\'')
    ensures DecodeScalar("\"" + x + "\"") == Str(x)
  {
    QuotedIsString("\"" + x + "\"", '"');
    StripCharQuoted(x, '"');
    assert StripChar(x, '\'') == x;
  }

  /** The same for single quotes. */
  lemma SingleQuotedWord(x: string)
    requires x == [] || (x[0] != '"' && x[0] != '\'' && x[|x| - 1] != '"' && x[|x| - 1] != '\'')
    ensures DecodeScalar("'" + x + "'") == Str(x)
  {
    var q := "'" + x + "'";
    assert q[0] == '\'' && q[|q| - 1] == '\'';
    QuotedIsString(q, '\'');
    assert StripChar(q, '"') == q;
    StripCharQuoted(x, '\'');
    assert StripChar(q, '\'') == x;
  }

  /** The text of a scalar found by splitting never trips the no-space
      assertion of `_parse`. */
  lemma SplitScalarParses(d: Def)
    requires WellFormed(d) && d.kind == Scalar
    ensures ParseScalar(d.text) == Success(DecodeScalar(Strip(d.text)))
  {
    StripNoSpace(d.text);
  }

  /** Words joined by spaces need no stripping and, free of parentheses
      themselves, hold none. */
  lemma JoinedWords(ws: seq<string>)
    requires Words(ws)
    requires forall i :: 0 <= i < |ws| ==> '(' !in ws[i] && ')' !in ws[i]
    ensures Strip(Join(ws, " ")) == Join(ws, " ")
    ensures '(' !in Join(ws, " ") && ')' !in Join(ws, " ")
  {
    JoinStartsNonSpace(ws);
    if ws != [] {
      JoinEnds(ws, " ");
      assert ws[|ws| - 1] != [] && NoSpace(ws[|ws| - 1]);
    }
    JoinAvoids(ws, " ", '(');
    JoinAvoids(ws, " ", ')');
  }

  lemma Parenthesised(j: string)
    ensures Strip("(" + j + ")") == "(" + j + ")"
    ensures Inner("(" + j + ")") == j
  {
    ParenStrip(j);
    ParenInner(j);
  }

  lemma ParenStrip(j: string)
    ensures Strip("(" + j + ")") == "(" + j + ")"
  {
    var t := "(" + j + ")";
    assert t[0] == '(' && t[|t| - 1] == ')';
    assert !IsSpace('(') && !IsSpace(')');
    StripUnpadded(t);
  }

  lemma ParenInner(j: string)
    ensures Inner("(" + j + ")") == j
  {
    var t := "(" + j + ")";
    assert t[1..|t| - 1] == j;
  }

  /** A list of plain words, written `( w1 w2 … )`, parses to the list of the
      decoded words, one item per word. */
  lemma ListOfWords(ws: seq<string>)
    requires Words(ws)
    requires forall i :: 0 <= i < |ws| ==> '(' !in ws[i] && ')' !in ws[i]
    ensures var r := ParseValue(ListBlock, "(" + Join(ws, " ") + ")");
            && r.Success? && r.value.List? && |r.value.items| == |ws|
            && forall i :: 0 <= i < |ws| ==> r.value.items[i] == DecodeScalar(ws[i])
  {
    WordsParse(ws);
    WordListItems(ws);
  }

  lemma WordsParse(ws: seq<string>)
    requires Words(ws)
    requires forall i :: 0 <= i < |ws| ==> '(' !in ws[i] && ')' !in ws[i]
    ensures ParseValue(ListBlock, "(" + Join(ws, " ") + ")") == Success(WordList(ws))
  {
    var j := Join(ws, " ");
    var t := "(" + j + ")";
    Parenthesised(j);
    JoinedWords(ws);
    assert BlockInner(t) == j;
    SplitJoinWords(ws);
    assert ParseBlock(ListBlock, t) == Success(WordList(ws));
  }

  lemma WordListItems(words: seq<string>)
    ensures forall i :: 0 <= i < |words| ==> WordList(words).items[i] == DecodeScalar(words[i])
  {
  }

  /** The definitions parsed one by one, each on its own, stopping at the
      first failure. */
  function ParseAll(defs: seq<Def>): (r: Result<seq<Value>, Error>)
    ensures r.Success? ==> |r.value| == |defs|
    decreases |defs|
  {
    if defs == [] then Success([])
    else
      var v :- ParseValue(defs[0].kind, defs[0].text);
      var vs :- ParseAll(defs[1..]);
      Success([v] + vs)
  }

  /** A list holding `items` followed by parsed values, or the parse failure. */
  function Appended(items: seq<Value>, vs: Result<seq<Value>, Error>): Result<Value, Error> {
    match vs
    case Success(s) => Success(List(items + s))
    case Failure(e) => Failure(e)
  }

  /** One more value in front of the parsed values is one more item after `items`. */
  function Prepended(v: Value, vs: Result<seq<Value>, Error>): Result<seq<Value>, Error> {
    match vs
    case Success(s) => Success([v] + s)
    case Failure(e) => Failure(e)
  }

  /** `Fill` into a list appends the definitions' values in order, or fails
      with the first definition that fails to parse. */
  lemma {:induction false} FillList(c: Value, defs: seq<Def>, bound: nat)
    requires c.List?
    requires forall i :: 0 <= i < |defs| ==> |defs[i].text| < bound
    ensures Fill(c, defs, bound) == Appended(c.items, ParseAll(defs))
    decreases |defs|
  {
    if defs == [] {
      assert c.items + [] == c.items;
    } else if ParseValue(defs[0].kind, defs[0].text).Success? {
      var v := ParseValue(defs[0].kind, defs[0].text).value;
      FillList(List(c.items + [v]), defs[1..], bound);
      FillCons(c, v, defs, bound);
      ParseAllCons(v, defs);
      AppendedShift(c.items, v, ParseAll(defs[1..]));
    }
  }

  lemma FillCons(c: Value, v: Value, defs: seq<Def>, bound: nat)
    requires c.List? && defs != [] && ParseValue(defs[0].kind, defs[0].text) == Success(v)
    requires forall i :: 0 <= i < |defs| ==> |defs[i].text| < bound
    ensures Fill(c, defs, bound) == Fill(List(c.items + [v]), defs[1..], bound)
  {
  }

  lemma ParseAllCons(v: Value, defs: seq<Def>)
    requires defs != [] && ParseValue(defs[0].kind, defs[0].text) == Success(v)
    ensures ParseAll(defs) == Prepended(v, ParseAll(defs[1..]))
  {
  }

  lemma AppendedShift(items: seq<Value>, v: Value, vs: Result<seq<Value>, Error>)
    ensures Appended(items + [v], vs) == Appended(items, Prepended(v, vs))
  {
    if vs.Success? {
      assert items + [v] + vs.value == items + ([v] + vs.value);
    }
  }

  /** The names of the definitions, in order. */
  function DefNames(defs: seq<Def>): (ns: seq<Name>)
    ensures |ns| == |defs| && forall i :: 0 <= i < |defs| ==> ns[i] == defs[i].name
  {
    seq(|defs|, i requires 0 <= i < |defs| => defs[i].name)
  }

  /** `Fill` into a map succeeds exactly when every definition parses, fails
      with the first failure otherwise, and leaves each name holding the
      value of its last definition and every other name as it was. */
  lemma {:induction false} FillMap(c: Value, defs: seq<Def>, bound: nat)
    requires c.Map?
    requires forall i :: 0 <= i < |defs| ==> |defs[i].text| < bound
    ensures Fill(c, defs, bound).Success? <==> ParseAll(defs).Success?
    ensures Fill(c, defs, bound).Failure? ==> Fill(c, defs, bound).error == ParseAll(defs).error
    ensures Fill(c, defs, bound).Success? ==>
              Fill(c, defs, bound).value.Map?
              && Assigned(c.entries, DefNames(defs), ParseAll(defs).value, Fill(c, defs, bound).value.entries)
    decreases |defs|
  {
    if defs != [] && ParseValue(defs[0].kind, defs[0].text).Success? {
      var v := ParseValue(defs[0].kind, defs[0].text).value;
      var c' := Map(Put(c.entries, defs[0].name, v));
      FillMap(c', defs[1..], bound);
      FillMapCons(c, v, defs, bound);
      ParseAllCons(v, defs);
      var r := Fill(c, defs, bound);
      if r.Success? {
        DefNamesCons(defs);
        AssignedStep(c.entries, defs[0].name, v, DefNames(defs[1..]), ParseAll(defs[1..]).value, r.value.entries);
      }
    }
  }

  lemma DefNamesCons(defs: seq<Def>)
    requires defs != []
    ensures DefNames(defs) == [defs[0].name] + DefNames(defs[1..])
  {
    var a, b := DefNames(defs), [defs[0].name] + DefNames(defs[1..]);
    forall i | 0 <= i < |a| ensures a[i] == b[i] {
      if i > 0 {
        assert defs[1..][i - 1] == defs[i];
      }
    }
  }

  lemma FillMapCons(c: Value, v: Value, defs: seq<Def>, bound: nat)
    requires c.Map? && defs != [] && ParseValue(defs[0].kind, defs[0].text) == Success(v)
    requires forall i :: 0 <= i < |defs| ==> |defs[i].text| < bound
    ensures Fill(c, defs, bound) == Fill(Map(Put(c.entries, defs[0].name, v)), defs[1..], bound)
  {
  }

  /** The definitions inside a block: the block parses exactly when its
      text splits and every definition parses on its own; a list holds the
      definitions' values in order, a map each name's last value and
      nothing else. */
  lemma BlockOfDefs(kind: Kind, inner: string, bound: nat)
    requires kind != Scalar && (inner == [] || |inner| < bound)
    ensures var r := ParseDefs(kind, inner, bound);
            r.Success? <==> SplitDefs(inner).Success? && ParseAll(SplitDefs(inner).value).Success?
    ensures var r := ParseDefs(kind, inner, bound);
            r.Success? && kind == ListBlock ==> r.value == List(ParseAll(SplitDefs(inner).value).value)
    ensures var r := ParseDefs(kind, inner, bound);
            r.Success? && kind == MapBlock ==>
              r.value.Map? && Assigned([], DefNames(SplitDefs(inner).value), ParseAll(SplitDefs(inner).value).value, r.value.entries)
  {
    if SplitDefs(inner).Success? {
      var defs := SplitDefs(inner).value;
      InnerShorter(bound, inner, defs);
      ParseDefsFill(kind, inner, bound, defs);
      if kind == ListBlock {
        ListOfDefs(defs, bound);
      } else {
        FillMap(Map([]), defs, bound);
      }
    }
  }

  lemma ParseDefsFill(kind: Kind, inner: string, bound: nat, defs: seq<Def>)
    requires kind != Scalar && (inner == [] || |inner| < bound)
    requires SplitDefs(inner) == Success(defs)
    requires forall i :: 0 <= i < |defs| ==> |defs[i].text| < bound
    ensures ParseDefs(kind, inner, bound) == Fill(EmptyOf(kind), defs, bound)
  {
  }

  lemma ListOfDefs(defs: seq<Def>, bound: nat)
    requires forall i :: 0 <= i < |defs| ==> |defs[i].text| < bound
    ensures Fill(List([]), defs, bound).Success? <==> ParseAll(defs).Success?
    ensures Fill(List([]), defs, bound).Success? ==> Fill(List([]), defs, bound).value == List(ParseAll(defs).value)
  {
    FillList(List([]), defs, bound);
    if ParseAll(defs).Success? {
      assert [] + ParseAll(defs).value == ParseAll(defs).value;
    }
  }

  /** A scalar definition written out: `name value;`. */
  function ScalarDef(n: string, v: string): string {
    n + " " + v + ";"
  }

  /** A name and a value that `_split_defs` reads back from `name value;`:
      the name is a word that does not open a list, the value has no
      whitespace. */
  predicate Writable(n: string, v: string) {
    n != [] && n[0] != '(' && NoSpace(n) && NoSpace(v)
  }

  /** Text with nothing to strip at either end. */
  predicate Unpadded(s: string) {
    s == [] || (!IsSpace(s[0]) && !IsSpace(s[|s| - 1]))
  }

  lemma FindSpaceAt(s: string, j: nat)
    requires j < |s| && s[j] == ' ' && NoSpace(s[..j])
    ensures Find(s, " ", 0) == j
  {
    MatchAtOne(s, ' ', j);
    forall k | 0 <= k < j ensures !MatchAt(s, " ", k) {
      assert s[k] == s[..j][k];
      MatchAtOne(s, ' ', k);
    }
    FindIs(s, " ", 0, j);
  }

  lemma NoSpaceFind(s: string)
    requires NoSpace(s)
    ensures Find(s, " ", 0) == -1
  {
    FindChar(s, ' ', 0);
  }

  /** The name of `name value…` is read up to its space. */
  lemma TakeNameOf(n: string, u: string)
    requires n != [] && n[0] != '(' && NoSpace(n)
    requires u != [] && Unpadded(u)
    ensures TakeName(n + " " + u) == (Some(n), u)
  {
    var txt := n + " " + u;
    assert txt[..|n|] == n;
    FindSpaceAt(txt, |n|);
    assert txt[|n| + 1..] == u;
    StripUnpadded(u);
  }

  /** The last value word of a text. */
  lemma ValueWordLast(v: string)
    requires NoSpace(v)
    ensures ValueWord(v + ";") == (v + ";", true)
  {
    assert NoSpace(v + ";") by {
      assert forall k :: 0 <= k < |v| ==> (v + ";")[k] == v[k];
    }
    NoSpaceFind(v + ";");
  }

  /** A value word followed by more text. */
  lemma ValueWordMid(v: string, rest: string)
    requires NoSpace(v) && rest != [] && Unpadded(rest)
    ensures ValueWord(v + ";" + " " + rest) == (v + ";", false)
    ensures AfterWord(v + ";" + " " + rest) == rest
  {
    var u := v + ";" + " " + rest;
    var w := v + ";";
    assert u[..|w|] == w;
    assert NoSpace(w) by {
      assert forall k :: 0 <= k < |v| ==> w[k] == v[k];
    }
    FindSpaceAt(u, |w|);
    StripUnpadded(w);
    assert u[|w| + 1..] == rest;
    StripUnpadded(rest);
  }

  /** A text whose name is followed by a value word ending in `;` splits
      off a scalar definition. */
  lemma SplitOneOfWord(txt: string, n: string, u: string, w: string, atEnd: bool)
    requires txt != [] && TakeName(txt) == (Some(n), u) && ValueWord(u) == (w, atEnd)
    requires w != [] && w[|w| - 1] == ';'
    ensures SplitOne(txt) == Success((Def(Some(n), w[..|w| - 1], Scalar), if atEnd then [] else AfterWord(u)))
  {
  }

  /** The last written scalar definition of a text splits off as itself. */
  lemma SplitOneLast(n: string, v: string)
    requires Writable(n, v)
    ensures SplitOne(ScalarDef(n, v)) == Success((Def(Some(n), v, Scalar), []))
  {
    var u := v + ";";
    assert ScalarDef(n, v) == n + " " + u;
    assert u[0] == (if v == [] then ';' else v[0]);
    TakeNameOf(n, u);
    ValueWordLast(v);
    SplitOneOfWord(ScalarDef(n, v), n, u, u, true);
    assert u[..|v|] == v;
  }

  /** A written scalar definition followed by more text splits off, leaving
      that text. */
  lemma SplitOneMid(n: string, v: string, rest: string)
    requires Writable(n, v) && rest != [] && Unpadded(rest)
    ensures SplitOne(ScalarDef(n, v) + " " + rest) == Success((Def(Some(n), v, Scalar), rest))
  {
    var w := v + ";";
    var u := w + " " + rest;
    assert ScalarDef(n, v) + " " + rest == n + " " + u;
    assert u[|u| - 1] == rest[|rest| - 1];
    assert u[0] == (if v == [] then ';' else v[0]);
    TakeNameOf(n, u);
    ValueWordMid(v, rest);
    SplitOneOfWord(ScalarDef(n, v) + " " + rest, n, u, w, false);
    assert w[..|v|] == v;
  }

  /** Scalar definitions written out one per name/value pair. */
  function ScalarDefs(ns: seq<string>, vs: seq<string>): (ls: seq<string>)
    requires |ns| == |vs|
    ensures |ls| == |ns|
  {
    seq(|ns|, i requires 0 <= i < |ns| => ScalarDef(ns[i], vs[i]))
  }

  /** The scalar definitions `_split_defs` is expected to find. */
  function ScalarsRead(ns: seq<string>, vs: seq<string>): (ds: seq<Def>)
    requires |ns| == |vs|
    ensures |ds| == |ns|
  {
    seq(|ns|, i requires 0 <= i < |ns| => Def(Some(ns[i]), vs[i], Scalar))
  }

  predicate AllWritable(ns: seq<string>, vs: seq<string>)
    requires |ns| == |vs|
  {
    forall i :: 0 <= i < |ns| ==> Writable(ns[i], vs[i])
  }

  /** Scalar definitions `name value;` joined by spaces split back into
      exactly those definitions, in order. */
  lemma {:induction false} SplitScalars(ns: seq<string>, vs: seq<string>)
    requires |ns| == |vs| && AllWritable(ns, vs)
    ensures SplitDefs(Join(ScalarDefs(ns, vs), " ")) == Success(ScalarsRead(ns, vs))
    decreases |ns|
  {
    if ns == [] {
      assert ScalarDefs(ns, vs) == [];
      assert ScalarsRead(ns, vs) == [];
    } else {
      var tn, tv := ns[1..], vs[1..];
      ScalarsTail(ns, vs);
      SplitScalars(tn, tv);
      ScalarsUnpadded(tn, tv);
      var rest := Join(ScalarDefs(tn, tv), " ");
      var txt := Join(ScalarDefs(ns, vs), " ");
      var d := Def(Some(ns[0]), vs[0], Scalar);
      if |ns| == 1 {
        SplitOneLast(ns[0], vs[0]);
        SplitDefsCons(txt, d, [], []);
      } else {
        SplitOneMid(ns[0], vs[0], rest);
        SplitDefsCons(txt, d, rest, ScalarsRead(tn, tv));
      }
    }
  }

  /** The first written definition and the rest. */
  lemma ScalarsTail(ns: seq<string>, vs: seq<string>)
    requires |ns| == |vs| && ns != [] && AllWritable(ns, vs)
    ensures Writable(ns[0], vs[0]) && AllWritable(ns[1..], vs[1..])
    ensures ScalarsRead(ns, vs) == [Def(Some(ns[0]), vs[0], Scalar)] + ScalarsRead(ns[1..], vs[1..])
    ensures |ns| == 1 ==> Join(ScalarDefs(ns, vs), " ") == ScalarDef(ns[0], vs[0]) && ScalarsRead(ns[1..], vs[1..]) == []
    ensures |ns| > 1 ==> Join(ScalarDefs(ns, vs), " ") == ScalarDef(ns[0], vs[0]) + " " + Join(ScalarDefs(ns[1..], vs[1..]), " ")
                         && Join(ScalarDefs(ns[1..], vs[1..]), " ") != []
  {
    var tn, tv := ns[1..], vs[1..];
    forall i | 0 <= i < |tn| ensures Writable(tn[i], tv[i]) {
      assert tn[i] == ns[i + 1] && tv[i] == vs[i + 1];
    }
    var ls := ScalarDefs(ns, vs);
    assert ls[1..] == ScalarDefs(tn, tv);
    if |ns| > 1 {
      var t := ScalarDefs(tn, tv);
      assert t[0] == ScalarDef(tn[0], tv[0]) != [];
      assert Join(t, " ") != [] by {
        if |t| > 1 {
          assert Join(t, " ") == t[0] + " " + Join(t[1..], " ");
        }
      }
    }
  }

  lemma SplitDefsCons(txt: string, d: Def, rest: string, more: seq<Def>)
    requires txt != [] && SplitOne(txt) == Success((d, rest)) && SplitDefs(rest) == Success(more)
    ensures SplitDefs(txt) == Success([d] + more)
  {
  }

  /** Written scalar definitions joined by spaces have nothing to strip. */
  lemma ScalarsUnpadded(ns: seq<string>, vs: seq<string>)
    requires |ns| == |vs| && AllWritable(ns, vs)
    ensures Unpadded(Join(ScalarDefs(ns, vs), " "))
  {
    var ls := ScalarDefs(ns, vs);
    if ls != [] {
      var j := Join(ls, " ");
      assert ls[|ls| - 1] == ScalarDef(ns[|ns| - 1], vs[|vs| - 1]);
      JoinEnds(ls, " ");
      assert Writable(ns[0], vs[0]);
      assert ls[0][0] == ns[0][0];
      assert j[0] == ls[0][0] by {
        if |ls| > 1 {
          assert j == ls[0] + " " + Join(ls[1..], " ");
        }
      }
    }
  }

  /** Each value decoded as a scalar. */
  function DecodeAll(vs: seq<string>): (r: seq<Value>)
    ensures |r| == |vs|
    decreases |vs|
  {
    if vs == [] then [] else [DecodeScalar(vs[0])] + DecodeAll(vs[1..])
  }

  /** Value `i` of the decoded values is value `i` decoded. */
  lemma {:induction false} DecodeAllAt(vs: seq<string>, i: nat)
    requires i < |vs|
    ensures |DecodeAll(vs)| == |vs| && DecodeAll(vs)[i] == DecodeScalar(vs[i])
    decreases |vs|
  {
    if i > 0 {
      DecodeAllAt(vs[1..], i - 1);
    } else if |vs| > 1 {
      DecodeAllAt(vs[1..], 0);
    }
  }

  /** Written scalar values parse one by one to their decoded values. */
  lemma {:induction false} ParseScalars(ns: seq<string>, vs: seq<string>)
    requires |ns| == |vs| && AllWritable(ns, vs)
    ensures ParseAll(ScalarsRead(ns, vs)) == Success(DecodeAll(vs))
    decreases |ns|
  {
    var ds := ScalarsRead(ns, vs);
    if ns == [] {
      assert ds == [];
    } else {
      ScalarsTail(ns, vs);
      ParseScalars(ns[1..], vs[1..]);
      ScalarParses(vs[0]);
      assert ds[0] == Def(Some(ns[0]), vs[0], Scalar) && ds[1..] == ScalarsRead(ns[1..], vs[1..]);
      ParseAllCons(DecodeScalar(vs[0]), ds);
    }
  }

  lemma ScalarParses(v: string)
    requires NoSpace(v)
    ensures ParseValue(Scalar, v) == Success(DecodeScalar(v))
  {
    StripWord(v);
  }

  lemma StripWord(v: string)
    requires NoSpace(v)
    ensures Strip(v) == v && ' ' !in v
  {
    if v != [] {
      StripUnpadded(v);
    }
    assert IsSpace(' ');
  }

  /** Braces around text with nothing to strip come off as that text. */
  lemma BraceInner(j: string)
    requires Unpadded(j)
    ensures BlockInner("{" + j + "}") == j
  {
    var t := "{" + j + "}";
    assert t[0] == '{' && t[|t| - 1] == '}';
    StripUnpadded(t);
    assert Inner(t) == j;
    if j != [] {
      StripUnpadded(j);
    }
  }

  /** A map block of written scalar definitions `{ n1 v1; n2 v2; … }` parses
      to a map that holds, for each name, the decoded value of its last
      definition, and no other name. */
  lemma MapOfScalars(ns: seq<string>, vs: seq<string>)
    requires |ns| == |vs| && AllWritable(ns, vs)
    ensures var r := ParseValue(MapBlock, "{" + Join(ScalarDefs(ns, vs), " ") + "}");
            && r.Success? && r.value.Map?
            && Assigned([], DefNames(ScalarsRead(ns, vs)), DecodeAll(vs), r.value.entries)
  {
    var j := Join(ScalarDefs(ns, vs), " ");
    var t := "{" + j + "}";
    ScalarsUnpadded(ns, vs);
    BraceInner(j);
    SplitScalars(ns, vs);
    ParseScalars(ns, vs);
    BlockOfDefs(MapBlock, j, |t|);
    assert ParseValue(MapBlock, t) == ParseDefs(MapBlock, j, |t|);
  }

  // ---------------------------------------------------------------------
  // Properties of the object
  // ---------------------------------------------------------------------

  /** Every `(key, value)` pair of `items()` is what `obj[key]` returns. */
  lemma ItemsAgree(f: InputFile, i: nat)
    requires DistinctKeys(f.properties) && i < |f.properties|
    ensures GetItem(f, f.properties[i].0) == Success(f.properties[i].1)
  {
    var k := f.properties[i].0;
    assert k in Keys(f.properties);
    var r := GetItem(f, k);
    var j :| 0 <= j < |f.properties| && f.properties[j] == (k, r.value);
  }
}

=== FILE: landuse.dfy ===
/** The reader of WRF's `LANDUSE.TBL` (wrf/landuse.py): a file of named
    tables, each a comma-separated header line followed by seasons of
    comma-separated rows.  The file is a sequence of lines, each with its
    line terminator; numbers are kept as the text `int()` and `float()`
    accepted, and a pandas frame becomes an insertion-ordered map from row
    label to row. */
module LandUse {
  import opened Wrappers
  import opened PyText
  import opened PyNum
  import opened OrderedDict

  /** One cell of a table row: a float column or the description. */
  datatype Cell = Text(text: string) | Real(lexeme: string)

  type Row = seq<Cell>

  /** A season's frame: its columns (the header without `index`) and its rows
      by label; `None` is the all-NaN row pandas creates for a label that no
      line has filled. */
  datatype Frame = Frame(columns: seq<string>, rows: Dict<int, Option<Row>>)

  /** `_read_def`'s result: one frame per season name. */
  type Seasons = Dict<string, Frame>

  /** The header line: the row and season counts and the column header. */
  datatype Header = Header(ndef: int, nseason: int, names: seq<string>)

  /** The exceptions reading a table can raise. */
  datatype Error =
    | MissingField                        // IndexError on a too-short comma split
    | NotAnInteger(text: string)          // ValueError from int()
    | NotAFloat(text: string)             // ValueError from float()
    | ShortRow(fields: seq<string>)       // the assertion on rows that cannot be repaired
    | RowLength(expected: nat, found: nat) // a row whose cell count differs from the frame's column count

  function Min(a: int, b: int): int {
    if a <= b then a else b
  }

  /** `f.readline()` at line `pos`: the line, or `""` at the end of the file. */
  function ReadLine(lines: seq<string>, pos: nat): (r: (string, nat))
    requires pos <= |lines|
    ensures r.1 == Min(|lines|, pos + 1)
    ensures r.0 != [] ==> pos < |lines|
    ensures pos == |lines| ==> r.0 == []
  {
    if pos < |lines| then (lines[pos], pos + 1) else ("", pos)
  }

  /** `int(s)`: Python's `int()` ignores surrounding whitespace. */
  function ToInt(s: string): (r: Result<int, Error>)
    ensures r.Success? <==> IsIntLiteral(Strip(s))
    ensures r.Failure? ==> r.error == NotAnInteger(s)
  {
    if IsIntLiteral(Strip(s)) then Success(IntValue(Strip(s))) else Failure(NotAnInteger(s))
  }

  // ---------------------------------------------------------------------
  // The header line (wrf/landuse.py:18-23)
  // ---------------------------------------------------------------------

  /** The counts in the first two comma fields and the column header
      `['index'] + <third field's words> + ['description']`. */
  function ParseHeader(line: string): (r: Result<Header, Error>)
    ensures var info := SplitOn(line, ',');
            r.Success? <==> |info| >= 3 && IsIntLiteral(Strip(info[0])) && IsIntLiteral(Strip(info[1]))
    ensures r.Success? ==> var n := r.value.names;
              |n| >= 2 && n[0] == "index" && n[|n| - 1] == "description"
              && n[1..|n| - 1] == SplitWs(StripChar(Strip(SplitOn(line, ',')[2]), '\''))
              && r.value.ndef == IntValue(Strip(SplitOn(line, ',')[0]))
              && r.value.nseason == IntValue(Strip(SplitOn(line, ',')[1]))
  {
    var info := SplitOn(line, ',');
    var ndef :- ToInt(info[0]);
    if |info| < 2 then Failure(MissingField)
    else
      var nseason :- ToInt(info[1]);
      if |info| < 3 then Failure(MissingField)
      else
        var words := SplitWs(StripChar(Strip(info[2]), '\''));
        var names := ["index"] + words + ["description"];
        assert names[1..|names| - 1] == words;
        Success(Header(ndef, nseason, names))
  }

  /** A decimal count has no whitespace and reads back as itself. */
  lemma CountField(n: nat)
    ensures ',' !in Digits(n) && Strip(Digits(n)) == Digits(n)
    ensures IsIntLiteral(Digits(n)) && IntValue(Digits(n)) == n
  {
    var d := Digits(n);
    assert !IsSpace(d[0]) && !IsSpace(d[|d| - 1]);
    StripUnpadded(d);
    assert ',' !in d by {
      forall k | 0 <= k < |d| ensures d[k] != ',' {
        assert IsDigit(d[k]);
      }
    }
    DigitsInt(n);
  }

  /** Quotes around a text without quote ends come off again. */
  lemma Unquote(j: string)
    requires j == [] || (j[0] != '\'' && j[|j| - 1] != '\'')
    ensures StripChar(Strip("'" + j + "'"), '\'') == j
  {
    var q := "'" + j + "'";
    assert q == ['\''] + j + ['\''];
    assert !IsSpace(q[0]) && !IsSpace(q[|q| - 1]);
    StripCharQuoted(j, '\'');
  }

  /** Quoting a comma-free column list keeps it comma-free. */
  lemma QuotedNoComma(cols: seq<string>)
    requires forall i :: 0 <= i < |cols| ==> ',' !in cols[i]
    ensures ',' !in "'" + Join(cols, " ") + "'"
  {
    JoinAvoids(cols, " ", ',');
  }

  /** The quoted column list of a header line is read back word for word. */
  lemma QuotedColumns(cols: seq<string>)
    requires Words(cols)
    requires forall i :: 0 <= i < |cols| ==> '\'' !in cols[i]
    ensures SplitWs(StripChar(Strip("'" + Join(cols, " ") + "'"), '\'')) == cols
  {
    var j := Join(cols, " ");
    JoinAvoids(cols, " ", '\'');
    Unquote(j);
    SplitJoinWords(cols);
  }

  /** A line whose comma fields are two counts and a quoted column list is
      read as those counts and columns, framed by `index` and `description`. */
  lemma HeaderOfFields(line: string, ndef: nat, nseason: nat, cols: seq<string>)
    requires Words(cols)
    requires forall i :: 0 <= i < |cols| ==> '\'' !in cols[i] && ',' !in cols[i]
    requires SplitOn(line, ',') == [Digits(ndef), Digits(nseason), "'" + Join(cols, " ") + "'"]
    ensures ParseHeader(line) == Success(Header(ndef, nseason, ["index"] + cols + ["description"]))
  {
    CountField(ndef);
    CountField(nseason);
    QuotedColumns(cols);
    QuotedNoComma(cols);
    var r := ParseHeader(line);
    assert r.Success?;
    var n := r.value.names;
    assert n[1..|n| - 1] == cols;
    assert n == [n[0]] + n[1..|n| - 1] + [n[|n| - 1]];
  }

  /** A header line written from counts and column names parses back to
      them, framed by `index` and `description`. */
  lemma HeaderRoundTrip(ndef: nat, nseason: nat, cols: seq<string>)
    requires Words(cols)
    requires forall i :: 0 <= i < |cols| ==> '\'' !in cols[i] && ',' !in cols[i]
    ensures ParseHeader(Join([Digits(ndef), Digits(nseason), "'" + Join(cols, " ") + "'"], ","))
            == Success(Header(ndef, nseason, ["index"] + cols + ["description"]))
  {
    var parts := [Digits(ndef), Digits(nseason), "'" + Join(cols, " ") + "'"];
    CountField(ndef);
    CountField(nseason);
    QuotedNoComma(cols);
    assert ',' !in parts[0] && ',' !in parts[1] && ',' !in parts[2];
    assert forall i :: 0 <= i < |parts| ==> ',' !in parts[i] by {
      forall i | 0 <= i < |parts| ensures ',' !in parts[i] {
        assert i == 0 || i == 1 || i == 2;
      }
    }
    SplitOnJoin(parts, ',');
    HeaderOfFields(Join(parts, ","), ndef, nseason, cols);
  }

  // ---------------------------------------------------------------------
  // Rows (wrf/landuse.py:30-39)
  // ---------------------------------------------------------------------

  /** A list comprehension over fields that converts each accepted field and
      raises on the first field `ok` rejects. */
  function ConvertAll(fields: seq<string>, ok: string -> bool, conv: string -> string): (r: Result<seq<string>, Error>)
    ensures r.Success? <==> forall k :: 0 <= k < |fields| ==> ok(fields[k])
    ensures r.Success? ==> |r.value| == |fields| && forall k :: 0 <= k < |fields| ==> r.value[k] == conv(fields[k])
    ensures r.Failure? ==> r.error.NotAFloat? && r.error.text in fields && !ok(r.error.text)
    decreases |fields|
  {
    if fields == [] then Success([])
    else if !ok(fields[0]) then Failure(NotAFloat(fields[0]))
    else
      var rest := ConvertAll(fields[1..], ok, conv);
      assert forall k :: 1 <= k < |fields| ==> fields[k] == fields[1..][k - 1];
      if rest.Failure? then Failure(rest.error) else Success([conv(fields[0])] + rest.value)
  }

  /** `float()` accepts the field once its surrounding whitespace is gone. */
  predicate FloatField(s: string) {
    IsFloatLiteral(Strip(s))
  }

  /** `[float(v) for v in fields]`: every field must be accepted by
      `float()`, which ignores surrounding whitespace; the first one rejected
      raises. */
  function Floats(fields: seq<string>): (r: Result<seq<string>, Error>)
    ensures r.Success? <==> forall k :: 0 <= k < |fields| ==> IsFloatLiteral(Strip(fields[k]))
    ensures r.Success? ==> |r.value| == |fields| && forall k :: 0 <= k < |fields| ==> r.value[k] == Strip(fields[k])
    ensures r.Failure? ==> r.error.NotAFloat? && r.error.text in fields && !IsFloatLiteral(Strip(r.error.text))
  {
    ConvertAll(fields, FloatField, Strip)
  }

  function Reals(lexemes: seq<string>): (r: Row)
    ensures |r| == |lexemes|
    ensures forall k :: 0 <= k < |r| ==> r[k] == Real(lexemes[k])
  {
    seq(|lexemes|, k requires 0 <= k < |lexemes| => Real(lexemes[k]))
  }

  /** The workaround for a row missing the comma after its index: a row one
      field short has its first field split on whitespace; a row shorter
      still fails the assertion. */
  function Repair(fields: seq<string>, width: nat): (r: Result<seq<string>, Error>)
    requires fields != []
    ensures |fields| >= width ==> r == Success(fields)
    ensures |fields| < width ==> (r.Success? <==> |fields| + 1 == width)
    ensures r.Failure? ==> r.error == ShortRow(fields)
  {
    if |fields| < width then
      if |fields| + 1 != width then Failure(ShortRow(fields))
      else Success(SplitWs(fields[0]) + fields[1..])
    else Success(fields)
  }

  /** The repaired fields of a row: the float columns, the description
      stripped of whitespace and then of quotes, the label from `int()` of
      the first field, and the frame's check that the row fills every column. */
  function ParseFields(line: seq<string>, width: nat): (r: Result<(int, Row), Error>)
    requires width >= 2
    ensures r.Success? ==> |r.value.1| == width - 1 && |line| == width
  {
    if line == [] then Failure(MissingField)
    else
      var last := |line| - 1;
      var middle :- Floats(if last >= 1 then line[1..last] else []);
      var desc := StripChar(Strip(line[last]), '\'');
      var first := if last >= 1 then line[0] else desc;
      var idx :- ToInt(first);
      var values := if last >= 1 then Reals(middle) + [Text(desc)] else [];
      if |values| != width - 1 then Failure(RowLength(width - 1, |values|))
      else Success((idx, values))
  }

  /** A row is read when it has one field per column, its middle fields are
      floats and its first field is an integer. */
  lemma FieldsAccepted(line: seq<string>, width: nat)
    requires width >= 2 && |line| == width
    requires forall k :: 1 <= k < |line| - 1 ==> IsFloatLiteral(Strip(line[k]))
    requires IsIntLiteral(Strip(line[0]))
    ensures ParseFields(line, width).Success?
  {
    var last := |line| - 1;
    var mid := line[1..last];
    forall k | 0 <= k < |mid| ensures IsFloatLiteral(Strip(mid[k])) {
      assert mid[k] == line[k + 1];
    }
    assert Floats(mid).Success?;
    assert ToInt(line[0]).Success?;
    ParseFieldsOk(line, width);
  }

  lemma ParseFieldsOk(line: seq<string>, width: nat)
    requires width >= 2 && |line| == width
    requires Floats(line[1..|line| - 1]).Success?
    requires ToInt(line[0]).Success?
    ensures ParseFields(line, width).Success?
  {
    var m := Floats(line[1..|line| - 1]);
    var desc := StripChar(Strip(line[|line| - 1]), '\'');
    assert |Reals(m.value) + [Text(desc)]| == width - 1;
  }

  /** A row read has its first field's integer as label, the float lexemes of
      the middle fields, and the unquoted description last; every middle
      field was accepted by `float()`.  With `FieldsAccepted` this makes
      success an if-and-only-if. */
  lemma FieldsCells(line: seq<string>, width: nat)
    requires width >= 2 && ParseFields(line, width).Success?
    ensures var r := ParseFields(line, width).value;
            && |r.1| == |line| - 1
            && (forall k :: 1 <= k < |line| - 1 ==> IsFloatLiteral(Strip(line[k])))
            && (forall k :: 0 <= k < |r.1| - 1 ==> r.1[k] == Real(Strip(line[k + 1])))
            && r.1[|r.1| - 1] == Text(StripChar(Strip(line[|line| - 1]), '\''))
            && IsIntLiteral(Strip(line[0])) && r.0 == IntValue(Strip(line[0]))
  {
    var mid := line[1..|line| - 1];
    var m := Floats(mid);
    var desc := StripChar(Strip(line[|line| - 1]), '\'');
    var values := Reals(m.value) + [Text(desc)];
    assert ParseFields(line, width).value == (IntValue(Strip(line[0])), values);
    forall k | 0 <= k < |values| - 1 ensures values[k] == Real(Strip(line[k + 1])) {
      assert mid[k] == line[k + 1];
    }
    forall k | 1 <= k < |line| - 1 ensures IsFloatLiteral(Strip(line[k])) {
      assert mid[k - 1] == line[k];
    }
  }

  /** One row line read against a header of `width` columns. */
  function ParseRow(line: string, width: nat): (r: Result<(int, Row), Error>)
    requires width >= 2
    ensures |SplitOn(line, ',')| + 1 < width ==> r == Failure(ShortRow(SplitOn(line, ',')))
    ensures |SplitOn(line, ',')| > width ==> r.Failure?
    ensures r.Success? ==> |r.value.1| == width - 1
  {
    var fields := SplitOn(line, ',');
    var repaired :- Repair(fields, width);
    ParseFields(repaired, width)
  }

  /** Past the end of the file a row cannot be read: `readline()` gives `""`. */
  lemma EmptyRowFails(width: nat)
    requires width >= 2
    ensures ParseRow("", width).Failure?
  {
    EmptySplits();
  }

  /** An empty line is one empty comma piece and no words. */
  lemma EmptySplits()
    ensures SplitOn("", ',') == [""] && SplitWs("") == []
  {
    SplitOnJoin([""], ',');
    assert Join([""], [',']) == "";
  }

  /** Whitespace splitting separates two words joined by one space. */
  lemma SplitTwoWords(w: string, f: string)
    requires w != [] && NoSpace(w) && f != [] && NoSpace(f)
    ensures SplitWs(w + " " + f) == [w, f]
  {
    var ws := [w, f];
    assert Words(ws);
    SplitJoinWords(ws);
    assert ws[1..] == [f];
    assert Join(ws, " ") == w + " " + f;
  }

  /** A row line reads as the fields its comma split repairs to. */
  lemma RowViaRepair(line: string, width: nat, fields: seq<string>)
    requires width >= 2 && Repair(SplitOn(line, ','), width) == Success(fields)
    ensures ParseRow(line, width) == ParseFields(fields, width)
  {
  }

  /** Fields none of which holds a comma. */
  predicate CommaFree(parts: seq<string>) {
    forall i :: 0 <= i < |parts| ==> ',' !in parts[i]
  }

  lemma CommaFreeCons(a: string, parts: seq<string>)
    requires ',' !in a && CommaFree(parts)
    ensures CommaFree([a] + parts)
  {
    forall i | 0 <= i < |[a] + parts| ensures ',' !in ([a] + parts)[i] {
      if i >= 1 {
        assert ([a] + parts)[i] == parts[i - 1];
      }
    }
  }

  /** The label and first value run together with a space hold no comma. */
  lemma SpacedNoComma(w: string, f: string)
    requires ',' !in w && ',' !in f
    ensures ',' !in w + " " + f
  {
  }

  /** The comma pieces of a row with and without the comma after its label. */
  lemma LabelPieces(w: string, f: string, rest: seq<string>)
    requires ',' !in w && ',' !in f && CommaFree(rest)
    ensures SplitOn(Join([w + " " + f] + rest, ","), ',') == [w + " " + f] + rest
    ensures SplitOn(Join([w, f] + rest, ","), ',') == [w, f] + rest
  {
    SpacedNoComma(w, f);
    CommaFreeCons(w + " " + f, rest);
    CommaFreeCons(f, rest);
    CommaFreeCons(w, [f] + rest);
    assert [w, f] + rest == [w] + ([f] + rest);
    SplitOnJoin([w + " " + f] + rest, ',');
    SplitOnJoin([w, f] + rest, ',');
  }

  /** A row missing the comma after its label reads exactly like the same
      row with the comma. */
  lemma RepairedRowAgrees(w: string, f: string, rest: seq<string>)
    requires w != [] && NoSpace(w) && ',' !in w
    requires f != [] && NoSpace(f) && ',' !in f
    requires CommaFree(rest)
    ensures ParseRow(Join([w + " " + f] + rest, ","), |rest| + 2)
            == ParseRow(Join([w, f] + rest, ","), |rest| + 2)
  {
    var joined := [w + " " + f] + rest;
    var split := [w, f] + rest;
    var n := |rest| + 2;
    LabelPieces(w, f, rest);
    SplitTwoWords(w, f);
    assert joined[0] == w + " " + f && joined[1..] == rest;
    assert Repair(joined, n) == Success(split);
    assert Repair(split, n) == Success(split);
    RowViaRepair(Join(joined, ","), n, split);
    RowViaRepair(Join(split, ","), n, split);
  }

  /** A float lexeme as written to a row: non-empty, without whitespace or
      commas. */
  predicate RowLexeme(v: string) {
    v != [] && NoSpace(v) && ',' !in v && IsFloatLiteral(v)
  }

  /** A text without whitespace is its own `strip()`. */
  lemma StripNoSpace(v: string)
    requires v != [] && NoSpace(v)
    ensures Strip(v) == v
  {
    assert !IsSpace(v[0]) && !IsSpace(v[|v| - 1]);
  }

  /** Cells equal, one by one, to the lexemes of the middle fields and a
      final text make up `Reals` of those fields and the text. */
  lemma CellsOf(line: seq<string>, row: Row, last: string)
    requires |line| >= 2 && |row| == |line| - 1
    requires forall k :: 0 <= k < |row| - 1 ==> row[k] == Real(Strip(line[k + 1]))
    requires forall k :: 1 <= k < |line| - 1 ==> Strip(line[k]) == line[k]
    requires row[|row| - 1] == Text(last)
    ensures row == Reals(line[1..|line| - 1]) + [Text(last)]
  {
    var want := Reals(line[1..|line| - 1]) + [Text(last)];
    forall k | 0 <= k < |row| ensures row[k] == want[k] {
      if k < |row| - 1 {
        assert Strip(line[k + 1]) == line[k + 1];
      }
    }
  }

  /** The cells read from fields whose middle ones carry no surrounding
      whitespace: those fields' lexemes, then the unquoted last field. */
  lemma CleanCells(line: seq<string>, width: nat)
    requires width >= 2 && ParseFields(line, width).Success?
    requires forall k :: 1 <= k < |line| - 1 ==> Strip(line[k]) == line[k]
    ensures |line| >= 2
    ensures ParseFields(line, width).value.1
            == Reals(line[1..|line| - 1]) + [Text(StripChar(Strip(line[|line| - 1]), '\''))]
  {
    FieldsCells(line, width);
    CellsOf(line, ParseFields(line, width).value.1, StripChar(Strip(line[|line| - 1]), '\''));
  }

  /** Fields already free of surrounding whitespace are read as the label of
      the first, the lexemes of the middle ones and the unquoted last one. */
  lemma CleanFields(line: seq<string>, width: nat)
    requires width >= 2 && |line| == width
    requires Strip(line[0]) == line[0] && IsIntLiteral(line[0])
    requires forall k :: 1 <= k < |line| - 1 ==> Strip(line[k]) == line[k] && IsFloatLiteral(line[k])
    ensures ParseFields(line, width)
            == Success((IntValue(line[0]), Reals(line[1..|line| - 1]) + [Text(StripChar(Strip(line[|line| - 1]), '\''))]))
  {
    FieldsAccepted(line, width);
    FieldsCells(line, width);
    CleanCells(line, width);
  }

  /** Float lexemes between a first and a last field stay as written. */
  lemma MiddleLexemes(first: string, vals: seq<string>, last: string)
    requires forall i :: 0 <= i < |vals| ==> RowLexeme(vals[i])
    ensures var parts := [first] + vals + [last];
            && (forall k :: 1 <= k < |parts| - 1 ==> Strip(parts[k]) == parts[k] && IsFloatLiteral(parts[k]))
            && parts[1..|parts| - 1] == vals
  {
    var parts := [first] + vals + [last];
    forall k | 1 <= k < |parts| - 1 ensures Strip(parts[k]) == parts[k] && IsFloatLiteral(parts[k]) {
      assert parts[k] == vals[k - 1];
      StripNoSpace(vals[k - 1]);
    }
    assert parts[1..|parts| - 1] == vals;
  }

  /** The fields of a row written as label, float lexemes and quoted
      description are read as that label and those cells. */
  lemma FieldsRoundTrip(idx: nat, vals: seq<string>, desc: string)
    requires forall i :: 0 <= i < |vals| ==> RowLexeme(vals[i])
    requires desc == [] || (desc[0] != '\'' && desc[|desc| - 1] != '\'')
    ensures ParseFields([Digits(idx)] + vals + ["'" + desc + "'"], |vals| + 2)
            == Success((idx, Reals(vals) + [Text(desc)]))
  {
    var parts := [Digits(idx)] + vals + ["'" + desc + "'"];
    CountField(idx);
    MiddleLexemes(Digits(idx), vals, "'" + desc + "'");
    Unquote(desc);
    assert parts[0] == Digits(idx) && parts[|parts| - 1] == "'" + desc + "'";
    CleanFields(parts, |vals| + 2);
  }

  /** The written fields of a row come back from its comma split. */
  lemma RowPieces(idx: nat, vals: seq<string>, desc: string)
    requires forall i :: 0 <= i < |vals| ==> RowLexeme(vals[i])
    requires ',' !in desc
    ensures var parts := [Digits(idx)] + vals + ["'" + desc + "'"];
            SplitOn(Join(parts, ","), ',') == parts
  {
    var q := "'" + desc + "'";
    CountField(idx);
    CellsCommaFree(vals, desc);
    CommaFreeCons(Digits(idx), vals + [q]);
    ConcatAssoc([Digits(idx)], vals, [q]);
    SplitOnJoin([Digits(idx)] + vals + [q], ',');
  }

  /** The float lexemes and the quoted description hold no comma. */
  lemma CellsCommaFree(vals: seq<string>, desc: string)
    requires forall i :: 0 <= i < |vals| ==> RowLexeme(vals[i])
    requires ',' !in desc
    ensures CommaFree(vals + ["'" + desc + "'"])
  {
    var q := "'" + desc + "'";
    assert ',' !in q by {
      assert q == ['\''] + desc + ['\''];
    }
    forall i | 0 <= i < |vals + [q]| ensures ',' !in (vals + [q])[i] {
      if i < |vals| {
        assert (vals + [q])[i] == vals[i];
      }
    }
  }

  /** A row written as label, float lexemes and quoted description reads back
      as that label and those cells. */
  lemma RowRoundTrip(idx: nat, vals: seq<string>, desc: string)
    requires forall i :: 0 <= i < |vals| ==> RowLexeme(vals[i])
    requires ',' !in desc && (desc == [] || (desc[0] != '\'' && desc[|desc| - 1] != '\''))
    ensures ParseRow(Join([Digits(idx)] + vals + ["'" + desc + "'"], ","), |vals| + 2)
            == Success((idx, Reals(vals) + [Text(desc)]))
  {
    var parts := [Digits(idx)] + vals + ["'" + desc + "'"];
    RowPieces(idx, vals, desc);
    assert Repair(parts, |vals| + 2) == Success(parts);
    RowViaRepair(Join(parts, ","), |vals| + 2, parts);
    FieldsRoundTrip(idx, vals, desc);
  }

  // ---------------------------------------------------------------------
  // Seasons and tables (wrf/landuse.py:8-15, 24-41)
  // ---------------------------------------------------------------------

  /** The row parser of a header of `width` columns. */
  function RowParser(width: nat): string -> Result<(int, Row), Error> {
    line => if width >= 2 then ParseRow(line, width) else Failure(MissingField)
  }

  /** Row lines parsed one after another, stopping at the first failure. */
  function RowsOf(ls: seq<string>, parse: string -> Result<(int, Row), Error>): (r: Result<seq<(int, Row)>, Error>)
    ensures r.Success? ==> |r.value| == |ls|
    decreases |ls|
  {
    if ls == [] then Success([])
    else
      var pr :- parse(ls[0]);
      var rest :- RowsOf(ls[1..], parse);
      Success([pr] + rest)
  }

  /** The rows parse exactly when every line parses as a row, and row `j`
      is what line `j` parses to. */
  lemma {:induction false} RowsOfSpec(ls: seq<string>, parse: string -> Result<(int, Row), Error>)
    ensures RowsOf(ls, parse).Success? <==> forall j :: 0 <= j < |ls| ==> parse(ls[j]).Success?
    ensures RowsOf(ls, parse).Success? ==> forall j :: 0 <= j < |ls| ==> parse(ls[j]) == Success(RowsOf(ls, parse).value[j])
    decreases |ls|
  {
    if ls != [] {
      var tail := ls[1..];
      RowsOfSpec(tail, parse);
      assert forall j :: 0 <= j < |tail| ==> tail[j] == ls[j + 1];
      if parse(ls[0]).Success? && RowsOf(tail, parse).Failure? {
        var j :| 0 <= j < |tail| && parse(tail[j]).Failure?;
        assert parse(ls[j + 1]).Failure?;
      } else if parse(ls[0]).Success? {
        var v := RowsOf(ls, parse).value;
        assert v == [parse(ls[0]).value] + RowsOf(tail, parse).value;
        assert forall j :: 0 < j < |ls| ==> v[j] == RowsOf(tail, parse).value[j - 1];
      }
    }
  }

  /** The labels of parsed rows, in order. */
  function Labels(prs: seq<(int, Row)>): (ks: seq<int>)
    ensures |ks| == |prs| && forall j :: 0 <= j < |prs| ==> ks[j] == prs[j].0
  {
    seq(|prs|, j requires 0 <= j < |prs| => prs[j].0)
  }

  /** The cells of parsed rows as filled frame rows, in order. */
  function Filled(prs: seq<(int, Row)>): (vs: seq<Option<Row>>)
    ensures |vs| == |prs| && forall j :: 0 <= j < |prs| ==> vs[j] == Some(prs[j].1)
  {
    seq(|prs|, j requires 0 <= j < |prs| => Some(prs[j].1))
  }

  /** What reading the parsed rows `prs` into `rows` leaves: each label holds
      the cells of its last row, every other label is as it was, and no key
      other than the old ones and the labels appears. */
  ghost predicate RowsStored(rows: Dict<int, Option<Row>>, prs: seq<(int, Row)>, acc: Dict<int, Option<Row>>) {
    && Assigned(rows, Labels(prs), Filled(prs), acc)
    && KeysExtend(rows, acc)
    && (forall k :: k in Keys(acc) ==> k in Keys(rows) || k in Labels(prs))
  }

  lemma LabelsCons(pr: (int, Row), prs: seq<(int, Row)>)
    ensures Labels([pr] + prs) == [pr.0] + Labels(prs)
    ensures Filled([pr] + prs) == [Some(pr.1)] + Filled(prs)
  {
    assert Labels([pr] + prs) == [pr.0] + Labels(prs);
  }

  /** Storing a row first, then the rest. */
  lemma RowsStoredCons(rows: Dict<int, Option<Row>>, pr: (int, Row), prs: seq<(int, Row)>, acc: Dict<int, Option<Row>>)
    requires RowsStored(Put(rows, pr.0, Some(pr.1)), prs, acc)
    ensures RowsStored(rows, [pr] + prs, acc)
  {
    var mid := Put(rows, pr.0, Some(pr.1));
    LabelsCons(pr, prs);
    AssignedStep(rows, pr.0, Some(pr.1), Labels(prs), Filled(prs), acc);
    PutExtends(rows, pr.0, Some(pr.1));
    KeysExtendTrans(rows, mid, acc);
    PutKeysIn(rows, pr.0, Some(pr.1));
  }

  /** The frame rows after `df.loc[idx] = cells` for each parsed row of
      `prs`, in order. */
  function StoreRows(rows: Dict<int, Option<Row>>, prs: seq<(int, Row)>): (acc: Dict<int, Option<Row>>)
    ensures DistinctKeys(rows) ==> DistinctKeys(acc)
    decreases |prs|
  {
    if prs == [] then rows
    else StoreRows(Put(rows, prs[0].0, Some(prs[0].1)), prs[1..])
  }

  /** Storing rows sets each label to the cells of its last row and leaves
      every other label, and the order of the old labels, alone. */
  lemma {:induction false} StoredRows(rows: Dict<int, Option<Row>>, prs: seq<(int, Row)>)
    ensures RowsStored(rows, prs, StoreRows(rows, prs))
    decreases |prs|
  {
    if prs == [] {
      assert Labels([]) == [] && Filled([]) == [];
    } else {
      StoredRows(Put(rows, prs[0].0, Some(prs[0].1)), prs[1..]);
      RowsStoredCons(rows, prs[0], prs[1..], StoreRows(rows, prs));
      HeadTail(prs);
    }
  }


  /** `pd.RangeIndex(1, Ndef + 1)`: labels 1..Ndef, every row still empty. */
  function RangeIndex(ndef: int): (r: Dict<int, Option<Row>>)
    ensures |r| == (if ndef > 0 then ndef else 0)
    ensures forall i :: 0 <= i < |r| ==> r[i] == (i + 1, None)
    ensures DistinctKeys(r)
  {
    seq(if ndef > 0 then ndef else 0, i => (i + 1, None))
  }

  /** The row lines of `_read_def`: `count` lines read one after another
      and each parsed by `parse`, stopping at the first that fails.  Past
      the file's end `readline()` gives `""`, which `parse` rejects. */
  function ReadRowLines(lines: seq<string>, pos: nat, count: nat, parse: string -> Result<(int, Row), Error>)
    : (r: Result<seq<(int, Row)>, Error>)
    requires pos <= |lines| && parse("").Failure?
    ensures r.Success? ==> |r.value| == count && pos + count <= |lines|
    decreases count
  {
    if count == 0 then Success([])
    else
      var (line, next) := ReadLine(lines, pos);
      var pr :- parse(line);
      var rest :- ReadRowLines(lines, next, count - 1, parse);
      Success([pr] + rest)
  }

  /** The rows of `lines[pos..n]`: the row at `pos`, then the rest. */
  lemma RowsOfCons(lines: seq<string>, pos: nat, n: nat, parse: string -> Result<(int, Row), Error>)
    requires pos < n <= |lines|
    ensures RowsOf(lines[pos..n], parse) ==
            (var pr :- parse(lines[pos]); var rest :- RowsOf(lines[pos + 1..n], parse); Success([pr] + rest))
  {
    assert lines[pos..n][0] == lines[pos];
    assert lines[pos..n][1..] == lines[pos + 1..n];
  }

  /** Reading rows from a file that holds `count` more lines gives the rows
      of those lines; reading past the file's end fails. */
  lemma {:induction false} ReadRowLinesSpec(lines: seq<string>, pos: nat, count: nat, parse: string -> Result<(int, Row), Error>)
    requires pos <= |lines| && parse("").Failure?
    ensures pos + count <= |lines| ==> ReadRowLines(lines, pos, count, parse) == RowsOf(lines[pos..pos + count], parse)
    ensures pos + count > |lines| ==> ReadRowLines(lines, pos, count, parse).Failure?
    decreases count
  {
    if count == 0 {
      assert lines[pos..pos] == [];
    } else if pos < |lines| {
      ReadRowLinesSpec(lines, pos + 1, count - 1, parse);
      if pos + count <= |lines| {
        RowsOfCons(lines, pos, pos + count, parse);
      }
    }
  }

  /** `count` rows read into a frame's rows, each stored under its label
      (`df.loc[idx] = cells` sets the row, or appends it for a label outside
      the index).  A row that fails propagates its error and the frame is
      dropped, so parsing every row before storing any gives the same
      result.  Reading succeeds exactly when the file holds `count` more
      lines and each parses, and then the frame rows are those lines' rows
      stored in order (what that leaves is `StoredRows`). */
  function ReadRowsWith(lines: seq<string>, pos: nat, count: nat, rows: Dict<int, Option<Row>>,
                        parse: string -> Result<(int, Row), Error>): (r: Result<(Dict<int, Option<Row>>, nat), Error>)
    requires pos <= |lines| && parse("").Failure?
    ensures r.Success? <==> pos + count <= |lines| && RowsOf(lines[pos..pos + count], parse).Success?
    ensures r.Success? ==> r.value.1 == pos + count
    ensures r.Success? ==> r.value.0 == StoreRows(rows, RowsOf(lines[pos..pos + count], parse).value)
    ensures r.Success? ==> KeysExtend(rows, r.value.0)
    ensures r.Success? && DistinctKeys(rows) ==> DistinctKeys(r.value.0)
  {
    ReadRowLinesSpec(lines, pos, count, parse);
    var prs :- ReadRowLines(lines, pos, count, parse);
    StoredRows(rows, prs);
    Success((StoreRows(rows, prs), pos + count))
  }

  /** The row loop of `_read_def` for a header of `width` columns. */
  function ReadRows(lines: seq<string>, pos: nat, width: nat, count: nat, rows: Dict<int, Option<Row>>)
    : (r: Result<(Dict<int, Option<Row>>, nat), Error>)
    requires pos <= |lines| && width >= 2
    ensures r.Success? <==> pos + count <= |lines| && RowsOf(lines[pos..pos + count], RowParser(width)).Success?
    ensures r.Success? ==> r.value.1 == pos + count
    ensures r.Success? ==> r.value.0 == StoreRows(rows, RowsOf(lines[pos..pos + count], RowParser(width)).value)
    ensures r.Success? ==> KeysExtend(rows, r.value.0)
    ensures r.Success? && DistinctKeys(rows) ==> DistinctKeys(r.value.0)
  {
    EmptyRowFails(width);
    ReadRowsWith(lines, pos, count, rows, RowParser(width))
  }

  /** The frame `_read_def` builds for a table whose labels are 1..`ndef`
      in order: row `i` holds the cells of line `i`. */
  function Table(prs: seq<(int, Row)>): (t: Dict<int, Option<Row>>)
    ensures |t| == |prs| && forall i :: 0 <= i < |prs| ==> t[i] == (i + 1, Some(prs[i].1))
  {
    seq(|prs|, i requires 0 <= i < |prs| => (i + 1, Some(prs[i].1)))
  }

  /** Labels 1..`n`, in order. */
  predicate Numbered(prs: seq<(int, Row)>) {
    forall i :: 0 <= i < |prs| ==> prs[i].0 == i + 1
  }

  lemma NumberedKeys(prs: seq<(int, Row)>)
    requires Numbered(prs)
    ensures Keys(Table(prs)) == Keys(RangeIndex(|prs|)) == Labels(prs)
    ensures DistinctKeys(Table(prs))
  {
    assert Keys(Table(prs)) == Keys(RangeIndex(|prs|));
    assert Keys(Table(prs)) == Labels(prs);
  }

  /** A label of a numbered table is assigned once, by its own line. */
  lemma NumberedLast(prs: seq<(int, Row)>, i: nat)
    requires Numbered(prs) && i < |prs|
    ensures Labels(prs)[i] !in Labels(prs)[i + 1..]
  {
    var ls := Labels(prs);
    var later := ls[i + 1..];
    forall j | 0 <= j < |later|
      ensures later[j] != ls[i]
    {
      assert later[j] == ls[i + 1 + j];
    }
  }

  /** A season whose row lines carry the labels 1..`Ndef` in order reads
      back as exactly the file's table: one row per line, in file order,
      each with that line's cells. */
  lemma SeasonTable(prs: seq<(int, Row)>)
    requires Numbered(prs)
    ensures StoreRows(RangeIndex(|prs|), prs) == Table(prs)
  {
    var t, idx := Table(prs), RangeIndex(|prs|);
    var acc := StoreRows(idx, prs);
    StoredRows(idx, prs);
    NumberedKeys(prs);
    KeysWithin(idx, acc);
    forall k
      ensures Get(acc, k) == Get(t, k)
    {
      TableGet(prs, acc, k);
    }
    DictExt(t, acc);
  }

  /** A label looked up in a numbered season's rows. */
  lemma TableGet(prs: seq<(int, Row)>, acc: Dict<int, Option<Row>>, k: int)
    requires Numbered(prs) && Assigned(RangeIndex(|prs|), Labels(prs), Filled(prs), acc)
    ensures Get(acc, k) == Get(Table(prs), k)
  {
    NumberedKeys(prs);
    if k in Labels(prs) {
      var i :| 0 <= i < |prs| && Labels(prs)[i] == k;
      NumberedLast(prs, i);
      GetAt(Table(prs), i);
    }
  }

  /** A season's frame as the header makes it: the header's columns after
      `index`, and the rows labelled 1..`ndef` first. */
  predicate FrameOf(f: Frame, hdr: Header)
    requires |hdr.names| >= 1
  {
    f.columns == hdr.names[1..] && KeysExtend(RangeIndex(hdr.ndef), f.rows)
  }

  /** Every frame of a season map is shaped by the header. */
  predicate Shaped(seasons: Seasons, hdr: Header)
    requires |hdr.names| >= 1
    decreases |seasons|
  {
    seasons == [] || (FrameOf(seasons[0].1, hdr) && Shaped(seasons[1..], hdr))
  }

  /** The lines `count` seasons of `ndef` rows take: a name line and the
      rows each (a negative count reads nothing). */
  function SeasonLines(count: int, ndef: int): (n: nat)
    decreases if count > 0 then count else 0
  {
    if count <= 0 then 0 else 1 + (if ndef > 0 then ndef else 0) + SeasonLines(count - 1, ndef)
  }

  /** `Nseason` seasons take `Nseason * (1 + Ndef)` lines. */
  lemma {:induction false} SeasonLinesProduct(count: int, ndef: int)
    ensures count > 0 ==> SeasonLines(count, ndef) == count * (1 + (if ndef > 0 then ndef else 0))
    ensures count <= 0 ==> SeasonLines(count, ndef) == 0
    decreases if count > 0 then count else 0
  {
    if count > 0 {
      SeasonLinesProduct(count - 1, ndef);
    }
  }

  lemma MinStep(lim: int, pos: int, a: nat, b: nat)
    requires pos <= lim
    ensures Min(lim, Min(lim, pos + a) + b) == Min(lim, pos + a + b)
  {
  }

  lemma {:induction false} PutShaped(seasons: Seasons, name: string, frame: Frame, hdr: Header)
    requires |hdr.names| >= 1 && Shaped(seasons, hdr) && FrameOf(frame, hdr)
    ensures Shaped(Put(seasons, name, frame), hdr)
    decreases |seasons|
  {
    if seasons != [] && seasons[0].0 != name {
      PutShaped(seasons[1..], name, frame, hdr);
      assert Put(seasons, name, frame)[1..] == Put(seasons[1..], name, frame);
    } else if seasons != [] {
      assert Put(seasons, name, frame)[1..] == seasons[1..];
    }
  }

  /** After season `i` the reader has moved past its name line and rows. */
  lemma SeasonStep(lim: int, pos: int, i: nat, ndef: int, p: int, after: int)
    requires pos <= lim && p == Min(lim, pos + SeasonLines(i, ndef))
    requires after == Min(lim, p + 1 + (if ndef > 0 then ndef else 0))
    ensures after == Min(lim, pos + SeasonLines(i + 1, ndef))
  {
    var d := if ndef > 0 then ndef else 0;
    assert SeasonLines(i + 1, ndef) == SeasonLines(i, ndef) + 1 + d;
    MinStep(lim, pos, SeasonLines(i, ndef), 1 + d);
  }

  /** One season: its stripped name line, then `Ndef` rows (none for a
      negative count) into a frame indexed 1..`Ndef`. */
  method ReadSeason(lines: seq<string>, pos: nat, hdr: Header) returns (r: Result<(string, Frame, nat), Error>)
    requires pos <= |lines| && |hdr.names| >= 2
    ensures r.Success? ==> r.value.2 == Min(|lines|, pos + 1 + (if hdr.ndef > 0 then hdr.ndef else 0))
    ensures r.Success? ==> FrameOf(r.value.1, hdr)
  {
    var ndef: nat := if hdr.ndef > 0 then hdr.ndef else 0;
    var (name, next) := ReadLine(lines, pos);
    var filled := ReadRows(lines, next, |hdr.names|, ndef, RangeIndex(hdr.ndef));
    if filled.Failure? {
      return Failure(filled.error);
    }
    assert ndef > 0 ==> next == pos + 1;
    return Success((Strip(name), Frame(hdr.names[1..], filled.value.0), filled.value.1));
  }

  /** The season loop of `_read_def`: `Nseason` seasons (none for a negative
      count), each stored under its name. */
  method ReadSeasons(lines: seq<string>, pos: nat, hdr: Header) returns (r: Result<(Seasons, nat), Error>)
    requires pos <= |lines| && |hdr.names| >= 2
    ensures r.Success? ==> r.value.1 == Min(|lines|, pos + SeasonLines(hdr.nseason, hdr.ndef))
    ensures r.Success? ==> Shaped(r.value.0, hdr)
  {
    var count: nat := if hdr.nseason > 0 then hdr.nseason else 0;
    var seasons: Seasons := [];
    var p := pos;
    var i := 0;
    while i < count
      invariant 0 <= i <= count && pos <= p <= |lines|
      invariant p == Min(|lines|, pos + SeasonLines(i, hdr.ndef))
      invariant Shaped(seasons, hdr)
    {
      var one := ReadSeason(lines, p, hdr);
      if one.Failure? {
        return Failure(one.error);
      }
      var (name, frame, after) := one.value;
      PutShaped(seasons, name, frame, hdr);
      seasons := Put(seasons, name, frame);
      SeasonStep(|lines|, pos, i, hdr.ndef, p, after);
      p := after;
      i := i + 1;
    }
    return Success((seasons, p));
  }

  /** The header line at `pos`, parsed; kept apart so that the readers
      below see only the shape of a parsed header. */
  method HeaderAt(lines: seq<string>, pos: nat) returns (r: Result<Header, Error>)
    requires pos <= |lines|
    ensures r.Success? ==> |r.value.names| >= 2 && r.value.names[0] == "index"
                           && r.value.names[|r.value.names| - 1] == "description"
  {
    r := ParseHeader(ReadLine(lines, pos).0);
  }

  /** `_read_def`: the header line, then its seasons. */
  method ReadDef(lines: seq<string>, pos: nat) returns (r: Result<(Header, Seasons, nat), Error>)
    requires pos <= |lines|
    ensures r.Success? ==> |r.value.0.names| >= 2 && pos <= r.value.2 <= |lines|
    ensures r.Success? ==> r.value.0.names[0] == "index" && r.value.0.names[|r.value.0.names| - 1] == "description"
    ensures r.Success? ==> r.value.2 == Min(|lines|, pos + 1 + SeasonLines(r.value.0.nseason, r.value.0.ndef))
    ensures r.Success? ==> Shaped(r.value.1, r.value.0)
  {
    var next := Min(|lines|, pos + 1);
    var parsed := HeaderAt(lines, pos);
    if parsed.Failure? {
      return Failure(parsed.error);
    }
    var hdr := parsed.value;
    var seasons := ReadSeasons(lines, next, hdr);
    if seasons.Failure? {
      return Failure(seasons.error);
    }
    MinStep(|lines|, pos, 1, SeasonLines(hdr.nseason, hdr.ndef));
    return Success((hdr, seasons.value.0, seasons.value.1));
  }

  /** A table name: a non-empty line with its surrounding whitespace gone. */
  predicate TableName(name: string) {
    name != [] && Strip(name) == name
  }

  lemma StrippedName(line: string)
    requires Strip(line) != []
    ensures TableName(Strip(line))
  {
  }

  /** `LandUseTable(fpath)` over the lines of the file: tables are read one
      after another until a name line strips to nothing (or the file ends),
      each stored under its name. */
  method Load(lines: seq<string>) returns (r: Result<Dict<string, Seasons>, Error>)
    ensures lines == [] || Strip(lines[0]) == [] ==> r == Success([])
    ensures r.Success? ==> forall name :: name in Keys(r.value) ==> TableName(name)
  {
    var tables: Dict<string, Seasons> := [];
    var p := 0;
    var name := Strip(ReadLine(lines, p).0);
    while name != []
      invariant p <= |lines|
      invariant name == Strip(ReadLine(lines, p).0)
      invariant forall n :: n in Keys(tables) ==> TableName(n)
      invariant p == 0 || tables != []
      invariant tables != [] ==> Strip(ReadLine(lines, 0).0) != []
      decreases |lines| - p
    {
      var def := ReadDef(lines, p + 1);
      if def.Failure? {
        return Failure(def.error);
      }
      StrippedName(ReadLine(lines, p).0);
      PutKeysIn(tables, name, def.value.1);
      tables := Put(tables, name, def.value.1);
      p := def.value.2;
      name := Strip(ReadLine(lines, p).0);
    }
    return Success(tables);
  }
}

=== FILE: little_r.dfy ===
/** The LITTLE_R report header (measurements/little_r.py): a Fortran-style
    layout string is turned into one field decoder per edit descriptor and a
    Python format string, and a header line is read back by splitting it on
    whitespace and decoding the tokens pairwise.

    In the source the decoder list is a local variable of the constructor,
    so the header reader cannot see it (`ReadHeaderAsWritten`); here the
    decoders are part of the `Report` state, as evidently intended. */
module LittleR {
  import opened Wrappers
  import opened PyText
  import opened PyNum

  /** The default header layout: one edit descriptor per header field, some
      separated by commas. */
  const HeaderRecordStr: string := "F20.5        F20.5        A40        A40        A40        A40        F20.5        I10        I10        I10        I10        I10        L        L        L        I10        I10        A20        F13.5, I7        F13.5, I7        F13.5, I7        F13.5, I7        F13.5, I7        F13.5, I7        F13.5, I7        F13.5, I7        F13.5, I7        F13.5, I7        F13.5, I7        F13.5, I7        F13.5, I7        F13.5, I7"

  /** The Python type a header field is converted with. */
  datatype Decoder = StrDecoder | BoolDecoder | IntDecoder | FloatDecoder

  /** A converted header field.  A float is kept as the lexeme `float()` accepted. */
  datatype Field = StrField(s: string) | BoolField(b: bool) | IntField(i: int) | FloatField(lexeme: string)

  /** The state of a `Report`: its decoders and its header format string. */
  datatype Report = Report(decoders: seq<Decoder>, headerFmt: string)

  datatype Error =
    | NameError                                      // `header_dtypes` is not defined
    | FieldCountMismatch(expected: nat, found: nat)  // the token-count assertion
    | ValueError(token: string)                      // `int()` or `float()` rejects a token

  // ---------------------------------------------------------------------
  // Layout (measurements/little_r.py:14-36)
  // ---------------------------------------------------------------------

  /** The edit descriptors of a layout: commas count as spaces. */
  function Records(layout: string): (rs: seq<string>)
    ensures Words(rs)
  {
    SplitWs(ReplaceChar(layout, ',', ' '))
  }

  /** The decoder a descriptor selects by its first letter, in either case:
      `A` a string, `L` a logical, `I` an integer, anything else a float. */
  function DecoderOf(rec: string): (d: Decoder)
    requires rec != []
    ensures d == StrDecoder <==> rec[0] == 'a' || rec[0] == 'A'
    ensures d == BoolDecoder <==> rec[0] == 'l' || rec[0] == 'L'
    ensures d == IntDecoder <==> rec[0] == 'i' || rec[0] == 'I'
  {
    var t := LowerChar(rec[0]);
    if t == 'a' then StrDecoder
    else if t == 'l' then BoolDecoder
    else if t == 'i' then IntDecoder
    else FloatDecoder
  }

  /** The format conversion letter of a descriptor: `s` for a string or a
      logical, `d` for an integer, and for a float the descriptor's own
      lowered letter. */
  function Conversion(rec: string): (c: char)
    requires rec != []
    ensures DecoderOf(rec) == StrDecoder || DecoderOf(rec) == BoolDecoder ==> c == 's'
    ensures DecoderOf(rec) == IntDecoder ==> c == 'd'
    ensures DecoderOf(rec) == FloatDecoder ==> c == LowerChar(rec[0]) && c != 'a' && c != 'l' && c != 'i'
  {
    var t := LowerChar(rec[0]);
    if t == 'a' || t == 'l' then 's' else if t == 'i' then 'd' else t
  }

  /** The format piece `'{:' + rec[1:] + conversion + '}'` of a descriptor:
      the descriptor's width and precision, kept verbatim between `{:` and
      the conversion letter. */
  function Piece(rec: string): (p: string)
    requires rec != []
    ensures |p| == |rec| + 3
    ensures p[..2] == "{:" && p[2..|p| - 2] == rec[1..] && p[|p| - 2] == Conversion(rec) && p[|p| - 1] == '}'
  {
    "{:" + rec[1..] + [Conversion(rec)] + "}"
  }

  /** The decoders of a list of descriptors, in order. */
  function DecodersOf(rs: seq<string>): (ds: seq<Decoder>)
    requires Words(rs)
    ensures |ds| == |rs|
    ensures forall i :: 0 <= i < |rs| ==> ds[i] == DecoderOf(rs[i])
  {
    seq(|rs|, i requires 0 <= i < |rs| => DecoderOf(rs[i]))
  }

  /** Descriptors free of braces, so that each piece is one replacement field. */
  predicate NoBraces(rs: seq<string>) {
    forall i :: 0 <= i < |rs| ==> '{' !in rs[i] && '}' !in rs[i]
  }

  /** The concatenated format pieces of a list of descriptors: three
      characters more per descriptor, and one replacement field (one `{` and
      one `}`) per descriptor. */
  function FormatOf(rs: seq<string>): (f: string)
    requires Words(rs)
    ensures |f| == |Concat(rs)| + 3 * |rs|
    ensures NoBraces(rs) ==> Count(f, '{') == |rs| && Count(f, '}') == |rs|
    decreases |rs|
  {
    if rs == [] then []
    else
      var rest := FormatOf(rs[1..]);
      if NoBraces(rs) then BracesStep(rs); Piece(rs[0]) + rest
      else Piece(rs[0]) + rest
  }

  lemma BracesStep(rs: seq<string>)
    requires Words(rs) && rs != [] && NoBraces(rs)
    ensures NoBraces(rs[1..])
    ensures Count(Piece(rs[0]), '{') == 1 && Count(Piece(rs[0]), '}') == 1
  {
    forall i | 0 <= i < |rs[1..]| ensures '{' !in rs[1..][i] && '}' !in rs[1..][i] {
      assert rs[1..][i] == rs[i + 1];
    }
    PieceBraces(rs[0]);
  }

  /** A piece of a brace-free descriptor holds one `{` and one `}`. */
  lemma PieceBraces(rec: string)
    requires rec != [] && '{' !in rec && '}' !in rec
    ensures Count(Piece(rec), '{') == 1 && Count(Piece(rec), '}') == 1
  {
    var t := rec[1..];
    assert forall k :: 0 <= k < |t| ==> t[k] == rec[k + 1];
    assert '{' !in t && '}' !in t;
    var c := Conversion(rec);
    assert Piece(rec) == "{" + ":" + t + [c] + "}";
  }

  /** `Report(fname=None)`: one decoder and one format piece per descriptor,
      so that (braces aside) the header format holds exactly one replacement
      field per decoder. */
  function NewReport(layout: string): (r: Report)
    ensures |r.decoders| == |Records(layout)|
    ensures forall i :: 0 <= i < |r.decoders| ==> r.decoders[i] == DecoderOf(Records(layout)[i])
    ensures NoBraces(Records(layout)) ==> Count(r.headerFmt, '{') == |r.decoders| && Count(r.headerFmt, '}') == |r.decoders|
    ensures |r.headerFmt| == |Concat(Records(layout))| + 3 * |r.decoders|
  {
    var rs := Records(layout);
    Report(DecodersOf(rs), FormatOf(rs))
  }

  /** The descriptors of the default layout rewritten to format pieces. */
  lemma PieceExamples()
    ensures Piece("F20.5") == "{:20.5f}" && DecoderOf("F20.5") == FloatDecoder
    ensures Piece("A40") == "{:40s}" && DecoderOf("A40") == StrDecoder
    ensures Piece("I10") == "{:10d}" && DecoderOf("I10") == IntDecoder
    ensures Piece("L") == "{:s}" && DecoderOf("L") == BoolDecoder
    ensures Piece("F13.5") == "{:13.5f}"
  {
  }

  /** A comma in the layout separates descriptors exactly as a space does. */
  lemma CommaIsSeparator(a: string, b: string)
    ensures NewReport(a + "," + b) == NewReport(a + " " + b)
  {
    assert ReplaceChar(a + "," + b, ',', ' ') == ReplaceChar(a + " " + b, ',', ' ');
  }

  /** Descriptors written out with single spaces come back one decoder and
      one format piece each, in their order. */
  lemma LayoutOfDescriptors(rs: seq<string>)
    requires Words(rs)
    requires forall i :: 0 <= i < |rs| ==> ',' !in rs[i]
    ensures NewReport(Join(rs, " ")) == Report(DecodersOf(rs), FormatOf(rs))
  {
    RecordsOfJoin(rs);
    ReportOfRecords(Join(rs, " "), rs);
  }

  lemma RecordsOfJoin(rs: seq<string>)
    requires Words(rs)
    requires forall i :: 0 <= i < |rs| ==> ',' !in rs[i]
    ensures Records(Join(rs, " ")) == rs
  {
    var layout := Join(rs, " ");
    JoinAvoids(rs, " ", ',');
    assert ReplaceChar(layout, ',', ' ') == layout;
    SplitJoinWords(rs);
  }

  lemma ReportOfRecords(layout: string, rs: seq<string>)
    requires Records(layout) == rs
    ensures NewReport(layout) == Report(DecodersOf(rs), FormatOf(rs))
  {
  }

  // ---------------------------------------------------------------------
  // Reading a header (measurements/little_r.py:41-56)
  // ---------------------------------------------------------------------

  /** One token converted by its decoder.  `bool()` of a string is true
      exactly when the string is non-empty. */
  function DecodeField(d: Decoder, tok: string): (r: Result<Field, Error>)
    ensures r.Failure? ==> r.error == ValueError(tok)
    ensures r.Success? && d == StrDecoder ==> r.value == StrField(tok)
    ensures d == BoolDecoder ==> r == Success(BoolField(tok != []))
    ensures d == IntDecoder ==> (r.Success? <==> IsIntLiteral(tok))
    ensures d == IntDecoder && r.Success? ==> r.value == IntField(IntValue(tok))
    ensures d == FloatDecoder ==> (r.Success? <==> IsFloatLiteral(tok))
    ensures d == FloatDecoder && r.Success? ==> r.value == FloatField(tok)
  {
    match d
    case StrDecoder => Success(StrField(tok))
    case BoolDecoder => Success(BoolField(tok != []))
    case IntDecoder => if IsIntLiteral(tok) then Success(IntField(IntValue(tok))) else Failure(ValueError(tok))
    case FloatDecoder => if IsFloatLiteral(tok) then Success(FloatField(tok)) else Failure(ValueError(tok))
  }

  /** Tokens converted pairwise, failing at the first rejected token. */
  function DecodeFields(ds: seq<Decoder>, toks: seq<string>): (r: Result<seq<Field>, Error>)
    requires |ds| == |toks|
    ensures r.Success? <==> forall i :: 0 <= i < |ds| ==> DecodeField(ds[i], toks[i]).Success?
    ensures r.Success? ==> |r.value| == |ds|
    ensures r.Success? ==> forall i :: 0 <= i < |ds| ==> DecodeField(ds[i], toks[i]) == Success(r.value[i])
    decreases |ds|
  {
    if ds == [] then Success([])
    else
      var f :- DecodeField(ds[0], toks[0]);
      var fs :- DecodeFields(ds[1..], toks[1..]);
      assert forall i :: 1 <= i < |ds| ==> ds[i] == ds[1..][i - 1] && toks[i] == toks[1..][i - 1];
      Success([f] + fs)
  }

  /** `_read_header` with the report's decoders: nothing at the end of the
      file, otherwise the line's tokens converted pairwise by the decoders,
      or the failure the source raises. */
  function ReadHeader(rep: Report, line: string): (r: Result<Option<seq<Field>>, Error>)
    ensures r == Success(None) <==> line == ""
    ensures r.Success? && r.value.Some? ==> |r.value.value| == |rep.decoders|
    ensures line != "" && |SplitWs(line)| != |rep.decoders| ==>
              r == Failure(FieldCountMismatch(|rep.decoders|, |SplitWs(line)|))
    ensures line != "" && |SplitWs(line)| == |rep.decoders| ==>
              (r.Success? <==> DecodeFields(rep.decoders, SplitWs(line)).Success?) &&
              (r.Success? ==> r.value == Some(DecodeFields(rep.decoders, SplitWs(line)).value))
  {
    if line == "" then Success(None)
    else
      var toks := SplitWs(line);
      if |toks| != |rep.decoders| then Failure(FieldCountMismatch(|rep.decoders|, |toks|))
      else
        var fs :- DecodeFields(rep.decoders, toks);
        Success(Some(fs))
  }

  /** `_read_header` as written: the decoder list it reads is not in scope, so
      every line but the end-of-file marker raises NameError. */
  function ReadHeaderAsWritten(rep: Report, line: string): (r: Result<Option<seq<Field>>, Error>)
    ensures r.Success? <==> line == ""
    ensures r.Success? ==> r.value.None?
  {
    if line == "" then Success(None) else Failure(NameError)
  }

  /** Every logical field of a header is true, `F` included: the tokens of a
      split line are never empty. */
  lemma LogicalAlwaysTrue(rep: Report, line: string, i: nat)
    requires ReadHeader(rep, line).Success? && ReadHeader(rep, line).value.Some?
    requires i < |rep.decoders| && rep.decoders[i] == BoolDecoder
    ensures ReadHeader(rep, line).value.value[i] == BoolField(true)
  {
    var toks := SplitWs(line);
    assert toks[i] != [];
  }

  /** A layout of one descriptor gives one decoder. */
  lemma ReportOfOne(w: string)
    requires w != [] && NoSpace(w) && ',' !in w
    ensures NewReport(w).decoders == [DecoderOf(w)]
  {
    assert ReplaceChar(w, ',', ' ') == w;
    assert Join([w], " ") == w;
    SplitJoinWords([w]);
  }

  /** A line of one token and its newline splits to that token. */
  lemma TokensOfOne(w: string)
    requires w != [] && NoSpace(w)
    ensures SplitWs(w + "\n") == [w]
  {
    SplitWsWord(w, "\n");
    SplitWsLeadSpace("\n");
    assert "\n"[1..] == "";
  }

  /** A header line holding one logical field, read with a one-descriptor
      logical layout: the source as written fails with NameError, the reader
      with the report's own decoders gives the field, true even for `F`. */
  lemma HeaderNameError(layout: string, tok: string)
    requires layout != [] && NoSpace(layout) && ',' !in layout && LowerChar(layout[0]) == 'l'
    requires tok != [] && NoSpace(tok)
    ensures ReadHeaderAsWritten(NewReport(layout), tok + "\n") == Failure(NameError)
    ensures ReadHeader(NewReport(layout), tok + "\n") == Success(Some([BoolField(true)]))
  {
    ReportOfOne(layout);
    TokensOfOne(tok);
    var r := DecodeFields([BoolDecoder], [tok]);
    assert DecodeField(BoolDecoder, tok) == Success(BoolField(true));
    assert r.Success?;
    assert r.value[0] == BoolField(true);
    assert r.value == [BoolField(true)];
  }

  /** `read`: the first line is read as a header and nothing more; the loop
      over further headers and data is commented out in the source.  A file
      is its lines as `readline` returns them, so none is empty. */
  function Read(rep: Report, lines: seq<string>): (r: Result<Option<seq<Field>>, Error>)
    requires forall i :: 0 <= i < |lines| ==> lines[i] != ""
    ensures r == Success(None) <==> lines == []
  {
    ReadHeader(rep, if lines == [] then "" else lines[0])
  }

  /** Lines after the first never affect `read`. */
  lemma ReadOneHeader(rep: Report, lines: seq<string>, more: seq<string>)
    requires lines != []
    requires forall i :: 0 <= i < |lines| ==> lines[i] != ""
    requires forall i :: 0 <= i < |more| ==> more[i] != ""
    ensures Read(rep, lines + more) == Read(rep, lines[..1])
  {
    assert (lines + more)[0] == lines[0];
  }

  /** `Report(fname)`: the report built from the layout, reading the file's
      first header and discarding it; only its failure is visible. */
  function NewReportFrom(layout: string, file: Option<seq<string>>): (r: Result<Report, Error>)
    requires file.Some? ==> forall i :: 0 <= i < |file.value| ==> file.value[i] != ""
    ensures r.Success? ==> r.value == NewReport(layout)
    ensures file.None? ==> r.Success?
    ensures file.Some? ==> (r.Success? <==> Read(NewReport(layout), file.value).Success?)
  {
    var rep := NewReport(layout);
    if file.None? then Success(rep)
    else
      var _ :- Read(rep, file.value);
      Success(rep)
  }
}

=== FILE: ordered_dict.dfy ===
/** Python `dict` with its insertion order: a sequence of key/value pairs.
    Assigning to a present key replaces its value in place; assigning to a
    new key appends it, so `keys()` lists keys in first-insertion order. */
module OrderedDict {
  import opened Wrappers

  type Dict<K, V> = seq<(K, V)>

  /** `d.keys()`, in insertion order. */
  function Keys<K, V>(d: Dict<K, V>): (ks: seq<K>)
    ensures |ks| == |d|
    ensures forall i :: 0 <= i < |d| ==> ks[i] == d[i].0
    decreases |d|
  {
    if d == [] then [] else [d[0].0] + Keys(d[1..])
  }

  predicate DistinctKeys<K(==), V>(d: Dict<K, V>) {
    forall i, j :: 0 <= i < j < |d| ==> d[i].0 != d[j].0
  }

  /** `d[k]`, or `None` where Python raises `KeyError`. */
  function Get<K(==), V>(d: Dict<K, V>, k: K): (r: Option<V>)
    ensures r.None? <==> k !in Keys(d)
    ensures r.Some? ==> exists i :: 0 <= i < |d| && d[i] == (k, r.value)
    decreases |d|
  {
    if d == [] then None
    else if d[0].0 == k then Some(d[0].1)
    else
      var r := Get(d[1..], k);
      assert Keys(d) == [d[0].0] + Keys(d[1..]);
      assert r.Some? ==> exists i :: 0 <= i < |d| && d[i] == (k, r.value) by {
        if r.Some? {
          var i :| 0 <= i < |d[1..]| && d[1..][i] == (k, r.value);
          assert d[i + 1] == (k, r.value);
        }
      }
      r
  }

  lemma DistinctTail<K, V>(d: Dict<K, V>)
    requires d != [] && DistinctKeys(d)
    ensures DistinctKeys(d[1..])
    ensures d[0].0 !in Keys(d[1..])
  {
    forall i, j | 0 <= i < j < |d[1..]| ensures d[1..][i].0 != d[1..][j].0 {
      assert d[1..][i] == d[i + 1] && d[1..][j] == d[j + 1];
    }
    forall i | 0 <= i < |d[1..]| ensures Keys(d[1..])[i] != d[0].0 {
      assert d[1..][i] == d[i + 1];
    }
  }

  lemma DistinctCons<K, V>(e: (K, V), rest: Dict<K, V>)
    requires DistinctKeys(rest) && e.0 !in Keys(rest)
    ensures DistinctKeys([e] + rest)
  {
    var r := [e] + rest;
    forall i, j | 0 <= i < j < |r| ensures r[i].0 != r[j].0 {
      assert r[j] == rest[j - 1];
      if i == 0 {
        assert Keys(rest)[j - 1] == rest[j - 1].0;
      } else {
        assert r[i] == rest[i - 1];
      }
    }
  }

  lemma KeysCons<K, V>(d: Dict<K, V>, r: Dict<K, V>, rest: Dict<K, V>)
    requires d != [] && r == [d[0]] + rest
    ensures Keys(d) == [d[0].0] + Keys(d[1..])
    ensures Keys(r) == [d[0].0] + Keys(rest)
  {
    assert r[1..] == rest;
  }

  lemma PutConsKeys<K, V>(d: Dict<K, V>, k: K, rest: Dict<K, V>, r: Dict<K, V>)
    requires d != [] && d[0].0 != k && r == [d[0]] + rest
    requires Keys(rest) == if k in Keys(d[1..]) then Keys(d[1..]) else Keys(d[1..]) + [k]
    ensures Keys(r) == if k in Keys(d) then Keys(d) else Keys(d) + [k]
  {
    KeysCons(d, r, rest);
    assert k in Keys(d) <==> k in Keys(d[1..]);
  }

  lemma PutConsGet<K, V>(d: Dict<K, V>, k: K, rest: Dict<K, V>, r: Dict<K, V>)
    requires d != [] && d[0].0 != k && r == [d[0]] + rest
    requires forall k' :: k' != k ==> Get(rest, k') == Get(d[1..], k')
    ensures Get(r, k) == Get(rest, k)
    ensures forall k' :: k' != k ==> Get(r, k') == Get(d, k')
  {
    assert r[1..] == rest;
  }

  lemma PutConsDistinct<K, V>(d: Dict<K, V>, k: K, rest: Dict<K, V>, r: Dict<K, V>)
    requires d != [] && d[0].0 != k && r == [d[0]] + rest
    requires Keys(rest) == if k in Keys(d[1..]) then Keys(d[1..]) else Keys(d[1..]) + [k]
    requires DistinctKeys(d[1..]) ==> DistinctKeys(rest)
    ensures DistinctKeys(d) ==> DistinctKeys(r)
  {
    if DistinctKeys(d) {
      DistinctTail(d);
      assert d[0].0 !in Keys(rest);
      DistinctCons(d[0], rest);
    }
  }

  /** `e` keeps the keys of `d`, in order, as its first entries. */
  predicate KeysExtend<K(==), V>(d: Dict<K, V>, e: Dict<K, V>) {
    |e| >= |d| && forall i :: 0 <= i < |d| ==> e[i].0 == d[i].0
  }

  /** Assignment never moves or drops a key. */
  lemma PutExtends<K(!new), V>(d: Dict<K, V>, k: K, v: V)
    ensures KeysExtend(d, Put(d, k, v))
  {
    var r := Put(d, k, v);
    assert |Keys(r)| >= |Keys(d)|;
    forall i | 0 <= i < |d| ensures r[i].0 == d[i].0 {
      assert Keys(r)[i] == Keys(d)[i];
    }
  }

  /** After an assignment the keys are the old ones and the assigned one. */
  lemma KeysExtendTrans<K, V>(a: Dict<K, V>, b: Dict<K, V>, c: Dict<K, V>)
    requires KeysExtend(a, b) && KeysExtend(b, c)
    ensures KeysExtend(a, c)
  {
  }

  lemma PutKeysIn<K(!new), V>(d: Dict<K, V>, k: K, v: V)
    ensures forall x :: x in Keys(Put(d, k, v)) ==> x in Keys(d) || x == k
  {
  }

  /** `d[k] = v`: afterwards `k` maps to `v`, every other key keeps its value,
      and the key order changes only by appending a new key. */
  function Put<K(==,!new), V>(d: Dict<K, V>, k: K, v: V): (r: Dict<K, V>)
    ensures Get(r, k) == Some(v)
    ensures forall k' :: k' != k ==> Get(r, k') == Get(d, k')
    ensures Keys(r) == if k in Keys(d) then Keys(d) else Keys(d) + [k]
    ensures DistinctKeys(d) ==> DistinctKeys(r)
    decreases |d|
  {
    if d == [] then [(k, v)]
    else if d[0].0 == k then
      var r := [(k, v)] + d[1..];
      assert r[1..] == d[1..];
      assert Keys(r) == Keys(d);
      r
    else
      var rest := Put(d[1..], k, v);
      var r := [d[0]] + rest;
      PutConsGet(d, k, rest, r);
      PutConsKeys(d, k, rest, r);
      PutConsDistinct(d, k, rest, r);
      r
  }
  /** With distinct keys, looking up the key stored at a position finds the
      value stored there. */
  lemma GetAt<K, V>(d: Dict<K, V>, j: nat)
    requires DistinctKeys(d) && j < |d|
    ensures Get(d, d[j].0) == Some(d[j].1)
  {
    var i :| 0 <= i < |d| && d[i] == (d[j].0, Get(d, d[j].0).value);
  }

  /** A lookup in a concatenation searches the first part, then the second. */
  lemma {:induction false} GetAppend<K, V>(a: Dict<K, V>, b: Dict<K, V>, k: K)
    ensures Get(a + b, k) == if k in Keys(a) then Get(a, k) else Get(b, k)
    decreases |a|
  {
    if a == [] {
      assert a + b == b;
    } else {
      var ab := a + b;
      assert ab[0] == a[0] && ab[1..] == a[1..] + b;
      assert k in Keys(a) <==> a[0].0 == k || k in Keys(a[1..]) by {
        assert Keys(a) == [a[0].0] + Keys(a[1..]);
      }
      if a[0].0 != k {
        GetAppend(a[1..], b, k);
      }
    }
  }

  /** Two dictionaries with the same key order that agree on every lookup
      are the same sequence of pairs. */
  lemma DictExt<K, V>(a: Dict<K, V>, b: Dict<K, V>)
    requires Keys(a) == Keys(b) && DistinctKeys(a)
    requires forall k :: Get(a, k) == Get(b, k)
    ensures a == b
  {
    assert |a| == |Keys(a)| == |b|;
    assert DistinctKeys(b) by {
      forall i, j | 0 <= i < j < |b| ensures b[i].0 != b[j].0 {
        assert Keys(a)[i] == b[i].0 && Keys(a)[j] == b[j].0;
      }
    }
    forall j | 0 <= j < |a| ensures a[j] == b[j] {
      assert Keys(a)[j] == a[j].0 && Keys(b)[j] == b[j].0;
      GetAt(a, j);
      GetAt(b, j);
    }
  }

  /** What assigning `vs[i]` to `ks[i]`, in order, leaves in a dictionary: a
      key never assigned keeps its old value, and an assigned key holds the
      value of its last assignment. */
  ghost predicate Assigned<K(!new), V>(before: Dict<K, V>, ks: seq<K>, vs: seq<V>, after: Dict<K, V>)
    requires |ks| == |vs|
  {
    && (forall k :: k !in ks ==> Get(after, k) == Get(before, k))
    && (forall i :: 0 <= i < |ks| && ks[i] !in ks[i + 1..] ==> Get(after, ks[i]) == Some(vs[i]))
  }

  /** One assignment in front of a run of assignments. */
  lemma AssignedStep<K(!new), V>(before: Dict<K, V>, k: K, v: V, ks: seq<K>, vs: seq<V>, after: Dict<K, V>)
    requires |ks| == |vs| && Assigned(Put(before, k, v), ks, vs, after)
    ensures Assigned(before, [k] + ks, [v] + vs, after)
  {
    var all, vals := [k] + ks, [v] + vs;
    forall x | x !in all
      ensures Get(after, x) == Get(before, x)
    {
      assert x != all[0];
    }
    forall i | 0 <= i < |all| && all[i] !in all[i + 1..]
      ensures Get(after, all[i]) == Some(vals[i])
    {
      ConsAt(k, ks, i);
      ConsAt(v, vs, i);
    }
  }

  /** Position `i` of a sequence with `x` in front, and what follows it. */
  lemma ConsAt<T>(x: T, s: seq<T>, i: nat)
    requires i <= |s|
    ensures ([x] + s)[i + 1..] == s[i..]
    ensures i == 0 ==> ([x] + s)[i] == x
    ensures i > 0 ==> ([x] + s)[i] == s[i - 1]
  {
  }

  /** A dictionary whose keys extend those of `d` and come from `d` has
      exactly the keys of `d`. */
  lemma KeysWithin<K(!new), V>(d: Dict<K, V>, e: Dict<K, V>)
    requires KeysExtend(d, e) && DistinctKeys(e)
    requires forall k :: k in Keys(e) ==> k in Keys(d)
    ensures Keys(e) == Keys(d)
  {
    if |e| > |d| {
      assert e[|d|].0 in Keys(e) by {
        assert Keys(e)[|d|] == e[|d|].0;
      }
      assert false;
    }
    assert |Keys(e)| == |Keys(d)|;
    forall i | 0 <= i < |d| ensures Keys(e)[i] == Keys(d)[i] {
    }
  }
}

=== FILE: plot_grid.dfy ===
/** The subplot bookkeeping of the profile and time-history plots
    (plotting.py): how many rows and columns the grid has, which quantity is
    stacked on one axis, and which axis each (dataset, field, time/height)
    combination is drawn on.  Drawing itself is not modelled. */
module PlotGrid {
  import opened Wrappers

  /** The shape of a subplot grid. */
  datatype Grid = Grid(nrows: nat, ncols: nat)

  /** What several lines on one axis stand for. */
  datatype Stack = ByTimes | ByHeights | ByDatasets

  /** The assertion on an unrecognised `stack_by` value. */
  datatype Error = UnknownStack(stackBy: string)

  function Cells(g: Grid): nat {
    g.nrows * g.ncols
  }

  /** `_calc_nrows_ncols(N1, N2)` (plotting.py:874-901). */
  function CalcNrowsNcols(n1: nat, n2: nat): (g: Grid)
    ensures n1 == 1 || n2 == 1 ==> g.nrows <= 2
    ensures n1 != 1 && n2 != 1 && n1 <= 3 && n2 <= 4 ==> g == Grid(n2, n1)
  {
    if n1 == 1 || n2 == 1 then
      var m := if n1 >= n2 then n1 else n2;
      if m > 3 && m % 2 == 0 then Grid(2, m / 2) else Grid(1, m)
    else if n1 <= 3 && n2 <= 4 then Grid(n2, n1)
    else if n2 > 3 && n2 % 2 == 0 then Grid(2 * n1, n2 / 2)
    else Grid(n1, n2)
  }

  /** Halving an even count and doubling the other keeps the product. */
  lemma HalveDouble(a: nat, b: nat)
    requires b % 2 == 0
    ensures (2 * a) * (b / 2) == a * b
  {
    var h := b / 2;
    assert b == 2 * h;
    calc {
      (2 * a) * h;
    ==
      a * (2 * h);
    }
  }

  /** The grid has exactly one cell per pair, as both callers assert against
      the number of axes. */
  lemma GridHoldsAll(n1: nat, n2: nat)
    requires n1 >= 1 && n2 >= 1
    ensures Cells(CalcNrowsNcols(n1, n2)) == n1 * n2
  {
    var g := CalcNrowsNcols(n1, n2);
    if n1 == 1 || n2 == 1 {
      var m := if n1 >= n2 then n1 else n2;
      assert n1 * n2 == m;
      if m > 3 && m % 2 == 0 {
        HalveDouble(1, m);
      }
    } else if n1 <= 3 && n2 <= 4 {
      assert g.nrows * g.ncols == n2 * n1;
    } else if n2 > 3 && n2 % 2 == 0 {
      HalveDouble(n1, n2);
    }
  }

  /** A single row, or two when more than three plots split evenly. */
  lemma OneRowLayout(n1: nat, n2: nat)
    requires n1 == 1 || n2 == 1
    ensures var m := if n1 >= n2 then n1 else n2;
            var g := CalcNrowsNcols(n1, n2);
            (m <= 3 || m % 2 == 1 ==> g == Grid(1, m))
            && (m > 3 && m % 2 == 0 ==> g.nrows == 2 && 2 * g.ncols == m)
  {
  }

  /** No grid has more than three columns unless the wider count is odd or
      the small-grid rule applies. */
  lemma ColumnsSplit(n1: nat, n2: nat)
    requires n1 != 1 && n2 != 1 && !(n1 <= 3 && n2 <= 4)
    ensures var g := CalcNrowsNcols(n1, n2);
            (n2 > 3 && n2 % 2 == 0 ==> g.nrows == 2 * n1 && 2 * g.ncols == n2)
            && (n2 <= 3 || n2 % 2 == 1 ==> g == Grid(n1, n2))
  {
  }

  // ---------------------------------------------------------------------
  // Stacking (plotting.py:341-353, 561-573)
  // ---------------------------------------------------------------------

  /** `plot_profile`'s `stack_by`: by default times when there is more than
      one time, otherwise datasets. */
  function ProfileStack(stackBy: Option<string>, ntimes: nat): (r: Result<Stack, Error>)
    ensures r.Success? ==> r.value == ByTimes || r.value == ByDatasets
    ensures r.Failure? <==> stackBy.Some? && stackBy.value != "times" && stackBy.value != "datasets"
    ensures stackBy == None ==> r == Success(if ntimes > 1 then ByTimes else ByDatasets)
  {
    match stackBy
    case None => Success(if ntimes > 1 then ByTimes else ByDatasets)
    case Some(s) =>
      if s == "times" then Success(ByTimes)
      else if s == "datasets" then Success(ByDatasets)
      else Failure(UnknownStack(s))
  }

  /** `plot_timehistory_at_height`'s `stack_by`: by default heights when
      there is more than one height, otherwise datasets. */
  function TimeHistoryStack(stackBy: Option<string>, nheights: nat): (r: Result<Stack, Error>)
    ensures r.Success? ==> r.value == ByHeights || r.value == ByDatasets
    ensures r.Failure? <==> stackBy.Some? && stackBy.value != "heights" && stackBy.value != "datasets"
    ensures stackBy == None ==> r == Success(if nheights > 1 then ByHeights else ByDatasets)
  {
    match stackBy
    case None => Success(if nheights > 1 then ByHeights else ByDatasets)
    case Some(s) =>
      if s == "heights" then Success(ByHeights)
      else if s == "datasets" then Success(ByDatasets)
      else Failure(UnknownStack(s))
  }

  /** The profile grid: datasets by fields when stacking times, times by
      fields otherwise. */
  function ProfileGrid(stack: Stack, ndatasets: nat, nfields: nat, ntimes: nat): Grid {
    if stack == ByTimes then CalcNrowsNcols(ndatasets, nfields) else CalcNrowsNcols(ntimes, nfields)
  }

  /** The profile axis of dataset `i`, field `j` and time `k`. */
  function ProfileAxis(stack: Stack, ndatasets: nat, ntimes: nat, i: nat, j: nat, k: nat): nat {
    if stack == ByTimes then j * ndatasets + i else j * ntimes + k
  }

  /** The time-history grid is one column of `nrows` axes. */
  function TimeHistoryRows(stack: Stack, nfields: nat, ndatasets: nat, nheights: nat): nat {
    if stack == ByHeights then nfields * ndatasets else nfields * nheights
  }

  /** The time-history axis of dataset `i`, field `j` and height `k`. */
  function TimeHistoryAxis(stack: Stack, nfields: nat, i: nat, j: nat, k: nat): nat {
    if stack == ByHeights then i * nfields + j else k * nfields + j
  }

  // ---------------------------------------------------------------------
  // Mixed-radix indices
  // ---------------------------------------------------------------------

  lemma MulMono(a: nat, b: nat, n: nat)
    ensures a <= b ==> a * n <= b * n
  {
  }

  lemma MulStrict(a: nat, b: nat, n: nat)
    ensures a < b ==> a * n + n <= b * n
  {
    MulMono(a + 1, b, n);
    assert (a + 1) * n == a * n + n;
  }

  /** `hi * n + lo` with `lo < n` and `hi < m` lies below `m * n`. */
  lemma IndexBelow(hi: nat, lo: nat, n: nat, m: nat)
    requires lo < n && hi < m
    ensures hi * n + lo < m * n
  {
    MulStrict(hi, m, n);
  }

  /** `hi * n + lo` with `lo < n` determines `hi` and `lo`. */
  lemma IndexInjective(hi1: nat, lo1: nat, hi2: nat, lo2: nat, n: nat)
    requires lo1 < n && lo2 < n
    requires hi1 * n + lo1 == hi2 * n + lo2
    ensures hi1 == hi2 && lo1 == lo2
  {
    MulStrict(hi1, hi2, n);
    MulStrict(hi2, hi1, n);
  }

  /** The (dataset, field, time) that an axis of a profile plot shows: the
      inverse of `ProfileAxis`. */
  function ProfileCellOf(stack: Stack, ndatasets: nat, ntimes: nat, a: nat): (c: (nat, nat, nat))
    requires ndatasets > 0 && ntimes > 0
  {
    if stack == ByTimes then (a % ndatasets, a / ndatasets, 0) else (0, a / ntimes, a % ntimes)
  }

  /** The (dataset, field, height) that a row of a time history shows: the
      inverse of `TimeHistoryAxis`. */
  function TimeHistoryCellOf(stack: Stack, nfields: nat, a: nat): (c: (nat, nat, nat))
    requires nfields > 0
  {
    if stack == ByHeights then (a / nfields, a % nfields, 0) else (0, a % nfields, a / nfields)
  }

  /** Every index below `m * n` is `hi * n + lo` for some `hi < m`, `lo < n`. */
  lemma IndexCovers(a: nat, n: nat, m: nat)
    requires a < m * n
    ensures n > 0 && a / n < m && a % n < n && a == (a / n) * n + a % n
  {
    assert n > 0;
    MulMono(m, a / n, n);
  }

  /** Each (field, dataset) pair of a time-stacked profile plot, or each
      (field, time) pair of a dataset-stacked one, gets its own axis of the
      grid, and every axis of the grid is used by one pair. */
  lemma ProfileAxes(stack: Stack, ndatasets: nat, nfields: nat, ntimes: nat)
    requires stack == ByTimes || stack == ByDatasets
    requires ndatasets >= 1 && nfields >= 1 && ntimes >= 1
    ensures var g := ProfileGrid(stack, ndatasets, nfields, ntimes);
            forall i: nat, j: nat, k: nat :: i < ndatasets && j < nfields && k < ntimes ==>
              ProfileAxis(stack, ndatasets, ntimes, i, j, k) < Cells(g)
    ensures forall i1: nat, j1: nat, k1: nat, i2: nat, j2: nat, k2: nat ::
              i1 < ndatasets && i2 < ndatasets && k1 < ntimes && k2 < ntimes
              && ProfileAxis(stack, ndatasets, ntimes, i1, j1, k1) == ProfileAxis(stack, ndatasets, ntimes, i2, j2, k2)
              ==> j1 == j2 && (if stack == ByTimes then i1 == i2 else k1 == k2)
    ensures var g := ProfileGrid(stack, ndatasets, nfields, ntimes);
            forall a: nat :: a < Cells(g) ==>
              var c := ProfileCellOf(stack, ndatasets, ntimes, a);
              c.0 < ndatasets && c.1 < nfields && c.2 < ntimes && ProfileAxis(stack, ndatasets, ntimes, c.0, c.1, c.2) == a
  {
    var n := if stack == ByTimes then ndatasets else ntimes;
    GridHoldsAll(n, nfields);
    var g := ProfileGrid(stack, ndatasets, nfields, ntimes);
    assert Cells(g) == nfields * n;
    forall i: nat, j: nat, k: nat | i < ndatasets && j < nfields && k < ntimes
      ensures ProfileAxis(stack, ndatasets, ntimes, i, j, k) < Cells(g)
    {
      IndexBelow(j, if stack == ByTimes then i else k, n, nfields);
    }
    forall i1: nat, j1: nat, k1: nat, i2: nat, j2: nat, k2: nat |
      i1 < ndatasets && i2 < ndatasets && k1 < ntimes && k2 < ntimes
      && ProfileAxis(stack, ndatasets, ntimes, i1, j1, k1) == ProfileAxis(stack, ndatasets, ntimes, i2, j2, k2)
      ensures j1 == j2 && (if stack == ByTimes then i1 == i2 else k1 == k2)
    {
      if stack == ByTimes {
        IndexInjective(j1, i1, j2, i2, n);
      } else {
        IndexInjective(j1, k1, j2, k2, n);
      }
    }
    forall a: nat | a < Cells(g)
      ensures var c := ProfileCellOf(stack, ndatasets, ntimes, a);
              c.0 < ndatasets && c.1 < nfields && c.2 < ntimes && ProfileAxis(stack, ndatasets, ntimes, c.0, c.1, c.2) == a
    {
      IndexCovers(a, n, nfields);
    }
  }

  /** Each (dataset, field) pair of a height-stacked time history, or each
      (height, field) pair of a dataset-stacked one, gets its own row, and
      every row is used by one pair. */
  lemma TimeHistoryAxes(stack: Stack, ndatasets: nat, nfields: nat, nheights: nat)
    requires stack == ByHeights || stack == ByDatasets
    requires ndatasets >= 1 && nfields >= 1 && nheights >= 1
    ensures forall i: nat, j: nat, k: nat :: i < ndatasets && j < nfields && k < nheights ==>
              TimeHistoryAxis(stack, nfields, i, j, k) < TimeHistoryRows(stack, nfields, ndatasets, nheights)
    ensures forall i1: nat, j1: nat, k1: nat, i2: nat, j2: nat, k2: nat ::
              j1 < nfields && j2 < nfields
              && TimeHistoryAxis(stack, nfields, i1, j1, k1) == TimeHistoryAxis(stack, nfields, i2, j2, k2)
              ==> j1 == j2 && (if stack == ByHeights then i1 == i2 else k1 == k2)
    ensures forall a: nat :: a < TimeHistoryRows(stack, nfields, ndatasets, nheights) ==>
              var c := TimeHistoryCellOf(stack, nfields, a);
              c.0 < ndatasets && c.1 < nfields && c.2 < nheights && TimeHistoryAxis(stack, nfields, c.0, c.1, c.2) == a
  {
    var m := if stack == ByHeights then ndatasets else nheights;
    assert TimeHistoryRows(stack, nfields, ndatasets, nheights) == m * nfields;
    forall i: nat, j: nat, k: nat | i < ndatasets && j < nfields && k < nheights
      ensures TimeHistoryAxis(stack, nfields, i, j, k) < TimeHistoryRows(stack, nfields, ndatasets, nheights)
    {
      IndexBelow(if stack == ByHeights then i else k, j, nfields, m);
    }
    forall i1: nat, j1: nat, k1: nat, i2: nat, j2: nat, k2: nat |
      j1 < nfields && j2 < nfields
      && TimeHistoryAxis(stack, nfields, i1, j1, k1) == TimeHistoryAxis(stack, nfields, i2, j2, k2)
      ensures j1 == j2 && (if stack == ByHeights then i1 == i2 else k1 == k2)
    {
      if stack == ByHeights {
        IndexInjective(i1, j1, i2, j2, nfields);
      } else {
        IndexInjective(k1, j1, k2, j2, nfields);
      }
    }
    forall a: nat | a < TimeHistoryRows(stack, nfields, ndatasets, nheights)
      ensures var c := TimeHistoryCellOf(stack, nfields, a);
              c.0 < ndatasets && c.1 < nfields && c.2 < nheights && TimeHistoryAxis(stack, nfields, c.0, c.1, c.2) == a
    {
      IndexCovers(a, nfields, m);
    }
  }

  /** The y-label axes `r * ncols` of a profile plot, one per row, all lie in
      the grid. */
  lemma RowStartsInGrid(g: Grid, r: nat)
    requires r < g.nrows
    ensures r * g.ncols < Cells(g) || g.ncols == 0
  {
    if g.ncols > 0 {
      IndexBelow(r, 0, g.ncols, g.nrows);
    }
  }

  /** Whatever `stack_by` a profile plot accepts, default or given, every
      (dataset, field, time) it draws lands on an axis of the grid it makes,
      and every axis of that grid is drawn on. */
  lemma ProfileStackAxes(stackBy: Option<string>, ndatasets: nat, nfields: nat, ntimes: nat)
    requires ndatasets >= 1 && nfields >= 1 && ntimes >= 1
    ensures var r := ProfileStack(stackBy, ntimes);
            r.Success? ==>
              var g := ProfileGrid(r.value, ndatasets, nfields, ntimes);
              && (forall i: nat, j: nat, k: nat :: i < ndatasets && j < nfields && k < ntimes ==>
                    ProfileAxis(r.value, ndatasets, ntimes, i, j, k) < Cells(g))
              && (forall a: nat :: a < Cells(g) ==>
                    var c := ProfileCellOf(r.value, ndatasets, ntimes, a);
                    c.0 < ndatasets && c.1 < nfields && c.2 < ntimes
                    && ProfileAxis(r.value, ndatasets, ntimes, c.0, c.1, c.2) == a)
  {
    var r := ProfileStack(stackBy, ntimes);
    if r.Success? {
      ProfileAxes(r.value, ndatasets, nfields, ntimes);
    }
  }

  /** Whatever `stack_by` a time history accepts, default or given, every
      (dataset, field, height) it draws lands on a row of its column, and
      every row is drawn on. */
  lemma TimeHistoryStackAxes(stackBy: Option<string>, ndatasets: nat, nfields: nat, nheights: nat)
    requires ndatasets >= 1 && nfields >= 1 && nheights >= 1
    ensures var r := TimeHistoryStack(stackBy, nheights);
            r.Success? ==>
              var n := TimeHistoryRows(r.value, nfields, ndatasets, nheights);
              && (forall i: nat, j: nat, k: nat :: i < ndatasets && j < nfields && k < nheights ==>
                    TimeHistoryAxis(r.value, nfields, i, j, k) < n)
              && (forall a: nat :: a < n ==>
                    var c := TimeHistoryCellOf(r.value, nfields, a);
                    c.0 < ndatasets && c.1 < nfields && c.2 < nheights
                    && TimeHistoryAxis(r.value, nfields, c.0, c.1, c.2) == a)
  {
    var r := TimeHistoryStack(stackBy, nheights);
    if r.Success? {
      TimeHistoryAxes(r.value, ndatasets, nfields, nheights);
    }
  }
}

=== FILE: pynum.dfy ===
/** Which strings Python's `float()` and `int()` accept, and the decimal
    rendering used by the `'{:02d}'` format.  Floating-point values are never
    computed: a float is kept as the lexeme `float()` accepted. */
module PyNum {
  import opened PyText

  predicate IsDigit(c: char) {
    '0' <= c <= '9'
  }

  predicate HasDigit(s: string) {
    exists k :: 0 <= k < |s| && IsDigit(s[k])
  }

  /** Python's `digitpart`: decimal digits, optionally separated by single
      underscores, starting and ending with a digit. */
  predicate IsDigitPart(s: string) {
    && s != []
    && IsDigit(s[0])
    && IsDigit(s[|s| - 1])
    && forall k :: 0 <= k < |s| ==> IsDigit(s[k]) || (s[k] == '_' && k + 1 < |s| && IsDigit(s[k + 1]))
  }

  lemma DigitPartChars(s: string)
    requires IsDigitPart(s)
    ensures forall k :: 0 <= k < |s| ==> IsDigit(s[k]) || s[k] == '_'
  {
    forall k | 0 <= k < |s| ensures IsDigit(s[k]) || s[k] == '_' {
      assert IsDigit(s[k]) || (s[k] == '_' && k + 1 < |s| && IsDigit(s[k + 1]));
    }
  }

  /** The text after an optional leading `+` or `-`. */
  function DropSign(s: string): (r: string)
    ensures r == s || (s != [] && r == s[1..])
  {
    if s != [] && (s[0] == '+' || s[0] == '-') then s[1..] else s
  }

  /** `int(s)` succeeds for a string without surrounding whitespace:
      an optional sign and a digit part. */
  predicate IsIntLiteral(s: string) {
    IsDigitPart(DropSign(s))
  }

  function DigitValue(c: char): nat
    requires IsDigit(c)
  {
    c as int - '0' as int
  }

  /** The number a string of digits and underscores denotes, read left to right. */
  function DigitsValue(s: string): nat
    requires forall k :: 0 <= k < |s| ==> IsDigit(s[k]) || s[k] == '_'
    decreases |s|
  {
    if s == [] then 0
    else if s[|s| - 1] == '_' then DigitsValue(s[..|s| - 1])
    else 10 * DigitsValue(s[..|s| - 1]) + DigitValue(s[|s| - 1])
  }

  /** The integer `int(s)` returns for an accepted literal. */
  function IntValue(s: string): int
    requires IsIntLiteral(s)
  {
    var body := DropSign(s);
    DigitPartChars(body);
    if s[0] == '-' then 0 - DigitsValue(body) else DigitsValue(body)
  }

  /** Python's `number ::= [digitpart] "." digitpart | digitpart ["."]`. */
  predicate IsNumber(m: string) {
    var d := Find(m, ".", 0);
    if d < 0 then IsDigitPart(m)
    else
      var before := m[..d];
      var after := m[d + 1..];
      || (before == [] && IsDigitPart(after))
      || (IsDigitPart(before) && (after == [] || IsDigitPart(after)))
  }

  /** The text after `e`/`E`: an optional sign and a digit part. */
  predicate IsExponent(x: string) {
    IsDigitPart(DropSign(x))
  }

  /** `float(s)` succeeds for a string without surrounding whitespace:
      an optional sign followed by `inf`, `infinity` or `nan` in any case,
      or by a decimal number with an optional exponent. */
  predicate IsFloatLiteral(s: string) {
    var body := DropSign(s);
    var low := Lower(body);
    if low == "inf" || low == "infinity" || low == "nan" then true
    else
      var e := Find(low, "e", 0);
      if e < 0 then IsNumber(body)
      else IsNumber(body[..e]) && IsExponent(body[e + 1..])
  }

  /** A decimal number starts with a digit or with its point. */
  lemma NumberStart(m: string)
    ensures IsNumber(m) ==> m != [] && (IsDigit(m[0]) || m[0] == '.')
  {
    var d := Find(m, ".", 0);
    if d >= 0 {
      MatchAtOne(m, '.', d);
      if d > 0 {
        assert m[..d][0] == m[0];
      }
    }
  }

  /** A string whose first character is neither a sign, a digit, a point nor
      a letter is not accepted by `float()`. */
  lemma NotFloatByFirst(s: string)
    requires s != [] && s[0] != '+' && s[0] != '-' && s[0] != '.' && !IsDigit(s[0])
    requires !('a' <= LowerChar(s[0]) <= 'z')
    ensures !IsFloatLiteral(s)
  {
    var low := Lower(s);
    assert DropSign(s) == s;
    assert low[0] == LowerChar(s[0]);
    assert low != "inf" && low != "infinity" && low != "nan" by {
      assert "inf"[0] == 'i' && "infinity"[0] == 'i' && "nan"[0] == 'n';
    }
    var e := Find(low, "e", 0);
    if e < 0 {
      NumberStart(s);
    } else {
      MatchAtOne(low, 'e', e);
      assert e > 0;
      assert s[..e][0] == s[0];
      NumberStart(s[..e]);
    }
  }

  /** A word made of lower-case letters after lowering, other than the special
      float words, is not accepted by `float()`. */
  lemma NotFloatLetters(s: string)
    requires s != []
    requires forall k :: 0 <= k < |s| ==> 'a' <= LowerChar(s[k]) <= 'z'
    requires Lower(s) != "inf" && Lower(s) != "infinity" && Lower(s) != "nan"
    ensures !IsFloatLiteral(s)
  {
    forall k | 0 <= k < |s| ensures !IsDigit(s[k]) {
      assert 'a' <= LowerChar(s[k]) <= 'z';
    }
    assert 'a' <= LowerChar(s[0]) <= 'z';
    assert DropSign(s) == s;
    FloatLiteralShape(s);
  }

  lemma DigitPartHasDigit(s: string)
    requires IsDigitPart(s)
    ensures HasDigit(s)
  {
    assert IsDigit(s[0]);
  }

  lemma HasDigitInfix(s: string, lo: nat, hi: nat)
    requires lo <= hi <= |s| && HasDigit(s[lo..hi])
    ensures HasDigit(s)
  {
    var k :| 0 <= k < hi - lo && IsDigit(s[lo..hi][k]);
    assert s[lo + k] == s[lo..hi][k];
  }

  lemma NumberHasDigit(m: string)
    requires IsNumber(m)
    ensures HasDigit(m)
  {
    var d := Find(m, ".", 0);
    if d >= 0 {
      if IsDigitPart(m[..d]) {
        DigitPartHasDigit(m[..d]);
        HasDigitInfix(m, 0, d);
      } else {
        DigitPartHasDigit(m[d + 1..]);
        assert m[d + 1..] == m[d + 1..|m|];
        HasDigitInfix(m, d + 1, |m|);
      }
    } else {
      DigitPartHasDigit(m);
    }
  }

  /** The digit found in the text after the sign is a digit of the whole. */
  lemma HasDigitDropSign(s: string)
    requires HasDigit(DropSign(s))
    ensures HasDigit(s)
  {
    if DropSign(s) != s {
      assert DropSign(s) == s[1..|s|];
      HasDigitInfix(s, 1, |s|);
    }
  }

  /** A finite decimal literal contains a digit. */
  lemma DecimalHasDigit(body: string)
    requires var e := Find(Lower(body), "e", 0);
             if e < 0 then IsNumber(body) else IsNumber(body[..e]) && IsExponent(body[e + 1..])
    ensures HasDigit(body)
  {
    var e := Find(Lower(body), "e", 0);
    if e < 0 {
      NumberHasDigit(body);
    } else {
      NumberHasDigit(body[..e]);
      assert body[..e] == body[0..e];
      HasDigitInfix(body, 0, e);
    }
  }

  /** Every string `float()` accepts either contains a decimal digit or is one
      of the special words `inf`, `infinity`, `nan` (after an optional sign). */
  lemma FloatLiteralShape(s: string)
    ensures IsFloatLiteral(s) ==> HasDigit(s) || Lower(DropSign(s)) in {"inf", "infinity", "nan"}
  {
    var body := DropSign(s);
    var low := Lower(body);
    if IsFloatLiteral(s) && !(low == "inf" || low == "infinity" || low == "nan") {
      DecimalHasDigit(body);
      HasDigitDropSign(s);
    }
  }

  function DigitChar(d: nat): (c: char)
    requires d < 10
    ensures IsDigit(c) && DigitValue(c) == d
  {
    ('0' as int + d) as char
  }

  /** The decimal rendering of `n` (`str(n)` / `'{:d}'.format(n)`). */
  function Digits(n: nat): (r: string)
    ensures r != []
    ensures forall k :: 0 <= k < |r| ==> IsDigit(r[k])
    decreases n
  {
    if n < 10 then [DigitChar(n)] else Digits(n / 10) + [DigitChar(n % 10)]
  }

  /** Reading back a decimal rendering gives the number. */
  lemma {:induction false} DigitsRoundTrip(n: nat)
    ensures DigitsValue(Digits(n)) == n
    decreases n
  {
    var r := Digits(n);
    if n >= 10 {
      DigitsRoundTrip(n / 10);
      assert r[..|r| - 1] == Digits(n / 10);
    } else {
      assert r[..|r| - 1] == [];
    }
  }

  /** `int()` reads a decimal rendering back as its number. */
  lemma DigitsInt(n: nat)
    ensures IsIntLiteral(Digits(n)) && IntValue(Digits(n)) == n
  {
    var d := Digits(n);
    DigitsRoundTrip(n);
    assert DropSign(d) == d;
    assert IsDigitPart(d);
  }

  /** A leading zero does not change the value of a digit string. */
  lemma {:induction false} LeadingZeroValue(s: string)
    requires forall k :: 0 <= k < |s| ==> IsDigit(s[k])
    ensures DigitsValue("0" + s) == DigitsValue(s)
    decreases |s|
  {
    if s != [] {
      var t := "0" + s;
      assert t[..|t| - 1] == "0" + s[..|s| - 1];
      LeadingZeroValue(s[..|s| - 1]);
    } else {
      assert ("0" + s)[..0] == [];
    }
  }

  /** `'{:02d}'.format(n)`: at least two digits, zero-padded on the left. */
  function Pad2(n: nat): (r: string)
    ensures |r| >= 2
    ensures forall k :: 0 <= k < |r| ==> IsDigit(r[k])
    ensures DigitsValue(r) == n
  {
    DigitsRoundTrip(n);
    if n < 10 then
      LeadingZeroValue(Digits(n));
      "0" + Digits(n)
    else
      assert |Digits(n)| >= 2 by {
        assert Digits(n) == Digits(n / 10) + [DigitChar(n % 10)];
      }
      Digits(n)
  }

  /** Distinct run numbers get distinct two-digit renderings. */
  lemma Pad2Injective(m: nat, n: nat)
    requires Pad2(m) == Pad2(n)
    ensures m == n
  {
  }
}

=== FILE: pytext.dfy ===
/** The handful of Python `str` operations the modelled code relies on:
    `strip`, `find`, `count`, `split`, `join`, `replace`, `lower` and the
    `re.sub(' +', ' ', …)` space collapse.  Strings are `seq<char>`; every
    helper states what it computes so that callers can reason about it
    without unfolding the body. */
module PyText {

  /** The characters Python's `str.isspace` accepts, which `str.strip()` and
      `str.split()` treat as whitespace. */
  const Whitespace: set<char> := {
    ' ', '\t', '\n', '\r', '\U{B}', '\U{C}',
    '\U{1C}', '\U{1D}', '\U{1E}', '\U{1F}', '\U{85}', '\U{A0}', '\U{1680}',
    '\U{2000}', '\U{2001}', '\U{2002}', '\U{2003}', '\U{2004}', '\U{2005}',
    '\U{2006}', '\U{2007}', '\U{2008}', '\U{2009}', '\U{200A}',
    '\U{2028}', '\U{2029}', '\U{202F}', '\U{205F}', '\U{3000}'
  }

  predicate IsSpace(c: char) {
    c in Whitespace
  }

  predicate NoSpace(s: string) {
    forall k :: 0 <= k < |s| ==> !IsSpace(s[k])
  }

  /** Number of occurrences of `c` in `s` (`s.count(c)` for a one-character argument). */
  function Count(s: string, c: char): nat {
    multiset(s)[c]
  }

  /** How many leading characters of `s` are in `drop`. */
  function LeadCount(s: string, drop: set<char>): (n: nat)
    ensures n <= |s|
    ensures forall k :: 0 <= k < n ==> s[k] in drop
    ensures n < |s| ==> s[n] !in drop
    decreases |s|
  {
    if s != [] && s[0] in drop then
      var m := LeadCount(s[1..], drop);
      assert forall k :: 1 <= k < m + 1 ==> s[k] == s[1..][k - 1];
      m + 1
    else 0
  }

  /** How many trailing characters of `s` are in `drop`. */
  function TrailCount(s: string, drop: set<char>): (n: nat)
    ensures n <= |s|
    ensures forall k :: |s| - n <= k < |s| ==> s[k] in drop
    ensures n < |s| ==> s[|s| - n - 1] !in drop
    decreases |s|
  {
    if s != [] && s[|s| - 1] in drop then
      var m := TrailCount(s[..|s| - 1], drop);
      assert forall k :: |s| - 1 - m <= k < |s| - 1 ==> s[k] == s[..|s| - 1][k];
      m + 1
    else 0
  }

  /** Drops the leading characters that are in `drop`. */
  function TrimLeft(s: string, drop: set<char>): (r: string)
    ensures |r| <= |s| && r == s[|s| - |r|..]
    ensures r == [] || r[0] !in drop
    ensures forall k :: 0 <= k < |s| - |r| ==> s[k] in drop
  {
    s[LeadCount(s, drop)..]
  }

  /** Drops the trailing characters that are in `drop`. */
  function TrimRight(s: string, drop: set<char>): (r: string)
    ensures |r| <= |s| && r == s[..|r|]
    ensures r == [] || r[|r| - 1] !in drop
    ensures forall k :: |r| <= k < |s| ==> s[k] in drop
  {
    s[..|s| - TrailCount(s, drop)]
  }

  /** Number of leading whitespace characters, i.e. where `Strip(s)` starts in `s`. */
  function LeadingSpaces(s: string): nat
    ensures LeadingSpaces(s) <= |s|
  {
    |s| - |TrimLeft(s, Whitespace)|
  }

  /** `r` is what `s.strip()` leaves of `s`: the infix after the leading
      whitespace, up to the trailing whitespace, starting and ending with a
      non-whitespace character. */
  predicate IsStripOf(s: string, r: string) {
    && LeadingSpaces(s) + |r| <= |s|
    && r == s[LeadingSpaces(s)..LeadingSpaces(s) + |r|]
    && (r == [] || (!IsSpace(r[0]) && !IsSpace(r[|r| - 1])))
    && (forall k :: 0 <= k < LeadingSpaces(s) ==> IsSpace(s[k]))
    && (forall k :: LeadingSpaces(s) + |r| <= k < |s| ==> IsSpace(s[k]))
  }

  /** `s.strip()`: the infix of `s` left after removing surrounding whitespace. */
  function Strip(s: string): (r: string)
    ensures |r| <= |s|
    ensures IsStripOf(s, r)
    ensures s == [] || (!IsSpace(s[0]) && !IsSpace(s[|s| - 1])) ==> r == s
  {
    var t := TrimLeft(s, Whitespace);
    var r := TrimRight(t, Whitespace);
    StripShape(s, t, r);
    r
  }

  /** The facts `Strip` promises, about the two trims it is made of. */
  lemma StripShape(s: string, t: string, r: string)
    requires t == TrimLeft(s, Whitespace) && r == TrimRight(t, Whitespace)
    ensures IsStripOf(s, r)
    ensures s == [] || (!IsSpace(s[0]) && !IsSpace(s[|s| - 1])) ==> r == s
  {
    var n := LeadCount(s, Whitespace);
    assert LeadingSpaces(s) == n;
    TrimsInfix(s, t, r, n);
    TrimsTrailing(s, t, r, n);
    if s != [] && !IsSpace(s[0]) && !IsSpace(s[|s| - 1]) {
      assert n == 0 && t == s;
      assert TrailCount(t, Whitespace) == 0;
    }
  }

  lemma TrimsInfix(s: string, t: string, r: string, n: nat)
    requires n <= |s| && t == s[n..] && |r| <= |t| && r == t[..|r|]
    ensures n + |r| <= |s| && r == s[n..n + |r|]
  {
  }

  lemma TrimsTrailing(s: string, t: string, r: string, n: nat)
    requires n <= |s| && t == s[n..] && |r| <= |t|
    requires forall k :: |r| <= k < |t| ==> t[k] in Whitespace
    ensures forall k :: n + |r| <= k < |s| ==> IsSpace(s[k])
  {
    forall k | n + |r| <= k < |s| ensures IsSpace(s[k]) {
      assert s[k] == t[k - n];
    }
  }

  /** `s.strip(c)` for a one-character argument. */
  function StripChar(s: string, c: char): (r: string)
    ensures r == [] || (r[0] != c && r[|r| - 1] != c)
    ensures s == [] || (s[0] != c && s[|s| - 1] != c) ==> r == s
  {
    TrimRight(TrimLeft(s, {c}), {c})
  }

  /** Stripping the quote character from a quoted text gives back the text,
      provided the text itself neither starts nor ends with it. */
  lemma StripCharQuoted(x: string, c: char)
    requires x == [] || (x[0] != c && x[|x| - 1] != c)
    ensures StripChar([c] + x + [c], c) == x
  {
    var s := [c] + x + [c];
    assert s[1..] == x + [c];
    if x == [] {
      assert (x + [c])[1..] == [];
    } else {
      assert (x + [c])[..|x|] == x;
    }
  }

  /** A non-whitespace character of `s` survives `strip()` at its place. */
  lemma NonSpaceInsideStrip(s: string, k: nat)
    requires k < |s| && !IsSpace(s[k])
    ensures LeadingSpaces(s) <= k < LeadingSpaces(s) + |Strip(s)|
    ensures Strip(s)[k - LeadingSpaces(s)] == s[k]
  {
  }

  /** A text that neither starts nor ends with whitespace is its own `strip()`. */
  lemma StripUnpadded(s: string)
    requires s != [] && !IsSpace(s[0]) && !IsSpace(s[|s| - 1])
    ensures Strip(s) == s
  {
    assert LeadingSpaces(s) == 0;
  }

  /** Stripping whitespace keeps the count of every non-whitespace character:
      in particular the counts of the block delimiters are unchanged. */
  lemma StripKeepsCount(s: string, c: char)
    requires !IsSpace(c)
    ensures Count(Strip(s), c) == Count(s, c)
  {
    var lo := LeadingSpaces(s);
    var r := Strip(s);
    var hi := lo + |r|;
    ThreeParts(s, lo, hi);
    NoCharAmongSpaces(s[..lo], c);
    NoCharAmongSpaces(s[hi..], c);
  }

  /** A text is its three consecutive parts, and its counts add up. */
  lemma ThreeParts(s: string, lo: nat, hi: nat)
    requires lo <= hi <= |s|
    ensures multiset(s) == multiset(s[..lo]) + multiset(s[lo..hi]) + multiset(s[hi..])
  {
    assert s == s[..lo] + s[lo..hi] + s[hi..];
  }

  /** A non-whitespace character does not occur among whitespace. */
  lemma NoCharAmongSpaces(a: string, c: char)
    requires !IsSpace(c) && forall k :: 0 <= k < |a| ==> IsSpace(a[k])
    ensures multiset(a)[c] == 0
  {
    assert c !in a;
  }

  /** `s` holds `pat` starting at index `k`. */
  predicate MatchAt(s: string, pat: string, k: int) {
    0 <= k && k + |pat| <= |s| && s[k..k + |pat|] == pat
  }

  /** `s.find(pat, start)`: the lowest index at or after `start` where `pat`
      occurs, or -1. */
  function Find(s: string, pat: string, start: nat): (r: int)
    ensures r == -1 || (start <= r && MatchAt(s, pat, r))
    ensures r == -1 ==> forall k :: start <= k ==> !MatchAt(s, pat, k)
    ensures r >= 0 ==> forall k :: start <= k < r ==> !MatchAt(s, pat, k)
    decreases |s| - start
  {
    if start + |pat| > |s| then -1
    else if s[start..start + |pat|] == pat then start
    else Find(s, pat, start + 1)
  }

  lemma MatchAtOne(s: string, c: char, k: int)
    ensures MatchAt(s, [c], k) <==> 0 <= k < |s| && s[k] == c
  {
    if 0 <= k < |s| {
      assert s[k..k + 1] == [s[k]];
    }
  }

  /** A two-character pattern matches where both characters do. */
  lemma MatchAtTwo(s: string, a: char, b: char, k: int)
    ensures MatchAt(s, [a, b], k) <==> 0 <= k && k + 2 <= |s| && s[k] == a && s[k + 1] == b
  {
    if 0 <= k && k + 2 <= |s| {
      assert s[k..k + 2] == [s[k], s[k + 1]];
    }
  }

  /** `find` returns the first match at or after `start`. */
  lemma FindIs(s: string, pat: string, start: nat, r: nat)
    requires start <= r && MatchAt(s, pat, r)
    requires forall k :: start <= k < r ==> !MatchAt(s, pat, k)
    ensures Find(s, pat, start) == r
  {
  }

  /** A one-character `find` is the first index of that character. */
  lemma FindChar(s: string, c: char, start: nat)
    ensures Find(s, [c], start) == -1 ==> forall k :: start <= k < |s| ==> s[k] != c
    ensures Find(s, [c], start) >= 0 ==>
              start <= Find(s, [c], start) < |s| && s[Find(s, [c], start)] == c
              && forall k :: start <= k < Find(s, [c], start) ==> s[k] != c
  {
    var r := Find(s, [c], start);
    forall k | start <= k < |s| && (r == -1 || k <= r)
      ensures s[k] == c <==> k == r
    {
      MatchAtOne(s, c, k);
    }
  }

  /** Every character of `s` satisfies `p`. */
  predicate All(s: string, p: char -> bool) {
    forall k :: 0 <= k < |s| ==> p(s[k])
  }

  /** The characters of `s` that are not whitespace, in order. */
  function NonSpace(s: string): string
    decreases |s|
  {
    if s == [] then [] else (if IsSpace(s[0]) then [] else [s[0]]) + NonSpace(s[1..])
  }

  lemma {:induction false} NonSpaceAppend(a: string, b: string)
    ensures NonSpace(a + b) == NonSpace(a) + NonSpace(b)
    decreases |a|
  {
    if a != [] {
      assert (a + b)[1..] == a[1..] + b;
      NonSpaceAppend(a[1..], b);
    } else {
      assert a + b == b;
    }
  }

  lemma {:induction false} NonSpaceOfSpaces(s: string)
    requires forall k :: 0 <= k < |s| ==> IsSpace(s[k])
    ensures NonSpace(s) == []
    decreases |s|
  {
    if s != [] {
      NonSpaceOfSpaces(s[1..]);
    }
  }

  lemma {:induction false} NonSpaceOfWord(s: string)
    requires NoSpace(s)
    ensures NonSpace(s) == s
    decreases |s|
  {
    if s != [] {
      NonSpaceOfWord(s[1..]);
    }
  }

  /** Length of the leading run of non-whitespace characters. */
  function WordLength(s: string): (n: nat)
    ensures n <= |s|
    ensures forall k :: 0 <= k < n ==> !IsSpace(s[k])
    ensures n == |s| || IsSpace(s[n])
    decreases |s|
  {
    if s == [] || IsSpace(s[0]) then 0 else 1 + WordLength(s[1..])
  }

  /** Concatenation of a list of strings. */
  function Concat(ws: seq<string>): string
    decreases |ws|
  {
    if ws == [] then [] else ws[0] + Concat(ws[1..])
  }

  /** A list of non-empty tokens free of whitespace, as `str.split()` yields. */
  predicate Words(ws: seq<string>) {
    forall i :: 0 <= i < |ws| ==> ws[i] != [] && NoSpace(ws[i])
  }

  lemma ConcatCons(w: string, ws: seq<string>)
    ensures Concat([w] + ws) == w + Concat(ws)
  {
    assert ([w] + ws)[1..] == ws;
  }

  lemma WordsCons(w: string, ws: seq<string>)
    requires w != [] && NoSpace(w) && Words(ws)
    ensures Words([w] + ws)
  {
    forall i | 0 <= i < |[w] + ws|
      ensures ([w] + ws)[i] != [] && NoSpace(([w] + ws)[i])
    {
      if i > 0 {
        assert ([w] + ws)[i] == ws[i - 1];
      }
    }
  }

  /** The whitespace `split` skips before a token contributes nothing. */
  lemma NonSpaceSkipsLead(s: string)
    ensures NonSpace(s) == NonSpace(TrimLeft(s, Whitespace))
  {
    var t := TrimLeft(s, Whitespace);
    assert s == s[..|s| - |t|] + t;
    NonSpaceAppend(s[..|s| - |t|], t);
    NonSpaceOfSpaces(s[..|s| - |t|]);
  }

  /** A leading word followed by the rest. */
  lemma NonSpaceWord(t: string, n: nat)
    requires n <= |t| && NoSpace(t[..n])
    ensures NonSpace(t) == t[..n] + NonSpace(t[n..])
  {
    assert t == t[..n] + t[n..];
    NonSpaceAppend(t[..n], t[n..]);
    NonSpaceOfWord(t[..n]);
  }

  /** `s.split()`: the maximal runs of non-whitespace characters, in order.
      Nothing but whitespace is lost: the tokens put back together are the
      non-whitespace characters of `s`. */
  function SplitWs(s: string): (r: seq<string>)
    ensures Words(r)
    ensures Concat(r) == NonSpace(s)
    decreases |s|
  {
    var t := TrimLeft(s, Whitespace);
    NonSpaceSkipsLead(s);
    if t == [] then []
    else
      var n := WordLength(t);
      var rest := SplitWs(t[n..]);
      NonSpaceWord(t, n);
      ConcatCons(t[..n], rest);
      WordsCons(t[..n], rest);
      [t[..n]] + rest
  }

  /** `sep.join(parts)`. */
  function Join(parts: seq<string>, sep: string): string
    decreases |parts|
  {
    if parts == [] then []
    else if |parts| == 1 then parts[0]
    else parts[0] + sep + Join(parts[1..], sep)
  }

  /** A character in neither the parts nor the separator is not in the join. */
  lemma {:induction false} JoinAvoids(parts: seq<string>, sep: string, c: char)
    requires c !in sep
    requires forall i :: 0 <= i < |parts| ==> c !in parts[i]
    ensures c !in Join(parts, sep)
    decreases |parts|
  {
    if |parts| >= 2 {
      JoinAvoids(parts[1..], sep, c);
    }
  }

  /** The join ends with the last character of the last part. */
  lemma {:induction false} JoinEnds(parts: seq<string>, sep: string)
    requires parts != [] && parts[|parts| - 1] != []
    ensures Join(parts, sep) != []
    ensures Join(parts, sep)[|Join(parts, sep)| - 1] == parts[|parts| - 1][|parts[|parts| - 1]| - 1]
    decreases |parts|
  {
    if |parts| >= 2 {
      JoinEnds(parts[1..], sep);
    }
  }

  lemma {:induction false} JoinStartsNonSpace(ws: seq<string>)
    requires Words(ws)
    ensures Join(ws, " ") == [] <==> ws == []
    ensures ws != [] ==> !IsSpace(Join(ws, " ")[0]) && Join(ws, " ")[0] == ws[0][0]
  {
    if |ws| > 1 {
      assert Join(ws, " ") == ws[0] + (" " + Join(ws[1..], " "));
    }
  }

  /** `WordLength` is pinned down by where the first whitespace character sits. */
  lemma {:induction false} WordLengthIs(t: string, m: nat)
    requires m <= |t| && NoSpace(t[..m]) && (m == |t| || IsSpace(t[m]))
    ensures WordLength(t) == m
    decreases m
  {
    if m > 0 {
      assert !IsSpace(t[..m][0]);
      assert t[1..][..m - 1] == t[..m][1..];
      WordLengthIs(t[1..], m - 1);
    }
  }

  /** A word followed by nothing or by whitespace is split off whole. */
  lemma SplitWsWord(w: string, s: string)
    requires w != [] && NoSpace(w) && (s == [] || IsSpace(s[0]))
    ensures SplitWs(w + s) == [w] + SplitWs(s)
  {
    var t := w + s;
    assert TrimLeft(t, Whitespace) == t;
    assert t[..|w|] == w;
    WordLengthIs(t, |w|);
    assert t[|w|..] == s;
  }

  lemma SplitWsLeadSpace(s: string)
    requires s != [] && IsSpace(s[0])
    ensures SplitWs(s) == SplitWs(s[1..])
  {
    assert TrimLeft(s, Whitespace) == TrimLeft(s[1..], Whitespace);
  }

  lemma JoinCons(ws: seq<string>, sep: string)
    requires |ws| >= 2
    ensures Join(ws, sep) == ws[0] + (sep + Join(ws[1..], sep))
  {
  }

  lemma WordsTail(ws: seq<string>)
    requires ws != [] && Words(ws)
    ensures Words(ws[1..])
  {
    forall i | 0 <= i < |ws[1..]| ensures ws[1..][i] != [] && NoSpace(ws[1..][i]) {
      assert ws[1..][i] == ws[i + 1];
    }
  }

  /** One step of the round trip: the first word comes off whole, and the
      separating space vanishes. */
  lemma SplitJoinStep(ws: seq<string>)
    requires |ws| >= 2 && ws[0] != [] && NoSpace(ws[0])
    ensures SplitWs(Join(ws, " ")) == [ws[0]] + SplitWs(Join(ws[1..], " "))
  {
    var rest := Join(ws[1..], " ");
    JoinCons(ws, " ");
    SplitWsWord(ws[0], " " + rest);
    SplitWsLeadSpace(" " + rest);
    assert (" " + rest)[1..] == rest;
  }

  /** The round trip extends from the tail to the whole list. */
  lemma SplitJoinCons(ws: seq<string>)
    requires |ws| >= 2 && Words(ws)
    requires SplitWs(Join(ws[1..], " ")) == ws[1..]
    ensures SplitWs(Join(ws, " ")) == ws
  {
    assert ws[0] != [] && NoSpace(ws[0]);
    SplitJoinStep(ws);
    HeadTail(ws);
  }

  lemma HeadTail<T>(s: seq<T>)
    requires s != []
    ensures [s[0]] + s[1..] == s
  {
  }

  lemma ConcatAssoc<T>(a: seq<T>, b: seq<T>, c: seq<T>)
    ensures a + b + c == a + (b + c)
  {
  }

  /** A single word splits to itself. */
  lemma SplitOneWord(ws: seq<string>)
    requires |ws| == 1 && Words(ws)
    ensures SplitWs(Join(ws, " ")) == ws
  {
    var w := ws[0];
    assert Join(ws, " ") == w;
    SplitWsWord(w, []);
    assert w + [] == w;
    SplitJoinNone();
    assert SplitWs(w) == [w];
    assert ws == [w];
  }

  lemma SplitJoinNone()
    ensures SplitWs(Join([], " ")) == []
  {
  }

  /** Splitting a space-joined list of words gives the words back. */
  lemma {:induction false} SplitJoinWords(ws: seq<string>)
    requires Words(ws)
    ensures SplitWs(Join(ws, " ")) == ws
    decreases |ws|
  {
    if ws == [] {
      SplitJoinNone();
    } else if |ws| == 1 {
      SplitOneWord(ws);
    } else {
      WordsTail(ws);
      SplitJoinWords(ws[1..]);
      SplitJoinCons(ws);
    }
  }

  /** `s.split(sep)` for a one-character separator: the pieces between the
      separators, empty pieces included.  Joining them back with the separator
      restores `s`, and there is one piece more than there are separators. */
  function SplitOn(s: string, sep: char): (r: seq<string>)
    ensures |r| == Count(s, sep) + 1
    ensures forall i :: 0 <= i < |r| ==> sep !in r[i]
    ensures Join(r, [sep]) == s
    decreases |s|
  {
    var i := Find(s, [sep], 0);
    FindChar(s, sep, 0);
    if i < 0 then
      assert sep !in multiset(s);
      [s]
    else
      var rest := SplitOn(s[i + 1..], sep);
      assert s == s[..i] + [sep] + s[i + 1..];
      assert multiset(s) == multiset(s[..i]) + multiset{sep} + multiset(s[i + 1..]);
      assert sep !in s[..i];
      [s[..i]] + rest
  }

  /** Splitting a separator-joined list gives the list back when no piece
      contains the separator. */
  lemma {:induction false} SplitOnJoin(parts: seq<string>, sep: char)
    requires |parts| >= 1
    requires forall i :: 0 <= i < |parts| ==> sep !in parts[i]
    ensures SplitOn(Join(parts, [sep]), sep) == parts
    decreases |parts|
  {
    var j := Join(parts, [sep]);
    var p := parts[0];
    if |parts| == 1 {
      FindChar(j, sep, 0);
    } else {
      var rest := Join(parts[1..], [sep]);
      assert j == p + [sep] + rest;
      FindChar(j, sep, 0);
      assert j[|p|] == sep;
      assert Find(j, [sep], 0) == |p|;
      assert j[..|p|] == p;
      assert j[|p| + 1..] == rest;
      SplitOnJoin(parts[1..], sep);
    }
  }

  /** Splitting `a + [sep] + b` splits off `a` as the first piece. */
  lemma SplitOnCons(a: string, b: string, sep: char)
    requires sep !in a
    ensures SplitOn(a + [sep] + b, sep) == [a] + SplitOn(b, sep)
  {
    var s := a + [sep] + b;
    FindChar(s, sep, 0);
    assert s[|a|] == sep;
    assert Find(s, [sep], 0) == |a|;
    assert s[..|a|] == a;
    assert s[|a| + 1..] == b;
  }

  /** `s.replace(a, b)` for one-character arguments. */
  function ReplaceChar(s: string, a: char, b: char): (r: string)
    ensures |r| == |s|
    ensures forall k :: 0 <= k < |s| ==> r[k] == (if s[k] == a then b else s[k])
  {
    seq(|s|, k requires 0 <= k < |s| => if s[k] == a then b else s[k])
  }

  function LowerChar(c: char): char {
    if 'A' <= c <= 'Z' then (c as int + 32) as char else c
  }

  /** `s.lower()` on ASCII letters. */
  function Lower(s: string): (r: string)
    ensures |r| == |s|
    ensures forall k :: 0 <= k < |s| ==> r[k] == LowerChar(s[k])
  {
    seq(|s|, k requires 0 <= k < |s| => LowerChar(s[k]))
  }

  /** `re.sub(' +', ' ', s)`: every run of spaces becomes a single space. */
  function CollapseSpaces(s: string): (r: string)
    ensures |r| <= |s|
    ensures s != [] ==> r != [] && r[0] == s[0] && r[|r| - 1] == s[|s| - 1]
    decreases |s|
  {
    if s == [] then []
    else if |s| >= 2 && s[0] == ' ' && s[1] == ' ' then CollapseSpaces(s[1..])
    else [s[0]] + CollapseSpaces(s[1..])
  }

  /** Collapsing removes spaces only: every other character keeps its count. */
  lemma {:induction false} CollapseKeepsCount(s: string, c: char)
    requires c != ' '
    ensures Count(CollapseSpaces(s), c) == Count(s, c)
    decreases |s|
  {
    if s != [] {
      CollapseKeepsCount(s[1..], c);
      assert s == [s[0]] + s[1..];
    }
  }

  /** After collapsing, no two spaces stand side by side. */
  predicate NoDoubleSpace(r: string) {
    forall k :: 0 <= k < |r| - 1 ==> !(r[k] == ' ' && r[k + 1] == ' ')
  }

  lemma {:induction false} CollapseNoDoubleSpace(s: string)
    ensures NoDoubleSpace(CollapseSpaces(s))
    decreases |s|
  {
    if s != [] {
      CollapseNoDoubleSpace(s[1..]);
      var r := CollapseSpaces(s);
      var rest := CollapseSpaces(s[1..]);
      if !(|s| >= 2 && s[0] == ' ' && s[1] == ' ') {
        assert r == [s[0]] + rest;
        forall k | 0 <= k < |r| - 1 ensures !(r[k] == ' ' && r[k + 1] == ' ') {
          if k >= 1 {
            assert r[k] == rest[k - 1] && r[k + 1] == rest[k];
          } else {
            assert r[1] == rest[0] == s[1..][0];
          }
        }
      }
    }
  }

  predicate StartsWith(s: string, p: string) {
    |p| <= |s| && s[..|p|] == p
  }

  predicate EndsWith(s: string, p: string) {
    |p| <= |s| && s[|s| - |p|..] == p
  }
}

=== FILE: turbines.dfy ===
/** The `OpenFAST` driver of `turbines.py`: per-run random seeds, template
    substitution for input files, TurbSim input naming, and the guards that
    order set-up before running.  Template files are given by their
    `{field: format}` maps, the random generator by its stream of raw draws,
    and the external programs by whether each terminated normally. */
module Turbines {
  import opened Wrappers
  import opened PyNum
  import opened OrderedDict

  /** A value supplied for a template field. */
  datatype Value = Int(i: int) | Str(s: string)

  /** An entry of `tmp_inputs`: still the template's format string, or the
      value that replaced it. */
  datatype Slot = Format(fmt: string) | Set(value: Value)

  /** The exceptions the driver raises. */
  datatype Error =
    | IgnoredInput(key: string, templatefile: string)  // KeyError: key is not a template field
    | FieldsNotSet(fields: seq<string>)                // KeyError: template fields left unset
    | MissingKey(key: string)                          // KeyError from a dict lookup
    | MissingAttribute(name: string)                   // AttributeError: set-up not done
    | IndexOutOfRange(index: nat)                      // IndexError on the input-file list
    | UnexpectedInflow(inflowtype: string)             // RuntimeError for an unknown inflow type
    | InflowTypeNone                                   // TypeError: `str + None` in that message
    | InflowNotNone                                    // AssertionError in `run`
    | NeedSetup                                        // RuntimeError: inflow not set up
    | ProgramFailed(program: string)                   // RuntimeError: external program failed

  /** The attributes of an `OpenFAST` object.  `inflowdir` and
      `tsInputfiles` are `None` until `setup_turbsim` creates them. */
  datatype OpenFAST = OpenFAST(
    verbose: bool,
    cwd: string,
    inflowtype: Option<string>,
    uref: Option<Value>,
    nruns: int,
    parallel: bool,
    seeds: seq<int>,
    inflowdir: Option<string>,
    tsInputfiles: Option<seq<string>>)

  /** The range of TurbSim's random seeds. */
  const SeedMin: int := -2147483648
  const SeedMax: int := 2147483647

  /** `len(range(n))`. */
  function RangeLen(n: int): nat {
    if n > 0 then n else 0
  }

  /** `random.randint(a, b)` given the generator's raw draw. */
  function RandInt(a: int, b: int, raw: nat): (r: int)
    requires a <= b
    ensures a <= r <= b
  {
    a + raw % (b - a + 1)
  }

  /** The first `n` seeds drawn after `random.seed(startSeed)`. */
  function Seeds(startSeed: int, n: nat, draw: (int, nat) -> nat): (r: seq<int>)
    ensures |r| == n
    ensures forall i :: 0 <= i < n ==> SeedMin <= r[i] <= SeedMax
    decreases n
  {
    if n == 0 then [] else Seeds(startSeed, n - 1, draw) + [RandInt(SeedMin, SeedMax, draw(startSeed, n - 1))]
  }

  /** `OpenFAST(dpath, Nruns, start_seed, verbose)`; `draw(seed, i)` is the
      raw draw behind the `i`-th `randint` after `random.seed(seed)`. */
  function Init(dpath: string, nruns: int, startSeed: int, verbose: bool, draw: (int, nat) -> nat): (s: OpenFAST)
    ensures |s.seeds| == RangeLen(nruns)
    ensures forall i :: 0 <= i < |s.seeds| ==> SeedMin <= s.seeds[i] <= SeedMax
    ensures s.inflowtype == None && s.uref == None && !s.parallel
    ensures s.inflowdir == None && s.tsInputfiles == None
    ensures s.cwd == dpath && s.nruns == nruns && s.verbose == verbose
  {
    OpenFAST(verbose, dpath, None, None, nruns, false,
             Seeds(startSeed, RangeLen(nruns), draw),
             None, None)
  }

  /** The seeds depend only on the start seed, and a longer sweep begins with
      the seeds of a shorter one. */
  lemma {:induction false} SeedsPrefix(seed: int, m: nat, n: nat, draw: (int, nat) -> nat)
    requires m <= n
    ensures Seeds(seed, m, draw) == Seeds(seed, n, draw)[..m]
    decreases n
  {
    if m < n {
      SeedsPrefix(seed, m, n - 1, draw);
      assert Seeds(seed, n, draw)[..n - 1] == Seeds(seed, n - 1, draw);
    }
  }

  // ---------------------------------------------------------------------
  // Template substitution (`_generate_input`)

  /** Every supplied key is a field and every field is supplied. */
  predicate Covers(fields: seq<string>, given: seq<string>) {
    && (forall x :: x in given ==> x in fields)
    && (forall x :: x in fields ==> x in given)
  }

  predicate DistinctSeq(ks: seq<string>) {
    forall a, b :: 0 <= a < b < |ks| ==> ks[a] != ks[b]
  }

  /** The position of the first supplied key that is not a template field. */
  function Stray(template: Dict<string, string>, inputs: Dict<string, Value>): (r: Option<nat>)
    ensures r.Some? ==> r.value < |inputs| && inputs[r.value].0 !in Keys(template)
    ensures r.Some? ==> forall j :: 0 <= j < r.value ==> inputs[j].0 in Keys(template)
    ensures r.None? ==> forall j :: 0 <= j < |inputs| ==> inputs[j].0 in Keys(template)
    decreases |inputs|
  {
    if inputs == [] then None
    else if inputs[0].0 !in Keys(template) then Some(0)
    else
      var r := Stray(template, inputs[1..]);
      assert forall j :: 1 <= j < |inputs| ==> inputs[j] == inputs[1..][j - 1];
      if r.None? then None else Some(r.value + 1)
  }

  /** The first key that is not a field is the one `Stray` reports. */
  lemma StrayAt(template: Dict<string, string>, inputs: Dict<string, Value>, i: nat)
    requires i < |inputs| && inputs[i].0 !in Keys(template)
    requires Stray(template, inputs[..i]).None?
    ensures Stray(template, inputs) == Some(i)
  {
    assert forall j :: 0 <= j < i ==> inputs[..i][j] == inputs[j];
  }

  /** A prefix free of stray keys stays so when extended by a field. */
  lemma StrayExtend(template: Dict<string, string>, inputs: Dict<string, Value>, i: nat)
    requires i < |inputs| && inputs[i].0 in Keys(template)
    requires Stray(template, inputs[..i]).None?
    ensures Stray(template, inputs[..i + 1]).None?
  {
    assert forall j :: 0 <= j < i ==> inputs[..i][j] == inputs[j];
    assert forall j :: 0 <= j <= i ==> inputs[..i + 1][j] == inputs[j];
  }

  /** The fields of `ks`, in order, that do not occur in `given`. */
  function Without(ks: seq<string>, given: seq<string>): (r: seq<string>)
    ensures forall x {:trigger x in r} :: x in r <==> x in ks && x !in given
    ensures |r| <= |ks|
    decreases |ks|
  {
    if ks == [] then []
    else
      assert ks == [ks[0]] + ks[1..];
      (if ks[0] in given then [] else [ks[0]]) + Without(ks[1..], given)
  }

  /** `list.remove(x)`: drops the first occurrence. */
  function Remove(s: seq<string>, x: string): (r: seq<string>)
    requires x in s
    ensures |r| == |s| - 1
    decreases |s|
  {
    if s[0] == x then s[1..]
    else
      assert x in s[1..] by {
        var k :| 0 <= k < |s| && s[k] == x;
        assert s[1..][k - 1] == x;
      }
      [s[0]] + Remove(s[1..], x)
  }

  /** `list.remove` takes away exactly one occurrence. */
  lemma {:induction false} RemoveOne(s: seq<string>, x: string)
    requires x in s
    ensures multiset(Remove(s, x)) == multiset(s) - multiset{x}
    decreases |s|
  {
    assert s == [s[0]] + s[1..];
    if s[0] != x {
      assert x in s[1..];
      RemoveOne(s[1..], x);
    }
  }

  /** `tmp_inputs` after assigning the supplied value of every field that
      `inputs` mentions: the other fields keep their format string. */
  function Fill(template: Dict<string, string>, inputs: Dict<string, Value>): (r: Dict<string, Slot>)
    ensures Keys(r) == Keys(template)
    ensures forall k {:trigger Get(r, k)} :: k in Keys(template) && Get(inputs, k).Some? ==> Get(r, k) == Some(Set(Get(inputs, k).value))
    ensures forall k {:trigger Get(r, k)} :: k in Keys(template) && Get(inputs, k).None? ==> Get(r, k) == Some(Format(Get(template, k).value))
    decreases |template|
  {
    if template == [] then []
    else
      var k := template[0].0;
      var slot := if Get(inputs, k).Some? then Set(Get(inputs, k).value) else Format(template[0].1);
      var rest := Fill(template[1..], inputs);
      var r := [(k, slot)] + rest;
      assert r[1..] == rest;
      assert Keys(template) == [k] + Keys(template[1..]);
      r
  }

  /** The reference meaning of `_generate_input`: the first stray key is
      reported, else the unset fields, else the filled template. */
  function Generate(templatefile: string, template: Dict<string, string>, inputs: Dict<string, Value>): (r: Result<Dict<string, Slot>, Error>)
    requires DistinctKeys(inputs)
    ensures r.Success? <==> Covers(Keys(template), Keys(inputs))
    ensures r.Success? ==> Keys(r.value) == Keys(template)
    ensures r.Success? ==> forall j :: 0 <= j < |inputs| ==> Get(r.value, inputs[j].0) == Some(Set(inputs[j].1))
    ensures r.Failure? ==> r.error.IgnoredInput? || r.error.FieldsNotSet?
  {
    var stray := Stray(template, inputs);
    StrayNone(template, inputs);
    if stray.Some? then
      Failure(IgnoredInput(inputs[stray.value].0, templatefile))
    else
      var unset := Without(Keys(template), Keys(inputs));
      if unset != [] then
        assert unset[0] in unset;
        Failure(FieldsNotSet(unset))
      else
        var r := Fill(template, inputs);
        FillSupplied(template, inputs);
        Success(r)
  }

  /** No stray key exactly when every supplied key is a field. */
  lemma StrayNone(template: Dict<string, string>, inputs: Dict<string, Value>)
    ensures Stray(template, inputs).None? <==> forall x :: x in Keys(inputs) ==> x in Keys(template)
  {
    var stray := Stray(template, inputs);
    if stray.Some? {
      var x := inputs[stray.value].0;
      assert Keys(inputs)[stray.value] == x;
      assert x in Keys(inputs) && x !in Keys(template);
    } else {
      forall x | x in Keys(inputs) ensures x in Keys(template) {
        var j :| 0 <= j < |inputs| && Keys(inputs)[j] == x;
        assert inputs[j].0 == x;
      }
    }
  }

  /** Every supplied value lands in its field. */
  lemma FillSupplied(template: Dict<string, string>, inputs: Dict<string, Value>)
    requires DistinctKeys(inputs)
    requires forall j :: 0 <= j < |inputs| ==> inputs[j].0 in Keys(template)
    ensures forall j :: 0 <= j < |inputs| ==> Get(Fill(template, inputs), inputs[j].0) == Some(Set(inputs[j].1))
  {
    var r := Fill(template, inputs);
    forall j | 0 <= j < |inputs| ensures Get(r, inputs[j].0) == Some(Set(inputs[j].1)) {
      GetAt(inputs, j);
    }
  }

  /** Which `KeyError` `_generate_input` raises: for the first supplied key
      that names no field, or else for the non-empty list of fields nobody
      supplied. */
  lemma GenerateErrors(templatefile: string, template: Dict<string, string>, inputs: Dict<string, Value>)
    requires DistinctKeys(inputs)
    ensures var r := Generate(templatefile, template, inputs);
            r.Failure? && r.error.IgnoredInput? ==>
              && r.error.templatefile == templatefile
              && r.error.key !in Keys(template)
              && exists j :: 0 <= j < |inputs| && inputs[j].0 == r.error.key
                               && forall j' :: 0 <= j' < j ==> inputs[j'].0 in Keys(template)
    ensures var r := Generate(templatefile, template, inputs);
            r.Failure? && r.error.FieldsNotSet? ==>
              && (forall x :: x in Keys(inputs) ==> x in Keys(template))
              && r.error.fields != []
              && forall x :: x in r.error.fields <==> x in Keys(template) && x !in Keys(inputs)
  {
    var stray := Stray(template, inputs);
    if stray.Some? {
      var x := inputs[stray.value].0;
      assert Keys(inputs)[stray.value] == x;
      assert x in Keys(inputs) && x !in Keys(template);
    } else {
      var unset := Without(Keys(template), Keys(inputs));
      if unset != [] {
        assert unset[0] in unset;
      }
    }
  }

  lemma {:induction false} WithoutNothing(ks: seq<string>)
    ensures Without(ks, []) == ks
    decreases |ks|
  {
    if ks != [] {
      WithoutNothing(ks[1..]);
    }
  }

  lemma {:induction false} WithoutAbsent(ks: seq<string>, given: seq<string>, x: string)
    requires x !in ks
    ensures Without(ks, given + [x]) == Without(ks, given)
    decreases |ks|
  {
    if ks != [] {
      WithoutAbsent(ks[1..], given, x);
    }
  }

  /** Removing a field from the unset list is the same as counting it as
      supplied. */
  lemma {:induction false} RemoveUnset(ks: seq<string>, given: seq<string>, x: string)
    requires DistinctSeq(ks) && x in ks && x !in given
    ensures x in Without(ks, given)
    ensures Remove(Without(ks, given), x) == Without(ks, given + [x])
    decreases |ks|
  {
    var rest := ks[1..];
    assert ks == [ks[0]] + rest;
    assert DistinctSeq(rest) by {
      forall a, b | 0 <= a < b < |rest| ensures rest[a] != rest[b] {
        assert rest[a] == ks[a + 1] && rest[b] == ks[b + 1];
      }
    }
    var g := given + [x];
    var w := Without(ks, given);
    var wr := Without(rest, given);
    assert Without(ks, g) == (if ks[0] in g then [] else [ks[0]]) + Without(rest, g);
    assert w == (if ks[0] in given then [] else [ks[0]]) + wr;
    if ks[0] == x {
      assert x !in rest by {
        forall b | 0 <= b < |rest| ensures rest[b] != x {
          assert rest[b] == ks[b + 1];
        }
      }
      WithoutAbsent(rest, given, x);
      assert w == [x] + wr;
      assert Remove(w, x) == wr;
      assert Without(ks, g) == Without(rest, g);
    } else if ks[0] in given {
      RemoveUnset(rest, given, x);
      assert w == wr;
      assert Without(ks, g) == Without(rest, g);
    } else {
      RemoveUnset(rest, given, x);
      assert w == [ks[0]] + wr;
      assert Remove(w, x) == [ks[0]] + Remove(wr, x);
      assert Without(ks, g) == [ks[0]] + Without(rest, g);
    }
  }

  /** One substitution step of the loop on `tmp_inputs`. */
  lemma FillStep(template: Dict<string, string>, a: Dict<string, Value>, k: string, v: Value)
    requires DistinctKeys(template) && k in Keys(template) && k !in Keys(a)
    ensures Put(Fill(template, a), k, Set(v)) == Fill(template, a + [(k, v)])
  {
    var lhs := Put(Fill(template, a), k, Set(v));
    var rhs := Fill(template, a + [(k, v)]);
    forall k' ensures Get(rhs, k') == Get(lhs, k') {
      FillStepAt(template, a, k, v, k');
    }
    FillDistinct(template, a + [(k, v)]);
    assert Keys(rhs) == Keys(lhs);
    DictExt(rhs, lhs);
  }

  /** The step above, one key at a time. */
  lemma FillStepAt(template: Dict<string, string>, a: Dict<string, Value>, k: string, v: Value, k': string)
    requires k in Keys(template) && k !in Keys(a)
    ensures Get(Fill(template, a + [(k, v)]), k') == Get(Put(Fill(template, a), k, Set(v)), k')
  {
    GetAppend(a, [(k, v)], k');
    if k' != k && k' in Keys(template) {
      assert Get(a + [(k, v)], k') == Get(a, k');
    }
  }

  /** The filled template has the template's distinct keys. */
  lemma FillDistinct(template: Dict<string, string>, a: Dict<string, Value>)
    requires DistinctKeys(template)
    ensures DistinctKeys(Fill(template, a))
  {
    var r := Fill(template, a);
    forall i, j | 0 <= i < j < |r| ensures r[i].0 != r[j].0 {
      assert Keys(r)[i] == r[i].0 && Keys(r)[j] == r[j].0;
      assert Keys(template)[i] == template[i].0 && Keys(template)[j] == template[j].0;
    }
  }

  /** What one pass of the substitution loop does to `tmp_inputs` and to the
      list of fields still to set. */
  lemma SubstituteStep(template: Dict<string, string>, inputs: Dict<string, Value>, i: nat)
    requires DistinctKeys(template) && DistinctKeys(inputs) && i < |inputs|
    requires inputs[i].0 in Keys(template)
    ensures inputs[i].0 in Without(Keys(template), Keys(inputs[..i]))
    ensures Put(Fill(template, inputs[..i]), inputs[i].0, Set(inputs[i].1)) == Fill(template, inputs[..i + 1])
    ensures Remove(Without(Keys(template), Keys(inputs[..i])), inputs[i].0) == Without(Keys(template), Keys(inputs[..i + 1]))
  {
    var k := inputs[i].0;
    KeysSnoc(inputs, i);
    PrefixSnoc(inputs, i);
    FillStep(template, inputs[..i], k, inputs[i].1);
    DistinctKeysSeq(template);
    RemoveUnset(Keys(template), Keys(inputs[..i]), k);
  }

  lemma PrefixSnoc<T>(s: seq<T>, i: nat)
    requires i < |s|
    ensures s[..i + 1] == s[..i] + [s[i]]
  {
  }

  lemma DistinctKeysSeq<V>(d: Dict<string, V>)
    requires DistinctKeys(d)
    ensures DistinctSeq(Keys(d))
  {
  }

  /** The keys of a one-longer prefix; with distinct keys, the new key is not
      among the earlier ones. */
  lemma KeysSnoc(d: Dict<string, Value>, i: nat)
    requires DistinctKeys(d) && i < |d|
    ensures Keys(d[..i + 1]) == Keys(d[..i]) + [d[i].0]
    ensures d[i].0 !in Keys(d[..i])
  {
    var a := Keys(d[..i + 1]);
    var b := Keys(d[..i]) + [d[i].0];
    assert |a| == |b|;
    forall j | 0 <= j < |a| ensures a[j] == b[j] {
      assert d[..i + 1][j] == d[j];
      if j < i {
        assert d[..i][j] == d[j];
      }
    }
    forall j | 0 <= j < i ensures Keys(d[..i])[j] != d[i].0 {
      assert d[..i][j] == d[j];
    }
  }

  /** `_generate_input` as the source writes it: walk the supplied pairs,
      assign each one that names a field and tick it off the list of fields
      to set; a pair naming no field aborts, and so does a field never set. */
  method GenerateInput(templatefile: string, template: Dict<string, string>, inputs: Dict<string, Value>)
    returns (r: Result<Dict<string, Slot>, Error>)
    requires DistinctKeys(template) && DistinctKeys(inputs)
    ensures r == Generate(templatefile, template, inputs)
  {
    var tmp := Fill(template, []);
    var toSet := Keys(template);
    WithoutNothing(Keys(template));
    assert DistinctSeq(Keys(template));
    for i := 0 to |inputs|
      invariant Stray(template, inputs[..i]).None?
      invariant tmp == Fill(template, inputs[..i])
      invariant toSet == Without(Keys(template), Keys(inputs[..i]))
    {
      var (k, v) := inputs[i];
      if k !in Keys(template) {
        StrayAt(template, inputs, i);
        return Failure(IgnoredInput(k, templatefile));
      }
      SubstituteStep(template, inputs, i);
      StrayExtend(template, inputs, i);
      tmp := Put(tmp, k, Set(v));
      toSet := Remove(toSet, k);
    }
    assert inputs[..|inputs|] == inputs;
    if |toSet| > 0 {
      return Failure(FieldsNotSet(toSet));
    }
    return Success(tmp);
  }

  // ---------------------------------------------------------------------
  // Paths (`os.path` on POSIX)

  /** `os.path.join(a, b)`: an absolute `b` replaces `a`; otherwise a `/` is
      inserted unless `a` is empty or already ends with one. */
  function PathJoin(a: string, b: string): (r: string)
    ensures b != [] && b[0] == '/' ==> r == b
    ensures (b == [] || b[0] != '/') ==> exists p :: r == p + b && (p == [] || p[|p| - 1] == '/')
  {
    if b != [] && b[0] == '/' then b
    else if a == [] || a[|a| - 1] == '/' then a + b
    else
      assert a + "/" + b == (a + "/") + b;
      a + "/" + b
  }

  /** `os.path.split(p)[1]`: the text after the last `/`. */
  function Basename(p: string): (r: string)
    ensures '/' !in r
    ensures |r| <= |p| && r == p[|p| - |r|..]
    ensures |r| == |p| || p[|p| - |r| - 1] == '/'
    decreases |p|
  {
    if p == [] || p[|p| - 1] == '/' then [] else Basename(p[..|p| - 1]) + [p[|p| - 1]]
  }

  /** The position of the last `c` in `s`, or -1. */
  function RFind(s: string, c: char): (r: int)
    ensures -1 <= r < |s|
    ensures r >= 0 ==> s[r] == c
    ensures forall k :: r < k < |s| ==> s[k] != c
    decreases |s|
  {
    if s == [] then -1
    else if s[|s| - 1] == c then |s| - 1
    else RFind(s[..|s| - 1], c)
  }

  /** `os.path.splitext(p)[0]`: drops the text from the last `.` of the
      final component, unless that component has only dots before it. */
  function SplitExtRoot(p: string): (r: string)
    ensures |r| <= |p| && r == p[..|r|]
    ensures r != p ==> p[|r|] == '.' && '/' !in p[|r|..] && '.' !in p[|r| + 1..]
  {
    var dot := RFind(p, '.');
    var sep := RFind(p, '/');
    if dot > sep && exists k :: sep + 1 <= k < dot && p[k] != '.' then p[..dot] else p
  }

  /** The basename of a joined path is the joined name, when it has no `/`. */
  lemma {:induction false} BasenameJoin(a: string, name: string)
    requires '/' !in name
    ensures Basename(PathJoin(a, name)) == name
  {
    var p :| PathJoin(a, name) == p + name && (p == [] || p[|p| - 1] == '/');
    BasenameAfterSlash(p, name);
  }

  lemma {:induction false} BasenameAfterSlash(p: string, name: string)
    requires '/' !in name && (p == [] || p[|p| - 1] == '/')
    ensures Basename(p + name) == name
    decreases |name|
  {
    if name == [] {
      assert p + name == p;
    } else {
      var q := p + name;
      assert q[..|q| - 1] == p + name[..|name| - 1];
      assert q[|q| - 1] == name[|name| - 1];
      assert name[|name| - 1] in name;
      BasenameAfterSlash(p, name[..|name| - 1]);
    }
  }

  // ---------------------------------------------------------------------
  // TurbSim set-up

  /** `'{}_{:02d}.inp'.format(prefix, irun)`. */
  function TurbsimName(prefix: string, irun: nat): string {
    prefix + "_" + Pad2(irun) + ".inp"
  }

  /** `self.ts_inputfiles` for a sweep of `nruns` runs. */
  function TurbsimInputs(cwd: string, inflowdir: string, prefix: string, nruns: int): (r: seq<string>)
    ensures |r| == RangeLen(nruns)
    ensures '/' !in prefix ==> forall i :: 0 <= i < |r| ==> Basename(r[i]) == TurbsimName(prefix, i)
  {
    var paths := seq(RangeLen(nruns), i requires 0 <= i => PathJoin(PathJoin(cwd, inflowdir), TurbsimName(prefix, i)));
    if '/' in prefix then paths
    else InputNames(PathJoin(cwd, inflowdir), prefix, RangeLen(nruns)); paths
  }

  /** Each input file joined onto the inflow directory keeps its name. */
  lemma InputNames(dir: string, prefix: string, n: nat)
    requires '/' !in prefix
    ensures forall i: nat :: i < n ==> Basename(PathJoin(dir, TurbsimName(prefix, i))) == TurbsimName(prefix, i)
  {
    forall i: nat | i < n ensures Basename(PathJoin(dir, TurbsimName(prefix, i))) == TurbsimName(prefix, i) {
      NameNoSlash(prefix, i);
      BasenameJoin(dir, TurbsimName(prefix, i));
    }
  }

  /** The keys of the caller's dict once `RandSeed1` has been assigned. */
  function SeedKeys(ks: seq<string>): seq<string> {
    if "RandSeed1" in ks then ks else ks + ["RandSeed1"]
  }

  /** The loop of `setup_turbsim`: for each seed in turn, assign it to
      `RandSeed1` in the caller's dict and generate that run's input file
      from the template.  Returns the dict as the loop leaves it. */
  method GenerateRuns(templatefile: string, fields: Dict<string, string>, inputs: Dict<string, Value>, seeds: seq<int>)
    returns (r: Result<Dict<string, Value>, Error>)
    requires DistinctKeys(inputs) && DistinctKeys(fields)
    ensures r.Success? <==> seeds == [] || Covers(Keys(fields), SeedKeys(Keys(inputs)))
    ensures r.Failure? ==>
              seeds != [] && r.error == Generate(templatefile, fields, Put(inputs, "RandSeed1", Int(seeds[0]))).error
    ensures r.Success? && seeds == [] ==> r.value == inputs
    ensures r.Success? && seeds != [] ==>
              && Keys(r.value) == SeedKeys(Keys(inputs))
              && Get(r.value, "RandSeed1") == Some(Int(seeds[|seeds| - 1]))
              && forall k :: k != "RandSeed1" ==> Get(r.value, k) == Get(inputs, k)
  {
    var given := inputs;
    for i := 0 to |seeds|
      invariant DistinctKeys(given)
      invariant i == 0 ==> given == inputs
      invariant i > 0 ==> Keys(given) == SeedKeys(Keys(inputs))
      invariant i > 0 ==> Get(given, "RandSeed1") == Some(Int(seeds[i - 1]))
      invariant forall k :: k != "RandSeed1" ==> Get(given, k) == Get(inputs, k)
      invariant i > 0 ==> Covers(Keys(fields), SeedKeys(Keys(inputs)))
    {
      var before := given;
      given := Put(given, "RandSeed1", Int(seeds[i]));
      assert Keys(given) == SeedKeys(Keys(inputs)) by {
        if i > 0 {
          assert "RandSeed1" in Keys(before);
        }
      }
      var g := GenerateInput(templatefile, fields, given);
      if g.Failure? {
        assert i == 0;
        return Failure(g.error);
      }
    }
    return Success(given);
  }

  /** `setup_turbsim`: records the inflow directory and `URef`, names one
      TurbSim input per run, and generates each from the template with that
      run's seed as `RandSeed1` (the caller's dict is updated in place and
      returned).  `fields` is the template's `{field: format}` map. */
  method SetupTurbsim(s: OpenFAST, inputs: Dict<string, Value>, inflowdir: string, template: string,
                      prefix: string, fields: Dict<string, string>)
    returns (r: Result<(OpenFAST, Dict<string, Value>), Error>)
    requires DistinctKeys(inputs) && DistinctKeys(fields)
    ensures "URef" !in Keys(inputs) ==> r == Failure(MissingKey("URef"))
    ensures r.Success? <==>
              && "URef" in Keys(inputs)
              && (Min(RangeLen(s.nruns), |s.seeds|) == 0 || Covers(Keys(fields), SeedKeys(Keys(inputs))))
    ensures r.Failure? && "URef" in Keys(inputs) ==>
              && s.nruns > 0 && s.seeds != []
              && r.error == Generate(PathJoin(PathJoin(s.cwd, inflowdir), template), fields,
                                     Put(inputs, "RandSeed1", Int(s.seeds[0]))).error
    ensures r.Success? ==>
              r.value.0 == s.(inflowdir := Some(inflowdir), uref := Get(inputs, "URef"),
                              tsInputfiles := Some(TurbsimInputs(s.cwd, inflowdir, prefix, s.nruns)),
                              inflowtype := Some("turbsim"))
    ensures r.Success? && Min(RangeLen(s.nruns), |s.seeds|) == 0 ==> r.value.1 == inputs
    ensures r.Success? && Min(RangeLen(s.nruns), |s.seeds|) > 0 ==>
              && Keys(r.value.1) == SeedKeys(Keys(inputs))
              && Get(r.value.1, "RandSeed1") == Some(Int(s.seeds[Min(RangeLen(s.nruns), |s.seeds|) - 1]))
              && forall k :: k != "RandSeed1" ==> Get(r.value.1, k) == Get(inputs, k)
  {
    if "URef" !in Keys(inputs) {
      return Failure(MissingKey("URef"));
    }
    var uref := Get(inputs, "URef");
    var files := TurbsimInputs(s.cwd, inflowdir, prefix, s.nruns);
    var templatefile := PathJoin(PathJoin(s.cwd, inflowdir), template);
    var runs := Min(|files|, |s.seeds|);
    var given :- GenerateRuns(templatefile, fields, inputs, s.seeds[..runs]);
    var t := s.(inflowdir := Some(inflowdir), uref := uref, tsInputfiles := Some(files), inflowtype := Some("turbsim"));
    return Success((t, given));
  }

  function Min(a: int, b: int): int {
    if a < b then a else b
  }

  /** Distinct runs get distinct TurbSim input files. */
  lemma TurbsimInputsDistinct(cwd: string, inflowdir: string, prefix: string, nruns: int, i: nat, j: nat)
    requires i < j < RangeLen(nruns)
    ensures TurbsimInputs(cwd, inflowdir, prefix, nruns)[i] != TurbsimInputs(cwd, inflowdir, prefix, nruns)[j]
  {
    var base := PathJoin(cwd, inflowdir);
    var a := TurbsimName(prefix, i);
    var b := TurbsimName(prefix, j);
    assert a[0] == b[0] by {
      if prefix == [] {
        assert a[0] == '_' && b[0] == '_';
      } else {
        assert a[0] == prefix[0] && b[0] == prefix[0];
      }
    }
    if PathJoin(base, a) == PathJoin(base, b) {
      assert a == b by {
        if a[0] != '/' {
          var p :| PathJoin(base, a) == p + a && (p == [] || p[|p| - 1] == '/');
          var q :| PathJoin(base, b) == q + b && (q == [] || q[|q| - 1] == '/');
          assert p == q by {
            PrefixOfJoin(base, a, p);
            PrefixOfJoin(base, b, q);
          }
          assert a == (p + a)[|p|..] && b == (q + b)[|q|..];
        }
      }
      NameInjective(prefix, i, j);
    }
  }

  /** The text `os.path.join` puts before a relative name depends only on the
      directory. */
  lemma PrefixOfJoin(base: string, name: string, p: string)
    requires name != [] && name[0] != '/'
    requires PathJoin(base, name) == p + name
    ensures p == if base == [] || base[|base| - 1] == '/' then base else base + "/"
  {
    if base == [] || base[|base| - 1] == '/' {
      assert |p| == |base|;
      assert p == (p + name)[..|p|];
    } else {
      assert base + "/" + name == (base + "/") + name;
      assert |p| == |base| + 1;
      assert p == (p + name)[..|p|];
    }
  }

  /** Distinct run numbers give distinct input names. */
  lemma NameInjective(prefix: string, i: nat, j: nat)
    requires TurbsimName(prefix, i) == TurbsimName(prefix, j)
    ensures i == j
  {
    var a := TurbsimName(prefix, i);
    var n := |prefix| + 1;
    assert |Pad2(i)| == |Pad2(j)|;
    assert Pad2(i) == a[n..n + |Pad2(i)|];
    assert Pad2(j) == TurbsimName(prefix, j)[n..n + |Pad2(j)|];
    Pad2Injective(i, j);
  }

  /** An input name has no `/` when its prefix has none. */
  lemma NameNoSlash(prefix: string, irun: nat)
    requires '/' !in prefix
    ensures '/' !in TurbsimName(prefix, irun)
  {
    var stem := prefix + "_" + Pad2(irun);
    var name := TurbsimName(prefix, irun);
    assert name == stem + ".inp";
    forall k | 0 <= k < |name| ensures name[k] != '/' {
      if k < |prefix| {
        assert name[k] == prefix[k];
      } else if k >= |prefix| + 1 && k < |stem| {
        assert name[k] == Pad2(irun)[k - |prefix| - 1];
      }
    }
  }

  /** The `.bts` file TurbSim writes for run `irun` of a sweep set up by
      `setup_turbsim`. */
  lemma BtsOfRun(cwd: string, inflowdir: string, prefix: string, nruns: int, irun: nat)
    requires irun < RangeLen(nruns) && '/' !in prefix
    ensures SplitExtRoot(Basename(TurbsimInputs(cwd, inflowdir, prefix, nruns)[irun])) + ".bts"
            == prefix + "_" + Pad2(irun) + ".bts"
  {
    NameNoSlash(prefix, irun);
    BasenameJoin(PathJoin(cwd, inflowdir), TurbsimName(prefix, irun));
    BtsName(prefix, irun);
  }

  /** TurbSim writes `<prefix>_NN.bts` for the input `<prefix>_NN.inp`. */
  lemma BtsName(prefix: string, irun: nat)
    requires '/' !in prefix
    ensures SplitExtRoot(TurbsimName(prefix, irun)) + ".bts" == prefix + "_" + Pad2(irun) + ".bts"
  {
    var stem := prefix + "_" + Pad2(irun);
    var p := TurbsimName(prefix, irun);
    assert p == stem + ".inp";
    assert p[|stem|] == '.';
    assert p[|stem| + 1] == 'i' && p[|stem| + 2] == 'n' && p[|stem| + 3] == 'p';
    assert RFind(p, '.') == |stem|;
    NameNoSlash(prefix, irun);
    assert RFind(p, '/') == -1;
    assert p[|prefix|] == '_';
    assert p[..|stem|] == stem;
  }

  // ---------------------------------------------------------------------
  // OpenFAST set-up and runs

  /** A generated input file: its path and the filled template. */
  datatype Written = Written(path: string, values: Dict<string, Slot>)

  /** What `_setup_openfast` produces: the `.fst` file name it returns and the
      two input files it generates. */
  datatype OpenFastSetup = OpenFastSetup(fstfile: string, inflow: Written, fst: Written)

  /** `_setup_openfast(irun)`; `inflowFields` and `fstFields` are the
      `{field: format}` maps of `InflowWind_bts.dat` and `start.fst`. */
  function SetupOpenFAST(s: OpenFAST, irun: nat, inflowFields: Dict<string, string>, fstFields: Dict<string, string>)
    : (r: Result<OpenFastSetup, Error>)
    ensures s.inflowtype == None ==> r == Failure(InflowTypeNone)
    ensures s.inflowtype.Some? && s.inflowtype.value != "turbsim" ==> r == Failure(UnexpectedInflow(s.inflowtype.value))
    ensures s.inflowtype == Some("turbsim") && r.Failure? ==> !r.error.UnexpectedInflow? && r.error != InflowTypeNone
    ensures r.Success? <==>
              && s.inflowtype == Some("turbsim")
              && s.tsInputfiles.Some? && irun < |s.tsInputfiles.value| && s.inflowdir.Some?
              && Generate(PathJoin(s.cwd, "InflowWind_bts.dat"), inflowFields,
                          [("BTSFilename", Str(PathJoin(s.inflowdir.value, SplitExtRoot(Basename(s.tsInputfiles.value[irun])) + ".bts")))]).Success?
              && Generate(PathJoin(s.cwd, "start.fst"), fstFields, [("InflowFile", Str("InflowWind_" + Pad2(irun) + ".dat"))]).Success?
    ensures r.Success? ==>
              && s.inflowtype == Some("turbsim")
              && s.tsInputfiles.Some? && irun < |s.tsInputfiles.value| && s.inflowdir.Some?
              && r.value.fstfile == "run" + Pad2(irun) + ".fst"
              && r.value.inflow.path == PathJoin(s.cwd, "InflowWind_" + Pad2(irun) + ".dat")
              && r.value.fst.path == PathJoin(s.cwd, r.value.fstfile)
              && Keys(r.value.inflow.values) == Keys(inflowFields)
              && Keys(r.value.fst.values) == Keys(fstFields)
              && Get(r.value.inflow.values, "BTSFilename")
                 == Some(Set(Str(PathJoin(s.inflowdir.value, SplitExtRoot(Basename(s.tsInputfiles.value[irun])) + ".bts"))))
              && Get(r.value.fst.values, "InflowFile") == Some(Set(Str("InflowWind_" + Pad2(irun) + ".dat")))
  {
    var inflowfile := "InflowWind_" + Pad2(irun) + ".dat";
    var inflowpath := PathJoin(s.cwd, inflowfile);
    if s.inflowtype == None then Failure(InflowTypeNone)
    else if s.inflowtype.value != "turbsim" then Failure(UnexpectedInflow(s.inflowtype.value))
    else if s.tsInputfiles.None? then Failure(MissingAttribute("ts_inputfiles"))
    else if irun >= |s.tsInputfiles.value| then Failure(IndexOutOfRange(irun))
    else if s.inflowdir.None? then Failure(MissingAttribute("inflowdir"))
    else
      var btsfile := SplitExtRoot(Basename(s.tsInputfiles.value[irun])) + ".bts";
      var btspath := PathJoin(s.inflowdir.value, btsfile);
      var inflow := Generate(PathJoin(s.cwd, "InflowWind_bts.dat"), inflowFields, [("BTSFilename", Str(btspath))]);
      GenerateOne(PathJoin(s.cwd, "InflowWind_bts.dat"), inflowFields, "BTSFilename", Str(btspath));
      if inflow.Failure? then Failure(inflow.error)
      else
        var fstfile := "run" + Pad2(irun) + ".fst";
        var fst := Generate(PathJoin(s.cwd, "start.fst"), fstFields, [("InflowFile", Str(inflowfile))]);
        GenerateOne(PathJoin(s.cwd, "start.fst"), fstFields, "InflowFile", Str(inflowfile));
        if fst.Failure? then Failure(fst.error)
        else Success(OpenFastSetup(fstfile, Written(inflowpath, inflow.value), Written(PathJoin(s.cwd, fstfile), fst.value)))
  }

  /** A template filled from a single supplied value. */
  lemma GenerateOne(templatefile: string, template: Dict<string, string>, k: string, v: Value)
    ensures var r := Generate(templatefile, template, [(k, v)]);
            && (r.Failure? ==> r.error.IgnoredInput? || r.error.FieldsNotSet?)
            && (r.Success? ==> Keys(r.value) == Keys(template) && Get(r.value, k) == Some(Set(v)))
  {
    var r := Generate(templatefile, template, [(k, v)]);
    if r.Success? {
      assert [(k, v)][0].0 == k;
    }
  }

  /** After `setup_turbsim` with a prefix free of `/`, every run's set-up
      succeeds on templates asking for exactly `BTSFilename` and
      `InflowFile`, and points InflowWind at that run's `.bts` file. */
  lemma SetupAfterTurbsim(s: OpenFAST, inflowdir: string, prefix: string, irun: nat,
                          inflowFields: Dict<string, string>, fstFields: Dict<string, string>)
    requires s.inflowtype == Some("turbsim") && s.inflowdir == Some(inflowdir)
    requires s.tsInputfiles == Some(TurbsimInputs(s.cwd, inflowdir, prefix, s.nruns))
    requires irun < RangeLen(s.nruns) && '/' !in prefix
    requires Keys(inflowFields) == ["BTSFilename"] && Keys(fstFields) == ["InflowFile"]
    ensures SetupOpenFAST(s, irun, inflowFields, fstFields).Success?
    ensures Get(SetupOpenFAST(s, irun, inflowFields, fstFields).value.inflow.values, "BTSFilename")
            == Some(Set(Str(PathJoin(inflowdir, prefix + "_" + Pad2(irun) + ".bts"))))
  {
    BtsOfRun(s.cwd, inflowdir, prefix, s.nruns, irun);
    var btspath := PathJoin(inflowdir, SplitExtRoot(Basename(s.tsInputfiles.value[irun])) + ".bts");
    GenerateExact(PathJoin(s.cwd, "InflowWind_bts.dat"), inflowFields, "BTSFilename", Str(btspath));
    GenerateExact(PathJoin(s.cwd, "start.fst"), fstFields, "InflowFile", Str("InflowWind_" + Pad2(irun) + ".dat"));
  }

  /** A template of one field filled with a value for that field. */
  lemma GenerateExact(templatefile: string, template: Dict<string, string>, k: string, v: Value)
    requires Keys(template) == [k]
    ensures Generate(templatefile, template, [(k, v)]).Success?
  {
    assert Keys([(k, v)]) == [k];
  }

  /** `run(i)` up to launching OpenFAST: TurbSim is run first when the
      inflow is TurbSim, then the inputs are set up.  `turbsimOk` and
      `openfastOk` say whether each program printed its normal-termination
      line and exited with status 0. */
  function Run(s: OpenFAST, i: nat, inflowFields: Dict<string, string>, fstFields: Dict<string, string>,
               turbsimOk: bool, openfastOk: bool): (r: Result<OpenFastSetup, Error>)
    ensures s.inflowtype == None ==> r == Failure(NeedSetup)
    ensures s.inflowtype.Some? && s.inflowtype.value != "turbsim" ==> r == Failure(InflowNotNone)
    ensures r.Failure? ==> !r.error.UnexpectedInflow? && r.error != InflowTypeNone
    ensures r.Success? ==> s.inflowtype == Some("turbsim") && turbsimOk && openfastOk
  {
    if s.inflowtype != Some("turbsim") then
      if s.inflowtype == None then Failure(NeedSetup) else Failure(InflowNotNone)
    else if s.tsInputfiles.None? then Failure(MissingAttribute("ts_inputfiles"))
    else if i >= |s.tsInputfiles.value| then Failure(IndexOutOfRange(i))
    else if s.inflowdir.None? then Failure(MissingAttribute("inflowdir"))
    else if !turbsimOk then Failure(ProgramFailed("turbsim"))
    else
      var setup := SetupOpenFAST(s, i, inflowFields, fstFields);
      if setup.Failure? then setup
      else if !openfastOk then Failure(ProgramFailed("openfast"))
      else setup
  }

  /** A run succeeds exactly when the inflow is TurbSim, both programs
      terminate normally and the input set-up succeeds; it then yields that
      set-up. */
  lemma RunIsSetup(s: OpenFAST, i: nat, inflowFields: Dict<string, string>, fstFields: Dict<string, string>,
                   turbsimOk: bool, openfastOk: bool)
    ensures Run(s, i, inflowFields, fstFields, turbsimOk, openfastOk).Success? <==>
              && s.inflowtype == Some("turbsim") && turbsimOk && openfastOk
              && SetupOpenFAST(s, i, inflowFields, fstFields).Success?
    ensures Run(s, i, inflowFields, fstFields, turbsimOk, openfastOk).Success? ==>
              Run(s, i, inflowFields, fstFields, turbsimOk, openfastOk) == SetupOpenFAST(s, i, inflowFields, fstFields)
  {
    var setup := SetupOpenFAST(s, i, inflowFields, fstFields);
    if setup.Success? && s.inflowtype == Some("turbsim") {
      assert s.tsInputfiles.Some? && i < |s.tsInputfiles.value| && s.inflowdir.Some?;
    }
  }

  /** `run_all(procs)`: records whether the runs go to a process pool, then
      performs run 0, 1, ... in turn, stopping at the first failure.
      `outcome(i)` gives the two programs' outcomes for run `i`. */
  method RunAll(s: OpenFAST, procs: int, inflowFields: Dict<string, string>, fstFields: Dict<string, string>,
                outcome: nat -> (bool, bool))
    returns (t: OpenFAST, r: Result<seq<OpenFastSetup>, Error>)
    ensures t == s.(parallel := procs > 1)
    ensures r.Success? <==> forall i :: 0 <= i < RangeLen(s.nruns) ==>
                              Run(t, i, inflowFields, fstFields, outcome(i).0, outcome(i).1).Success?
    ensures r.Success? ==> |r.value| == RangeLen(s.nruns)
    ensures r.Success? ==> forall i :: 0 <= i < |r.value| ==>
                             r.value[i] == Run(t, i, inflowFields, fstFields, outcome(i).0, outcome(i).1).value
    ensures r.Failure? ==> exists i :: 0 <= i < RangeLen(s.nruns)
                             && Run(t, i, inflowFields, fstFields, outcome(i).0, outcome(i).1) == Failure(r.error)
                             && forall j :: 0 <= j < i ==> Run(t, j, inflowFields, fstFields, outcome(j).0, outcome(j).1).Success?
  {
    t := s.(parallel := procs > 1);
    var done: seq<OpenFastSetup> := [];
    for i := 0 to RangeLen(s.nruns)
      invariant |done| == i
      invariant forall j :: 0 <= j < i ==> Run(t, j, inflowFields, fstFields, outcome(j).0, outcome(j).1) == Success(done[j])
    {
      var x := Run(t, i, inflowFields, fstFields, outcome(i).0, outcome(i).1);
      if x.Failure? {
        return t, Failure(x.error);
      }
      var more := done + [x.value];
      forall j | 0 <= j < i + 1
        ensures Run(t, j, inflowFields, fstFields, outcome(j).0, outcome(j).1) == Success(more[j])
      {
        if j < i {
          assert more[j] == done[j];
        }
      }
      done := more;
    }
    return t, Success(done);
  }

  /** Before `setup_turbsim`, a sweep with at least one run fails with the
      "Need to setup inflow" error, whatever the external programs do. */
  lemma RunBeforeSetup(dpath: string, nruns: int, seed: int, verbose: bool, draw: (int, nat) -> nat, i: nat,
                       inflowFields: Dict<string, string>, fstFields: Dict<string, string>, ts: bool, of: bool)
    ensures Run(Init(dpath, nruns, seed, verbose, draw), i, inflowFields, fstFields, ts, of) == Failure(NeedSetup)
  {
  }
}

=== FILE: wrappers.dfy ===
/** Failure-compatible result types shared by every module of the model.
    Python exceptions become `Failure` values so that each error path of the
    source is an ordinary, checkable outcome. */
module Wrappers {

  /** Python's `None` or a present value. */
  datatype Option<+T> = None | Some(value: T) {
    predicate IsFailure() {
      None?
    }

    function PropagateFailure<U>(): Option<U>
      requires None?
    {
      None
    }

    function Extract(): T
      requires Some?
    {
      value
    }
  }

  /** A value, or the exception the source would raise instead. */
  datatype Result<+R, +E> = Success(value: R) | Failure(error: E) {
    predicate IsFailure() {
      Failure?
    }

    function PropagateFailure<U>(): Result<U, E>
      requires Failure?
    {
      Failure(error)
    }

    function Extract(): R
      requires Success?
    {
      value
    }
  }
}
